=== FILE: README.md ===
# FinanceApp core in Dafny

FinanceApp is a personal-finance application. It has a Flask backend over
SQLite and a React front end. The backend keeps:

- transactions, categories and per-category monthly limits;
- savings goals, alerts and investment suggestions;
- a chat log.

It also analyses spending, plans budget cuts towards a savings target,
picks "quick wins", predicts next month's expenses, and answers a
keyword-driven chatbot. The React components hold the page state around
these endpoints.

This project models that core as pure Dafny functions over immutable
datatypes. Each operation carries a contract stating what it promises, and
lemmas relate the operations to each other: totals and invariants they
keep, round trips, orderings, and as-written versus corrected behaviour.

Amounts are exact `real`s. A JavaScript or Python value that may be NaN,
`undefined`, `None` or an infinity is an `Option`. Clocks, random draws,
`parseFloat` results and request outcomes are parameters.

Modules, one per source file:

| module | file | models |
|---|---|---|
| `Common` | common.dfy | sums, GROUP BY partitions, substring search, `replace`, lower-casing, keyword chains, stable sorts |
| `BudgetAnalyzer` | budget_analyzer.dfy | backend/budget_analyzer.py |
| `Db` | db.dfy | backend/db.py |
| `App` | app.dfy | the writing endpoints of backend/app.py |
| `Reports` | reports.dfy | the reading endpoints of backend/app.py |
| `Chatbot` | chatbot.dfy | the `/api/chatbot` endpoint of backend/app.py |
| `MlPrediction` | ml_prediction.dfy | the deterministic parts of backend/ml_prediction.py |
| `FinanceAgent` | finance_agent.dfy | backend/finance_agent.py |
| `*View` | one file per component | the state logic of the React components |

## Model

| member | source | states |
|---|---|---|
| Common.SumByPermutation | backend/budget_analyzer.py:238 | a total over suggestions does not depend on their order |
| Common.GroupTotalsPartition | backend/app.py:290-309 | the groups of a GROUP BY partition the rows: the group totals add up to the total over all rows |
| Common.SumByFilter | backend/app.py:311-317 | a sum splits into the part kept by a filter and the part it drops |
| Common.Keys | backend/app.py:364-371 | the distinct keys of the rows, each once, in order of first occurrence, and exactly those of the rows |
| Common.Contains | backend/app.py:723 | `sub in s` holds exactly when `sub` occurs at some position of `s` |
| Common.FirstOccurrence | frontend/src/components/Predictions.js:153 | `indexOf`: absent exactly when `sub` does not occur; otherwise the first position where it occurs |
| Common.ReplaceFirst | frontend/src/components/Predictions.js:153 | `replace` with a string pattern replaces the first occurrence only, and leaves a text without it unchanged |
| Common.StripSuffix | frontend/src/components/Predictions.js:152-153 | removing a suffix the text ends with, so that the text is the result followed by the suffix |
| Common.Lower | backend/app.py:719 | lower-casing keeps the length and lowers each character on its own |
| Common.FirstGroup | backend/app.py:723-829 | the first group, in table order, with a word contained in the text; none exactly when no group has one |
| Common.Take | backend/budget_analyzer.py:547 | `xs[:n]`: a prefix of length `min(n, |xs|)` |
| Common.SortByText | backend/db.py:269-271 | `ORDER BY key ASC`: a permutation of the rows, sorted by the text key |
| Common.SortDesc | backend/budget_analyzer.py:235 | `sort(reverse=True)` by a key: a permutation of the input, sorted in descending order of the key |
| Common.SortDescStable | backend/budget_analyzer.py:235 | the sort is stable: for every key value, the elements with that key keep their input order |
| BudgetAnalyzer.NameOf | backend/budget_analyzer.py:158-162 | the name of the category with an id, present exactly when some category has that id |
| BudgetAnalyzer.LastLimit | backend/budget_analyzer.py:157-167 | the limit recorded for a name is that of the last limit row resolving to it, and absent exactly when none does |
| BudgetAnalyzer.LimitsByName | backend/budget_analyzer.py:155-167 | the limit dictionary holds a name exactly when some limit row resolves to it, with the last such row's amount |
| BudgetAnalyzer.OveragePercent | backend/budget_analyzer.py:184-188 | the overage of the monthly average over the limit in percent of the limit, positive exactly for a positive limit; defined only for a non-zero limit, since Python float division by 0 raises |
| BudgetAnalyzer.OverageCut | backend/budget_analyzer.py:223-225 | the over-limit cut is the overage percentage when that is at most 40, and 40 otherwise; positive for a positive limit |
| BudgetAnalyzer.SuggestedCut | backend/budget_analyzer.py:201-225 | the cut lies in 0..40 and is at least the contribution of every criterion that applies (30, 20, or the capped overage) |
| BudgetAnalyzer.SuggestedCutIsLargestContribution | backend/budget_analyzer.py:201-225 | the cut is 0 or exactly the contribution of one criterion that applies, and is positive exactly when some criterion contributes |
| BudgetAnalyzer.Reasons | backend/budget_analyzer.py:202-227 | each reason is listed exactly when its criterion applies, and the over-limit reason carries the overage percentage of the limit |
| BudgetAnalyzer.Actions | backend/budget_analyzer.py:202-227 | each category-specific advice exactly when the category is high-spend non-essential and its lowered name holds one of that advice's words; the fixed-budget and meet-limit advice exactly when their criteria apply |
| BudgetAnalyzer.SuggestionFor | backend/budget_analyzer.py:170-232 | a suggestion is emitted exactly for a named category with a positive cut, carries that cut with savings equal to average × cut / 100, and the category's share of the monthly total |
| BudgetAnalyzer.ShareOfTotal | backend/budget_analyzer.py:194 | `percent_of_total`: the share times the monthly total is 100 × the category's average; none for a zero total, where the numpy division gives no finite number |
| BudgetAnalyzer.CollectSuggestions | backend/budget_analyzer.py:170-232 | the emitted suggestions are exactly those of the rows that emit one, each consistent with a cut in (0, 40] |
| BudgetAnalyzer.PercentOf | backend/budget_analyzer.py:239 | the savings percentage times the monthly total is 100 × the savings, and 0 for a non-positive total |
| BudgetAnalyzer.GeneralRecommendations | backend/budget_analyzer.py:241-252 | the savings summary appears exactly with three or more suggestions, the opportunities note exactly when some cut exceeds 30 |
| BudgetAnalyzer.AnalyzeExpenses | backend/budget_analyzer.py:83-252 | insufficient data exactly without expenses; with expenses the analysis fails exactly when a named category over its limit has a zero limit (the division at line 188 raises); otherwise the suggestions are the collected ones sorted by savings, with their total and percentage in the summary |
| BudgetAnalyzer.AnalysisCoversCategories | backend/budget_analyzer.py:170-235 | in a completed analysis, a suggestion is present exactly when some category row emits it |
| BudgetAnalyzer.EffectiveTarget | backend/budget_analyzer.py:336-343 | a given non-zero target is kept; an absent or zero one becomes 15% of the monthly expenses |
| BudgetAnalyzer.ScaleUp | backend/budget_analyzer.py:353-355 | scaling up caps the cut at 50 and keeps the savings consistent with the new cut |
| BudgetAnalyzer.ScaleDown | backend/budget_analyzer.py:361-363 | scaling down floors the cut at 5 and keeps the savings consistent with the new cut |
| BudgetAnalyzer.UpFactor | backend/budget_analyzer.py:351 | `min(target / potential, 1.5)`: the ratio itself when it is at most 1.5, else 1.5; a zero potential (reached only with the default numpy target, whose ratio is infinite) gives 1.5; above 1 for a positive potential |
| BudgetAnalyzer.DownFactor | backend/budget_analyzer.py:359 | `max(target / potential, 0.3)`: the ratio itself when it is at least 0.3, else 0.3; below 1 for a positive potential |
| BudgetAnalyzer.Rescale | backend/budget_analyzer.py:328-363 | a division error exactly when a requested (Python float) non-zero target meets a zero potential; otherwise every suggestion is scaled up by the up factor, scaled down by the down factor, or left unchanged when the potential equals the target |
| BudgetAnalyzer.ScaleBounds | backend/budget_analyzer.py:349-363 | each rescaled cut lies between the cut capped at 50 and 1.5 × the cut capped at 50 when scaling up, and between the floors of 0.3 × the cut and the cut when scaling down |
| BudgetAnalyzer.RescaleReachesTarget | backend/budget_analyzer.py:345-363 | when neither the factor nor any cut is clamped, the rescaled savings add up to exactly the target |
| BudgetAnalyzer.ToPlanItem | backend/budget_analyzer.py:379-390 | the new budget is the current spending less the monthly saving, for a consistent suggestion |
| BudgetAnalyzer.PlanBudgetsBalance | backend/budget_analyzer.py:376-390 | every plan row's new budget is its current spending less its monthly saving |
| BudgetAnalyzer.SpendingPlan | backend/budget_analyzer.py:376-396 | the plan is a prefix of the sorted suggestions that stops at the first position, at least the third, where the running savings reach the target |
| BudgetAnalyzer.PlanCoversEstimate | backend/budget_analyzer.py:392-418 | the plan saves at least the estimate, the smaller of the adjusted total and the target |
| BudgetAnalyzer.PlanFromAdjusted | backend/budget_analyzer.py:365-421 | the estimate never exceeds the target, the goal is achievable exactly when the adjusted total reaches the target, and the spending plan is the prefix of the savings-sorted adjusted suggestions (SpendingPlan) that saves at least the estimate |
| BudgetAnalyzer.PlanCuts | backend/budget_analyzer.py:328-421 | insufficient data is passed through and a failed analysis gives a server error; a server error exactly when a requested target meets a zero potential; otherwise a plan for the effective target whose estimate is the smaller of the rescaled total and the target, achievable exactly when the estimate reaches the target, and whose spending plan is the SpendingPlan of the rescaled suggestions sorted by savings |
| BudgetAnalyzer.UnclampedPlanMeetsTarget | backend/budget_analyzer.py:328-421 | when no clamp binds, the plan is achievable and its estimated savings equal the target |
| BudgetAnalyzer.CostCuttingRecommendation | backend/budget_analyzer.py:315-421 | without expenses the plan reports insufficient data; a zero limit under a category over its limit gives a server error; a plan's target is the effective target for the monthly expenses, its estimate is the smaller of the rescaled savings total and that target, and its spending plan is the SpendingPlan of the rescaled suggestions sorted by savings |
| BudgetAnalyzer.Descriptions | backend/budget_analyzer.py:485-487 | the distinct descriptions of the expenses, each once, and no other |
| BudgetAnalyzer.FrequentSmallWins | backend/budget_analyzer.py:480-501 | the frequent-small wins come in ascending description order, as `groupby` sorts its keys |
| BudgetAnalyzer.FrequentSmallWinsExact | backend/budget_analyzer.py:480-501 | one frequent-small win per description with three or more expenses under 50, with its count and total, and no other |
| BudgetAnalyzer.SubscriptionWins | backend/budget_analyzer.py:504-517 | one subscription win per expense whose lowered description contains a subscription keyword, in row order with repeats, stated element by element against the filtered rows |
| BudgetAnalyzer.HighExpenseWins | backend/budget_analyzer.py:521-538 | no high-expense win below ten expenses; otherwise one per expense above the threshold, in row order with repeats, element by element |
| BudgetAnalyzer.AboveThreshold | backend/budget_analyzer.py:521-538 | one high-expense win per row above the threshold, in row order, element by element against the filtered rows |
| BudgetAnalyzer.PotentialMonthlySavings | backend/budget_analyzer.py:499-543 | the ranking key: three quarters of a frequent-small total, a subscription's amount, and 0 for a high expense, which has no numeric estimate |
| BudgetAnalyzer.SelectQuickWins | backend/budget_analyzer.py:424-547 | no expenses gives insufficient data; otherwise at most ten candidates, sorted by potential savings, and no candidate left out ranks above the last one kept |
| BudgetAnalyzer.SelectQuickWinsAsWritten | backend/budget_analyzer.py:468-521 | as written, the column guards never hold, so no quick win is ever produced |
| BudgetAnalyzer.QuickWinsColumnsCounterexample | backend/budget_analyzer.py:480-501 | three coffees of 8 give one frequent-small win worth 18 as intended, and none as written |
| Db.FreshId | backend/db.py:95-96 | an autoincrement id is positive and above every id in use |
| Db.FreshIdKeepsDistinct | backend/db.py:95-96 | appending a fresh id keeps the ids distinct |
| Db.DefaultCategories | backend/db.py:160-177 | thirteen default categories numbered 1 to 13, the first eight of type expense and the rest income |
| Db.DefaultCategoriesDistinct | backend/db.py:162-176 | no two default categories share both name and type |
| Db.DefaultInvestments | backend/db.py:180-191 | five default investments numbered from 1, strictly increasing minimums, the first with minimum 0 |
| Db.Seed | backend/db.py:160-191 | defaults are written only into an empty table, and no other table changes |
| Db.SeedIdempotent | backend/db.py:160-191 | seeding twice is seeding once |
| Db.CategoryByName | backend/db.py:204-213 | the id of the first category with the name and type, absent exactly when none has them |
| Db.CategoryById | backend/app.py:678-683 | a category with the id, absent exactly when none has it |
| Db.SavingsGoalFor | backend/db.py:215-218 | the suggested goal is a fifth of the income, so within 0..income for a non-negative income |
| Db.TotalsAfterAppend | backend/app.py:100-107 | one more transaction moves the income or expense total by its amount, on the side of its type only |
| Db.Spent | backend/db.py:229-237 | the spent amount is NULL exactly when no expense of the category falls in the month; otherwise their sum |
| Db.LimitStatuses | backend/db.py:229-240 | one row per limit of each expense category, with the month's spending, and no other rows |
| Db.OveragePercent | backend/db.py:245 | the alert percentage times the limit is 100 × (spent − limit), positive for a positive exceeded limit |
| Db.AlertFor | backend/db.py:245-246 | the alert names the category and carries the overage percentage of its limit |
| Db.RaiseAlerts | backend/db.py:244-261 | one alert per exceeded row, in row order; the whole check fails exactly when an exceeded row has a zero limit |
| Db.AppendAlerts | backend/db.py:248-252 | the alerts are appended unread, dated today, of the limit type, with distinct fresh ids |
| Db.RecordAlerts | backend/db.py:220-262 | the check fails exactly on an exceeded zero limit; otherwise it raises one alert per exceeded row and changes nothing but the alerts |
| Db.CheckCategoryLimits | backend/db.py:219-261 | for a month, the check fails exactly when a joined row exceeds a zero limit; otherwise one alert per exceeded limit, in row order, appended unread to the alerts, nothing else changed |
| Db.AlertsMatchExceededLimits | backend/db.py:220-262 | every limit of an expense category that the month's spending exceeds raises its alert |
| Db.RaisedAlertsAreExceeded | backend/db.py:220-262 | every raised alert names an expense category whose limit the month's non-zero spending exceeds |
| Db.InvestmentSuggestions | backend/db.py:264-287 | a permutation of the affordable investments (each stored row once), ordered by risk level text |
| Db.Classify | backend/db.py:294-308 | each status holds exactly when its test is the first that holds: no income, expenses above income, above 90%, above 70%, else good |
| Db.ClassifyMonotone | backend/db.py:294-308 | with a positive income, spending more never improves the status |
| Db.Recommendations | backend/db.py:313-320 | each recommendation appears exactly when its own test holds, at most once |
| Db.ReserveAndInvestExclusive | backend/db.py:316-320 | with a non-negative income the reserve and the invest advice never appear together |
| Db.AnalyzeSituation | backend/db.py:289-322 | the analysis carries the status and the recommendations of the three figures |
| App.ResolveCategory | backend/app.py:62-77 | no category id without a named category; an existing (name, type) category is reused; otherwise one is created with a fresh id; names stay unique |
| App.InsertTransaction | backend/app.py:79-85 | exactly one transaction is appended, with the given fields, its resolved category and a fresh id; only categories and transactions change |
| App.Record | backend/app.py:79-93 | an expense runs the limit check after the insert: a failing check is a server error that keeps the insert but adds no alert; other types add no alert |
| App.AddTransaction | backend/app.py:55-93 | a request missing date, description, amount or type is rejected without change; otherwise it is recorded with the given type |
| App.AddExpense | backend/app.py:149-190 | a missing field is rejected without change; otherwise the transaction is recorded as an expense whatever the body says |
| App.AddIncome | backend/app.py:219-257 | a missing field is rejected without change; otherwise one income row is appended with the given date, description and amount under the resolved or newly created income category, the answer is created, and no alert changes |
| App.RecordMovesTotals | backend/app.py:79-93 | whatever the status, recording moves the income or expense total by the amount on the side of its type |
| App.RecordKeepsInvariants | backend/app.py:62-93 | recording keeps category (name, type) pairs unique and every table's ids distinct |
| App.AddCategory | backend/app.py:631-664 | created exactly for a name and a valid type not yet present, appending one category with a fresh id; otherwise rejected without change |
| App.SetLimit | backend/app.py:667-709 | a missing limit or a non-expense category is rejected, an unknown category is not found, otherwise the category's limits all carry the new amount and period |
| App.UpsertLimit | backend/app.py:689-704 | the category's existing limit rows are updated, or one row with a fresh id is appended when there is none |
| App.AddGoal | backend/app.py:484-510 | name and target are required; the new goal starts at the current amount (0 by default), dated today, not completed |
| App.UpdateGoal | backend/app.py:512-540 | a missing amount is rejected, an unknown goal is not found; otherwise the goal's amount is replaced and it is completed exactly when it reaches its target |
| App.UpdateGoalKeepsCompletion | backend/app.py:529-535 | an update keeps every goal's completion flag in agreement with its amounts |
| App.NewGoalStartsIncomplete | backend/app.py:494-501 | a created goal starts unflagged, so its flag agrees with its amounts exactly when the current amount is below the target |
| App.MarkAlertRead | backend/app.py:568-577 | every alert with the id is marked read, nothing else changes, and the answer is OK even when none has it |
| App.MarkAlertReadIdempotent | backend/app.py:568-577 | marking twice is marking once |
| App.ListingAlertsRepeatsThem | backend/app.py:543-549 | two alert listings in a row raise the same exceeded-limit alerts twice |
| Reports.TotalsOf | backend/app.py:101-109 | income and expense are the sums of the amounts of the income rows and of the expense rows, 0 without such rows, and the balance is their difference |
| Reports.Summary | backend/app.py:95-117 | over every stored transaction: the income amounts summed, the expense amounts summed, and their difference |
| Reports.Selected | backend/app.py:270-272 | a date range applies exactly when both bounds are given and non-empty |
| Reports.RowsOnKeepTotal | backend/app.py:274-285 | keeping one side's rows keeps that side's total |
| Reports.NamedByTotal | backend/app.py:290-317 | the category rows are exactly the named groups, largest total first |
| Reports.ByCategory | backend/app.py:290-317 | exactly the named groups of one side's rows, each with its category's name and the sum over its key, largest total first |
| Reports.ByCategoryAddsUp | backend/app.py:290-344 | the shown category totals plus the dropped unnamed groups make up the side's total |
| Reports.ByCategoryCoversNamed | backend/app.py:290-344 | when every transaction has a named category, the category totals add up to the side's total |
| Reports.MonthRows | backend/app.py:363-380 | one row per month with that month's income, expense and their difference |
| Reports.ByMonth | backend/app.py:363-380 | `ORDER BY month`: the same rows, months distinct, in ascending month order |
| Reports.MonthlyEvolution | backend/app.py:363-380 | one row per distinct month, in ascending month order |
| Reports.MonthlyBalancesAddUp | backend/app.py:363-380 | the monthly balances add up to the overall balance |
| Reports.GetReport | backend/app.py:258-393 | totals and category rows over the selected transactions, the monthly evolution over all of them |
| Reports.ReportBalanceIsMonthlySum | backend/app.py:258-393 | without a full date range the report's summary is the summary endpoint's, and its balance is the sum of the monthly balances |
| Reports.ShareDivisor | backend/app.py:421 | the divisor is the expense total when positive, else 1 |
| Reports.Joined | backend/app.py:416-418 | the inner join keeps exactly the expenses whose category exists |
| Reports.JoinedKeepsTotal | backend/app.py:413-421 | when every expense has an existing category the join keeps the expense total |
| Reports.Percentage | backend/app.py:415 | a share times the divisor is 100 × its total |
| Reports.Shares | backend/app.py:413-429 | one share per group, in order, with its name, its total and its percentage of the divisor |
| Reports.KeyedShares | backend/app.py:413-429 | one share per distinct category key of the joined expenses, carrying that category's name, the sum of its expenses and its percentage of the divisor |
| Reports.CategoryShares | backend/app.py:413-429 | a permutation of the per-category shares sorted by total descending, each percentage of the divisor, the totals adding up to the joined expenses |
| Reports.CategorySharesPerKey | backend/app.py:413-429 | every joined category has a share with its name and sum, every share is such a row, and there are as many shares as categories |
| Reports.SharesAddUpToHundred | backend/app.py:413-429 | with a positive expense total and every expense in an existing category, the percentages add up to 100 |
| Reports.Analyze | backend/app.py:396-444 | the analysis is the summary, the category shares, and the situation of the summary's figures |
| Reports.GoalsListing | backend/app.py:447-482 | the goals as stored, and a suggested goal of a fifth of the income at 20% |
| Reports.InvestmentListing | backend/app.py:580-602 | the balance, and the affordable investments as a permutation of the stored rows in risk-level order |
| Chatbot.Dispatch | backend/app.py:719-829 | the branch of the first keyword group in the lowered message; the fallback exactly when no group matches |
| Chatbot.EarliestGroupWins | backend/app.py:723-829 | a message matching several groups takes the earliest one's branch |
| Chatbot.SummaryBeforeGoal | backend/app.py:731-768 | a message with a summary keyword and neither how-to phrase is answered by the summary branch, whatever goal or later keywords it has |
| Chatbot.DispatchIgnoresCase | backend/app.py:719 | a message and its lowered form take the same branch |
| Chatbot.LowerIdempotent | backend/app.py:719 | lowering an already lowered message changes nothing |
| Chatbot.Offered | backend/app.py:807-811 | at most the first three affordable investments, in the suggestion order |
| Chatbot.Answer | backend/app.py:723-829 | each branch answers with its own reply, computed from the current totals where it reports them |
| Chatbot.LogExchange | backend/app.py:833-842 | the exchange is appended to the chat log with a fresh id, nothing else changes |
| Chatbot.Chat | backend/app.py:712-847 | a missing message is rejected; the alerts branch fails exactly when the limit check fails; otherwise the lowered message and the reply are logged |
| Chatbot.AnsweredExchangeLoggedOnce | backend/app.py:712-847 | every answered message is logged exactly once, lowered, after the earlier entries; only the alerts branch changes another table |
| MlPrediction.NextMonth | backend/ml_prediction.py:498-501 | the following month, one index later, December rolling over to January |
| MlPrediction.PrevMonth | backend/ml_prediction.py:91-93 | the previous month, one index earlier |
| MlPrediction.NextPrevRoundTrip | backend/ml_prediction.py:91-93 | stepping back then forward, or forward then back, returns the month |
| MlPrediction.MaxLags | backend/ml_prediction.py:83-85 | between one and three lags, one fewer than the months available when that is at least one |
| MlPrediction.EarlierCopy | backend/ml_prediction.py:91-98 | the copy falls in the month before, at 90% of the amount |
| MlPrediction.WithSyntheticMonth | backend/ml_prediction.py:86-100 | a single month of data is followed by 90% copies in the month before; other data is unchanged |
| MlPrediction.Clamp | backend/ml_prediction.py:373-374 | a stored prediction is never negative and equals a non-negative prediction |
| MlPrediction.ClampedTotalBounds | backend/ml_prediction.py:373-375 | the model total is non-negative, at least the raw sum, and equal to it without negative predictions |
| MlPrediction.AccuracyScore | backend/ml_prediction.py:554-563 | none with fewer than two months; otherwise 1 exactly when the predicted direction matches the last month's |
| MlPrediction.FlatTrendScoresOne | backend/ml_prediction.py:554-563 | a steady history predicted to stay steady scores 1 |
| MlPrediction.DemoMonths | backend/ml_prediction.py:597-606 | the six demo months end at the current month and are consecutive month indices |
| MlPrediction.DemoMonthsConsecutive | backend/ml_prediction.py:597-606 | each demo month is followed by the next |
| MlPrediction.SplitTotal | backend/ml_prediction.py:612-624 | the demo category shares add up to the total |
| MlPrediction.DemoPredictions | backend/ml_prediction.py:587-654 | six historical months with totals in 3000..4000, and a prediction for the next month 5% above the last |
| MlPrediction.EstimatedPrediction | backend/ml_prediction.py:485-507 | none without history; otherwise the month after the last, 5% above it |
| FinanceAgent.ActionOf | backend/finance_agent.py:181-196 | the action of the first keyword in table order that the text contains, none exactly when none does |
| FinanceAgent.SentimentOf | backend/finance_agent.py:198-207 | the first sentiment class with a word in the text, neutral exactly when none has one |
| FinanceAgent.DetectIntent | backend/finance_agent.py:167-209 | a question exactly when the query has '?' or a question word; action and sentiment read from the lowered text |
| FinanceAgent.TableOrderDecidesAction | backend/finance_agent.py:181-196 | a query containing "mostrar" asks to show, whatever other action words it has and wherever they stand |
| FinanceAgent.FirstActionWins | backend/finance_agent.py:181-196 | a text with the k-th keyword gets that keyword's action or an earlier one's |
| FinanceAgent.LastTopics | backend/finance_agent.py:103 | the last two topics, or the only one |
| FinanceAgent.FirstTipped | backend/finance_agent.py:113-115 | the first topic with a tip, none exactly when no topic has one |
| FinanceAgent.FallbackResponse | backend/finance_agent.py:76-118 | a keyword reply exactly when the lowered query has a keyword, the earliest one; a topic tip for the first tipped topic among the last two; otherwise the generic pick |
| FinanceAgent.InvestmentKeywordFirst | backend/finance_agent.py:88-99 | "economizar ou investir" gets the investment answer, whatever the word order |
| FinanceAgent.TopicStep | backend/finance_agent.py:158-162 | a taken draw whose follow-up is new appends exactly that follow-up; otherwise the list is unchanged; repeats never appear |
| FinanceAgent.AddTopicSuggestions | backend/finance_agent.py:158-162 | the loop keeps the earlier suggestions; without topics it adds nothing; every taken draw's follow-up is in the result and every added one is some taken draw's; no repeats |
| FinanceAgent.PersonalizedSuggestions | backend/finance_agent.py:120-165 | the two shuffled basic suggestions first, exactly those without topics; after them only follow-ups of taken draws, all of them when fewer than five; between two and five, no repeats |
| PredictionsView.SetMonth | frontend/src/components/Predictions.js:19-20 | a month outside 0..11 moves the year, and a day past the end of the month runs over into the next |
| PredictionsView.ShiftedMonth | frontend/src/components/Predictions.js:19-22 | a valid month, exactly `delta` months away when the day is at most 28 |
| PredictionsView.DemoMonthsAsWritten | frontend/src/components/Predictions.js:18-23 | the six months of the demo as written, each shifted from today with today's day kept |
| PredictionsView.DemoMonthsOverflowOnMonthEnd | frontend/src/components/Predictions.js:18-45 | on 31 March 2025 the months as written repeat December and March, and the prediction skips April |
| PredictionsView.DemoMonths | frontend/src/components/Predictions.js:18-23 | the corrected demo months are consecutive and end at the current month |
| PredictionsView.DemoMonthsMatchBackend | frontend/src/components/Predictions.js:18-23 | the corrected demo months are the backend's demo months for the same month |
| PredictionsView.DemoMonthsAsWrittenEarlyInMonth | frontend/src/components/Predictions.js:18-45 | before the 29th the months as written are the corrected ones, prediction month included |
| PredictionsView.DemoPredictionMonth | frontend/src/components/Predictions.js:43-45 | the corrected prediction month is the month after the current one |
| PredictionsView.Lookup | frontend/src/components/Predictions.js:172 | a record's field by key: absent exactly when no field has the key, otherwise a field's value |
| PredictionsView.CategoryNamesAsWritten | frontend/src/components/Predictions.js:150-153 | as written, one row per key ending in `_expense`, total included, with the first `_expense` removed |
| PredictionsView.CategoryNames | frontend/src/components/Predictions.js:150-153 | one row per category key, the suffix stripped and the total left out |
| PredictionsView.CategoryNamesExact | frontend/src/components/Predictions.js:150-153 | a name is listed exactly when its key plus `_expense` is a category field |
| PredictionsView.TotalListedAsCategory | frontend/src/components/Predictions.js:150-153 | as written, every record lists "total" as a category; the corrected list does not |
| PredictionsView.ReplaceFirstMangles | frontend/src/components/Predictions.js:153 | as written the category "a_expense_b" is listed as "a_b_expense"; corrected it keeps its name |
| PredictionsView.TrendOf | frontend/src/components/Predictions.js:195-203 | an increase exactly when the prediction exceeds the last month, with the change as a percentage of the last month, none when that is 0 |
| PredictionsView.TopIncrease | frontend/src/components/Predictions.js:214-220 | the first candidate with the largest increase; none exactly for no candidates |
| PredictionsView.NameOfTop | frontend/src/components/Predictions.js:206-220 | the name of the earliest candidate with the largest increase, absent exactly when there is no candidate |
| PredictionsView.TopCategoryAsWritten | frontend/src/components/Predictions.js:206-220 | as written, the top among the grown candidates of every `_expense` key, total included |
| PredictionsView.TopCategory | frontend/src/components/Predictions.js:206-220 | corrected: the top among the grown candidates of the category keys, total left out |
| PredictionsView.TotalWinsAsWritten | frontend/src/components/Predictions.js:206-220 | as written, a total listed first that grew at least as much as every field is named as the top category |
| PredictionsView.TotalOutgrowsCategory | frontend/src/components/Predictions.js:206-220 | 100→110 total and 50→55 "a": as written the top category is "total", corrected it is "a" |
| PredictionsView.BarHeights | frontend/src/components/Predictions.js:120-131 | heights are each total as a percentage of 1.1 × the largest, so at most 100/1.1; none when the largest is 0 |
| PredictionsView.Recommendations | frontend/src/components/Predictions.js:187-221 | corrected category list: shown exactly with history and a prediction; an increase exactly when the prediction exceeds the last month; no percentage exactly when the last month's total is 0; names the earliest grown category with the largest increase |
| PredictionsView.RecommendedTrend | frontend/src/components/Predictions.js:196-204 | the trend shown compares the prediction's total with the last month's total |
| PredictionsView.BarChart | frontend/src/components/Predictions.js:116-131 | shown only with history and a prediction, one bar per month plus the prediction, each scaled to the largest total |
| PredictionsView.ViewOf | frontend/src/components/Predictions.js:238-251 | loading while loading; the error with the demo button exactly on an error without a prediction |
| PredictionsView.Fetched | frontend/src/components/Predictions.js:72-102 | a failure sets the error; a response replaces only the parts it has, and marks demo data |
| PredictionsView.ShowDemoData | frontend/src/components/Predictions.js:11-67 | with the corrected months: six consecutive demo months ending now, a prediction for the next month 5% above the last, and the error cleared |
| PredictionsView.DemoFieldsShares | frontend/src/components/Predictions.js:28-38 | after the total, a demo month lists the seven category keys, each with its fixed share (30%, 25%, 15%, 10%, 8%, 7%, 5%) of the month's total |
| PredictionsView.DemoPredictsIncrease | frontend/src/components/Predictions.js:11-67 | the demo data always reads as a 5% increase and draws its chart |
| ExpenseCutsView.SubmitTarget | frontend/src/components/ExpenseCutsAnalyzer.js:37-46 | a plan is requested exactly for a non-empty target parsing to a positive number |
| ExpenseCutsView.RequestedTarget | frontend/src/components/ExpenseCutsAnalyzer.js:46 | the amount sent is the positive parsed target |
| ExpenseCutsView.PlanArrived | frontend/src/components/ExpenseCutsAnalyzer.js:47-64 | a plan replaces the old one, a failure drops it and records the error; the request ends either way |
| ExpenseCutsView.StartAnalysis | frontend/src/components/ExpenseCutsAnalyzer.js:17-20 | the analysis starts loading and the error is cleared |
| ExpenseCutsView.AnalysisArrived | frontend/src/components/ExpenseCutsAnalyzer.js:17-34 | a response replaces the analysis and, with truthy monthly expenses, sets the target to 15% of them; a failure records the error |
| ExpenseCutsView.DefaultTargetSubmittable | frontend/src/components/ExpenseCutsAnalyzer.js:26-40 | the default target can be submitted exactly when the monthly expenses are positive |
| ExpenseCutsView.PressPreset | frontend/src/components/ExpenseCutsAnalyzer.js:106-131 | presets exist only with a summary, and set the target to 10, 20 or 30% of the monthly expenses, NaN when absent |
| ExpenseCutsView.PresetSubmittable | frontend/src/components/ExpenseCutsAnalyzer.js:106-131 | a preset can be submitted exactly when the monthly expenses are present and positive |
| ExpenseCutsView.Figures | frontend/src/components/ExpenseCutsAnalyzer.js:225-237 | the status follows `achievable`; falsy figures show as 0 |
| ExpenseCutsView.StatusIgnoresNumbers | frontend/src/components/ExpenseCutsAnalyzer.js:225-237 | the status is read from `achievable` alone, so plans with the same flag show the same status |
| ExpenseCutsView.RetryKeepsPlan | frontend/src/components/ExpenseCutsAnalyzer.js:307-330 | retrying keeps the plan and, unless a truthy total arrives, the target; the full-page loading view only without an analysis |
| FinancialAnalysisView.StatusClass | frontend/src/components/FinancialAnalysis.js:48-63 | the class of the lowered status, '' exactly for an unknown status |
| FinancialAnalysisView.BackendStatusesStyled | frontend/src/components/FinancialAnalysis.js:48-63 | every status the backend reports gets a non-empty class of its own |
| FinancialAnalysisView.StatusClassIgnoresCase | frontend/src/components/FinancialAnalysis.js:49 | letter case does not change the class |
| FinancialAnalysisView.ChartData | frontend/src/components/FinancialAnalysis.js:241-273 | null exactly with neither history nor prediction; otherwise the labels are the history's months then the prediction's with the empty ones dropped, the history's totals followed by a gap, and gaps followed by the prediction's total |
| FinancialAnalysisView.LabelsComplete | frontend/src/components/FinancialAnalysis.js:244 | with every month named, the labels are the history's months then the prediction's |
| FinancialAnalysisView.CategoryChartDataAsWritten | frontend/src/components/FinancialAnalysis.js:277-298 | as written: null exactly without prediction, month or `_expense` key; otherwise each label is its key with the first `_expense` removed, and each value is looked up under label + `_expense`, 0 when absent |
| FinancialAnalysisView.CategoryChartData | frontend/src/components/FinancialAnalysis.js:277-298 | null exactly without prediction, month or category key; otherwise one bar per category key with that key's value |
| FinancialAnalysisView.MangledCategoryDrawnAtZero | frontend/src/components/FinancialAnalysis.js:281-290 | as written the category "a_expense_b" is drawn as "a_b_expense" at 0; corrected at its value |
| DashboardView.SampleWellFormed | frontend/src/components/Dashboard.js:28-76 | the sample balance is consistent and the sample ids are 1 to 5 |
| DashboardView.Apply | frontend/src/components/Dashboard.js:139-151 | only the side named by the type takes the amount, and the balance moves with it |
| DashboardView.ApplyKeepsConsistent | frontend/src/components/Dashboard.js:139-151 | a numeric amount keeps the balance consistent; a NaN amount makes it NaN |
| DashboardView.AddTransaction | frontend/src/components/Dashboard.js:115-164 | an incomplete form is refused; otherwise the transaction is put first with the next id, the balance moves, and the form is emptied and closed |
| DashboardView.AddKeepsIds | frontend/src/components/Dashboard.js:115-164 | adding keeps the ids 1 to n, so the new id is fresh |
| DashboardView.Recent | frontend/src/components/Dashboard.js:336 | the first five transactions, or all of them |
| DashboardView.AddedShownFirst | frontend/src/components/Dashboard.js:158-336 | the new transaction heads the recent table and the rest shift down by one |
| AlertsView.MarkAsRead | frontend/src/components/Alerts.js:26-37 | on success the page gets the list captured at the click with exactly the alerts with the id read; on failure only the error is set |
| AlertsView.MarkAsReadOnCurrent | frontend/src/components/Alerts.js:26-37 | corrected: the same update applied to the page's current list |
| AlertsView.OverlappingMarkLost | frontend/src/components/Alerts.js:26-37 | as written, a second overlapping mark shows the first alert unread again |
| AlertsView.OverlappingMarksKept | frontend/src/components/Alerts.js:26-37 | corrected, two marks commute and leave both ids read |
| AlertsView.MarkAsReadIdempotent | frontend/src/components/Alerts.js:26-37 | marking twice is marking once, and marking read alerts changes nothing |
| AlertsView.MarkAll | frontend/src/components/Alerts.js:26-37 | each alert with the id becomes read in its place; every other field and every other alert stays as it was |
| AlertsView.ActiveCount | frontend/src/components/Alerts.js:66 | the number of unread alerts |
| AlertsView.MarkLowersCount | frontend/src/components/Alerts.js:26-66 | marking lowers the count by the alerts with the id that were unread |
| AlertsView.MarkMatchesServer | frontend/src/components/Alerts.js:26-37 | for one mark at a time, the page's read flags after marking are the server's |
| AlertsView.TypeClass | frontend/src/components/Alerts.js:39-48 | each known alert type gets its class, every other type the general one |
| AlertsView.MarkedLoseButton | frontend/src/components/Alerts.js:85 | a marked alert no longer offers the button |
| SavingsGoalsView.GoalsPartitioned | frontend/src/components/SavingsGoals.js:130-173 | the active and completed lists hold every goal exactly once between them |
| SavingsGoalsView.Progress | frontend/src/components/SavingsGoals.js:94-96 | the progress times the target is 100 × the current amount; none for a zero target |
| SavingsGoalsView.ProgressUnclamped | frontend/src/components/SavingsGoals.js:94-96 | progress is over 100 past the target, 100 at it, and within 0..100 below it |
| SavingsGoalsView.AmountValue | frontend/src/components/SavingsGoals.js:43-48 | a parsed non-zero number is stored, anything else becomes the empty text |
| SavingsGoalsView.ZeroAndGarbageAlike | frontend/src/components/SavingsGoals.js:43-48 | a field becomes the empty text exactly for "0" or an unparsable text |
| SavingsGoalsView.AmountFields | frontend/src/components/SavingsGoals.js:43 | exactly the target and current fields count as amount fields |
| SavingsGoalsView.ChangeField | frontend/src/components/SavingsGoals.js:39-45 | only the edited field changes, parsed for an amount field and as text otherwise |
| SavingsGoalsView.UseSuggestedGoal | frontend/src/components/SavingsGoals.js:98-104 | name and target come from the suggestion, the other fields stay |
| SavingsGoalsView.SelectGoal | frontend/src/components/SavingsGoals.js:85-88 | the goal is selected with its saved amount |
| SavingsGoalsView.ChangeUpdateAmount | frontend/src/components/SavingsGoals.js:47-49 | the update amount is parsed like the amount fields |
| SavingsGoalsView.UpdateSucceeded | frontend/src/components/SavingsGoals.js:68-83 | an update is sent exactly with a goal selected, and clears the panel |
| TransactionsView.Options | frontend/src/components/Transactions.js:223-226 | one option per category of the type, in the order received: the i-th option is the name of the i-th such category |
| TransactionsView.NothingFitsWithoutCategories | frontend/src/components/Transactions.js:223-226 | without a category of the form's type, only the empty category fits |
| TransactionsView.DefaultCategory | frontend/src/components/Transactions.js:80-83 | the first option of the type, or none |
| TransactionsView.ChangeType | frontend/src/components/Transactions.js:76-89 | the type changes and the category becomes one the select offers |
| TransactionsView.CategoriesLoadedAsWritten | frontend/src/components/Transactions.js:26-39 | as written, the first expense category is set whatever the form's type |
| TransactionsView.IncomeFormGetsExpenseCategory | frontend/src/components/Transactions.js:26-39 | an income form filled before the categories arrive gets an expense category it does not offer |
| TransactionsView.CategoriesLoaded | frontend/src/components/Transactions.js:26-39 | corrected: the first category of the form's own type, so an empty form ends up with an offered category |
| TransactionsView.ResetForm | frontend/src/components/Transactions.js:115-126 | the reset form is an empty expense dated today whose category the select offers |
| TransactionsView.Submitted | frontend/src/components/Transactions.js:115-131 | success resets the form to an expense dated today and refreshes; failure keeps what was typed |
| TransactionsView.FitsPreserved | frontend/src/components/Transactions.js:76-131 | type changes and submissions keep the category among the offered ones |
| TransactionsView.CategoryLabel | frontend/src/components/Transactions.js:264 | the category's name, or "Não categorizado" without one |
| ChatView.TrimStart | frontend/src/components/Chatbot.js:159 | a suffix of the text whose leading characters were all white space, starting at a non-white character |
| ChatView.BlankMeansAllWhitespace | frontend/src/components/Chatbot.js:31 | a text is blank exactly when all its characters are white space |
| ChatView.Send | frontend/src/components/Chatbot.js:28-42 | nothing is sent exactly for a blank input; otherwise the text is appended as the next message and the input cleared |
| ChatView.ReplyArrived | frontend/src/components/Chatbot.js:44-73 | the reply, or the error flagged as such, is appended two numbers after the count at sending |
| ChatView.ExchangeKeepsIds | frontend/src/components/Chatbot.js:28-73 | a full exchange keeps the message ids sequential |
| ChatView.NoSendWhileWaiting | frontend/src/components/Chatbot.js:154-159 | after a send, sending is disabled |
| ChatView.SplitLines | frontend/src/components/Chatbot.js:78 | at least one line, none containing a line feed |
| ChatView.SplitJoinRoundTrip | frontend/src/components/Chatbot.js:78 | joining the lines gives the text back, with one more line than line feeds |
| ChatView.FormatMessageText | frontend/src/components/Chatbot.js:76-83 | one rendered line per line, each but the last followed by a break |
| ChatView.BreaksMatchNewlines | frontend/src/components/Chatbot.js:76-83 | a text renders as many breaks as it has line feeds |

## Left out

- Persistence, HTTP and rendering: the database is an immutable `Store`; requests and replies are values; markup, CSS and formatting (`toFixed`, `Intl.NumberFormat`, `round(., 2)`, `Math.round`) are not modelled.
- Clock, randomness and parsing are parameters: `datetime.now()`, `new Date()`, `np.random.rand()`, `Math.random()`, `random.choice`/`shuffle`, and `parseFloat` results.
- The pandas step of the expense analysis (monthly averages and variance per category) is an input to `BudgetAnalyzer.AnalyzeExpenses`. Also not modelled: the seasonality and national-average recommendations, the date-coercion (`data_error`) paths, and the `OperationalError` fallback queries.
- The scikit-learn training and prediction of backend/ml_prediction.py (model fitting, scaling, files on disk) are left out. Only the month arithmetic, lag count, synthetic month, clamping, accuracy score, demo data and 5% fallback are modelled.
- `/api/predictions` refers to a module name that app.py never binds, so it may always answer 500; the model covers the functions it would call.
- The language-model calls of backend/finance_agent.py and its preference files are left out. The conversation topics are a parameter, since nothing in the module ever records one.
- SQL row order without `ORDER BY` is table order; `strftime`/`substr` month keys assume `YYYY-MM-DD` dates; JSON `null` and a missing key are both `None`; the alert listing's `ORDER BY date DESC, is_read ASC` order is not modelled.
- A non-string `message` to `/api/chatbot` raises in `.lower()` (a 500); the model takes the message as text or absent.
- Common.Lower: lowers A–Z and the Latin-1 capitals only, which covers Portuguese text; other scripts are left as they are.
- ChatView: the 500 ms delay before showing a reply and the scrolling are not modelled.
- DashboardView: the timer that loads the sample data is not modelled, and the sample expense total 2980.15 is not the sum of the sample expenses; the figures are kept as the source has them.
- BudgetAnalyzer.PlanFromAdjusted: the estimated savings are `min(adjusted total, target)` as the code computes them, not the sum of the plan rows; the model proves the plan saves at least the estimate.
- BudgetAnalyzer.Rescale: a zero potential under the default target divides a Python float by a numpy float, which gives an infinite factor rather than an error; the model gives the clamped factor (1.5) that `min` then picks, and does not model infinities otherwise.
- BudgetAnalyzer.ShareOfTotal: a zero monthly total gives numpy's non-finite share, modelled as None.
- BudgetAnalyzer.AnalyzeExpenses: does not model the `data_error` statuses or the general recommendations derived from seasonality and national averages (they need the raw pandas frame).
- FinancialAnalysisView.CategoryChartData: requires the record's keys to be unique, as they are in a JavaScript object.
- PredictionsView.BarHeights: requires at least one total, which `renderBarChart` guarantees by returning early without history.
- The request tokens that would discard stale responses do not exist in the components; responses are applied in the order given, each to the state its handler captured (AlertsView.MarkAsRead takes the captured list and ChatView.ReplyArrived the captured message count as parameters).

## Findings

| source | as written | input that shows it | evidently intended | confidence | as-written member | corrected member |
|---|---|---|---|---|---|---|
| backend/budget_analyzer.py:468-521 | the frame is built from `sqlite3.Row` tuples, so its columns are numbered and the `'description'`/`'amount'` guards never hold | three recent expenses "cafe" of 8.00 | one frequent-small win worth 18.00 | medium, not executed | BudgetAnalyzer.QuickWinsColumnsCounterexample | BudgetAnalyzer.SelectQuickWins |
| frontend/src/components/Predictions.js:18-45 | `setMonth` on a copy of today keeps the day, which runs over at month end | today = 31 March 2025 | six consecutive months Oct 2024–Mar 2025, prediction April 2025 | high, not executed | PredictionsView.DemoMonthsOverflowOnMonthEnd | PredictionsView.DemoMonthsMatchBackend |
| frontend/src/components/Predictions.js:150-153, 206-215 | every key ending in `_expense` is a category, so `total_expense` becomes a category "total" | total 100→110 and "a_expense" 50→55 | top category "a" | high, not executed | PredictionsView.TotalOutgrowsCategory | PredictionsView.CategoryNamesExact |
| frontend/src/components/FinancialAnalysis.js:281-290 | `replace('_expense', '')` removes the first occurrence, not the suffix | key "a_expense_b_expense" worth 120 | bar "a_expense_b" at 120; the corrected chart also leaves out the `total_expense` key, which the same suffix test admits as a category | low, not executed | FinancialAnalysisView.MangledCategoryDrawnAtZero | FinancialAnalysisView.CategoryChartData |
| frontend/src/components/Transactions.js:26-39 | the loaded categories set the first expense category whatever the form's type | type switched to income before the categories arrive | the first income category | low, not executed | TransactionsView.IncomeFormGetsExpenseCategory | TransactionsView.CategoriesLoaded |
| frontend/src/components/Alerts.js:26-37 | `markAsRead` maps the `alerts` the handler captured, so a response overwrites marks that landed after the click | alerts A and B unread; mark A, then B before A is answered | both A and B shown read, as on the server | medium, not executed | AlertsView.OverlappingMarkLost | AlertsView.OverlappingMarksKept |

=== FILE: alerts_view.dfy ===
/** The state logic of frontend/src/components/Alerts.js: the local copy of
    the alerts, marking one as read once the server agreed, the count of
    active alerts and the class of each alert. */
module AlertsView {
  import opened Common
  import Db
  import App

  /** An alert as the page holds it. */
  datatype Alert = Alert(id: nat, kind: string, isRead: bool)

  datatype Page = Page(alerts: seq<Alert>, loading: bool, error: bool)

  /** The copy of `a` marked read when it has the id, `a` otherwise. */
  function MarkIfId(a: Alert, alertId: nat): (r: Alert)
    ensures r.id == a.id && r.kind == a.kind
    ensures r.isRead <==> a.isRead || a.id == alertId
  {
    if a.id == alertId then a.(isRead := true) else a
  }

  /** `markAsRead` once the request is answered (`ok` false when it failed).
      The handler closes over `captured`, the list the page held when the
      button was clicked, and on success sets the page's alerts to that list
      with the id marked: every alert with the id is read and every other
      alert is as it was at the click. On failure only the error is set. */
  function MarkAsRead(p: Page, captured: seq<Alert>, alertId: nat, ok: bool): (r: Page)
    ensures !ok ==> r == p.(error := true)
    ensures ok ==> r.loading == p.loading && r.error == p.error
    ensures ok ==> |r.alerts| == |captured|
    ensures ok ==> forall i :: 0 <= i < |captured| ==>
              (captured[i].id != alertId ==> r.alerts[i] == captured[i])
              && (captured[i].id == alertId ==> r.alerts[i] == captured[i].(isRead := true))
  {
    if !ok then p.(error := true)
    else p.(alerts := seq(|captured|, i requires 0 <= i < |captured| => MarkIfId(captured[i], alertId)))
  }

  /** The same update written against the page's current list, as a
      functional `setAlerts(prev => prev.map(...))` would apply it. */
  function MarkAsReadOnCurrent(p: Page, alertId: nat, ok: bool): (r: Page)
    ensures !ok ==> r == p.(error := true)
    ensures ok ==> r.loading == p.loading && r.error == p.error
    ensures ok ==> |r.alerts| == |p.alerts|
    ensures ok ==> forall i :: 0 <= i < |p.alerts| ==>
              (p.alerts[i].id != alertId ==> r.alerts[i] == p.alerts[i])
              && (p.alerts[i].id == alertId ==> r.alerts[i] == p.alerts[i].(isRead := true))
  {
    MarkAsRead(p, p.alerts, alertId, ok)
  }

  /** Two overlapping marks as written: both handlers captured the same
      list, so the second response overwrites the first and the first
      alert shows unread again although the server has marked it. */
  lemma OverlappingMarkLost(p: Page, a: nat, b: nat, i: nat)
    requires a != b && i < |p.alerts| && p.alerts[i].id == a && !p.alerts[i].isRead
    ensures var first := MarkAsRead(p, p.alerts, a, true);
            var second := MarkAsRead(first, p.alerts, b, true);
            first.alerts[i].isRead && !second.alerts[i].isRead
  {
  }

  /** Applied to the current list, overlapping marks keep each other: after
      both responses every alert with either id is read, whatever the
      order in which they arrive. */
  lemma OverlappingMarksKept(p: Page, a: nat, b: nat)
    ensures var both := MarkAsReadOnCurrent(MarkAsReadOnCurrent(p, a, true), b, true);
            var other := MarkAsReadOnCurrent(MarkAsReadOnCurrent(p, b, true), a, true);
            && both == other
            && |both.alerts| == |p.alerts|
            && forall i :: 0 <= i < |p.alerts| ==>
                 (both.alerts[i].isRead <==> p.alerts[i].isRead || p.alerts[i].id == a || p.alerts[i].id == b)
  {
    var both := MarkAsReadOnCurrent(MarkAsReadOnCurrent(p, a, true), b, true);
    var other := MarkAsReadOnCurrent(MarkAsReadOnCurrent(p, b, true), a, true);
    assert both.alerts == other.alerts;
  }

  /** Marking twice is marking once, and marking an alert already read
      changes nothing. */
  lemma MarkAsReadIdempotent(p: Page, alertId: nat)
    ensures MarkAsReadOnCurrent(MarkAsReadOnCurrent(p, alertId, true), alertId, true) == MarkAsReadOnCurrent(p, alertId, true)
    ensures (forall i :: 0 <= i < |p.alerts| && p.alerts[i].id == alertId ==> p.alerts[i].isRead) ==>
              MarkAsReadOnCurrent(p, alertId, true) == p
  {
    var once := MarkAsReadOnCurrent(p, alertId, true);
    assert MarkAsReadOnCurrent(once, alertId, true).alerts == once.alerts;
    if forall i :: 0 <= i < |p.alerts| && p.alerts[i].id == alertId ==> p.alerts[i].isRead {
      assert once.alerts == p.alerts;
    }
  }

  predicate Unread(a: Alert) { !a.isRead }

  /** The active-alerts counter: the alerts not yet read. */
  function ActiveCount(alerts: seq<Alert>): (n: nat)
    ensures n == |Filter(alerts, Unread)|
    ensures n <= |alerts|
  {
    |Filter(alerts, Unread)|
  }

  /** The number of alerts with the id that are still unread. */
  function UnreadWithId(alerts: seq<Alert>, alertId: nat): nat
    decreases |alerts|
  {
    if |alerts| == 0 then 0
    else (if alerts[0].id == alertId && !alerts[0].isRead then 1 else 0) + UnreadWithId(alerts[1..], alertId)
  }

  /** Every alert with the id marked read, each in its place, every other
      field and every other alert unchanged. */
  function MarkAll(alerts: seq<Alert>, alertId: nat): (r: seq<Alert>)
    ensures |r| == |alerts|
    ensures forall i :: 0 <= i < |alerts| ==> r[i] == MarkIfId(alerts[i], alertId)
    ensures forall i :: 0 <= i < |alerts| ==>
              && (r[i].isRead <==> alerts[i].isRead || alerts[i].id == alertId)
              && r[i].(isRead := alerts[i].isRead) == alerts[i]
  {
    seq(|alerts|, i requires 0 <= i < |alerts| => MarkIfId(alerts[i], alertId))
  }

  /** Marking an id read lowers the counter by the number of its unread
      alerts and leaves the other alerts counted. */
  lemma {:induction false} MarkLowersCount(alerts: seq<Alert>, alertId: nat)
    ensures ActiveCount(MarkAll(alerts, alertId)) + UnreadWithId(alerts, alertId) == ActiveCount(alerts)
    decreases |alerts|
  {
    if |alerts| > 0 {
      var r := MarkAll(alerts, alertId);
      MarkLowersCount(alerts[1..], alertId);
      assert r[1..] == MarkAll(alerts[1..], alertId);
      assert r == [r[0]] + r[1..];
      assert alerts == [alerts[0]] + alerts[1..];
    }
  }

  lemma MarkAsReadIsMarkAll(p: Page, captured: seq<Alert>, alertId: nat)
    ensures MarkAsRead(p, captured, alertId, true).alerts == MarkAll(captured, alertId)
  {
  }

  /** For one mark at a time (the handler captured the list the page
      holds when the response arrives), the page's copy follows the
      server: marking an alert read on the page and on the server gives the
      same read flags. */
  lemma MarkMatchesServer(s: Db.Store, alertId: nat)
    ensures var page := Page(seq(|s.alerts|, i requires 0 <= i < |s.alerts| =>
                               Alert(s.alerts[i].id, s.alerts[i].kind, s.alerts[i].isRead)), false, false);
            var after := App.MarkAlertRead(s, alertId).store.alerts;
            var marked := MarkAsRead(page, page.alerts, alertId, true).alerts;
            |marked| == |after|
            && forall i :: 0 <= i < |after| ==> marked[i].id == after[i].id && marked[i].isRead == after[i].isRead
  {
  }

  /** `getAlertTypeClass`. */
  function TypeClass(kind: string): (c: string)
    ensures kind == "expense_limit" <==> c == "expense-limit-alert"
    ensures kind == "low_balance" <==> c == "low-balance-alert"
    ensures kind != "expense_limit" && kind != "low_balance" <==> c == "general-alert"
  {
    if kind == "expense_limit" then "expense-limit-alert"
    else if kind == "low_balance" then "low-balance-alert"
    else "general-alert"
  }

  /** Only an unread alert offers the mark-as-read button. */
  predicate ShowsMarkButton(a: Alert) { !a.isRead }

  /** After marking, no alert with the id offers the button any more. */
  lemma MarkedLoseButton(p: Page, captured: seq<Alert>, alertId: nat, i: nat)
    requires i < |captured| && captured[i].id == alertId
    ensures !ShowsMarkButton(MarkAsRead(p, captured, alertId, true).alerts[i])
  {
  }
}

=== FILE: app.dfy ===
/** The store-changing endpoints of backend/app.py: recording transactions
    (generic, expense-only and income-only), adding categories, setting a
    category's spending limit, creating and updating savings goals and
    marking an alert as read. Each takes the store and the request's fields
    (None for an absent key) and returns the store afterwards with the HTTP
    status. The clock is a parameter: `month` is the current YYYY-MM and
    `today` the current date. */
module App {
  import opened Common
  import opened Db

  /** The HTTP status of a response: 201, 200, 400, 404 or 500. */
  datatype Code = Created | Ok | BadRequest | NotFound | ServerError

  /** The store once the request's commits are done, and the status. */
  datatype Reply = Reply(store: Store, code: Code)

  /** The body of a transaction request; None is an absent key. */
  datatype TransactionRequest = TransactionRequest(
    date: Option<string>, description: Option<string>, amount: Option<real>,
    kind: Option<string>, category: Option<string>)

  /** `'category' in data and data['category']`: present and not blank. */
  predicate NamesCategory(category: Option<string>)
  {
    category.Some? && category.value != ""
  }

  /** No two categories share both name and type. */
  ghost predicate UniqueCategoryNames(cs: seq<Category>)
  {
    forall i, j :: 0 <= i < j < |cs| ==> !(cs[i].name == cs[j].name && cs[i].kind == cs[j].kind)
  }

  /** Every row of the store's tables has an identifier of its own. */
  ghost predicate IdsDistinct(s: Store)
  {
    && Distinct(CategoryIds(s.categories))
    && Distinct(TransactionIds(s.transactions))
    && Distinct(LimitIds(s.limits))
    && Distinct(GoalIds(s.goals))
    && Distinct(AlertIds(s.alerts))
  }

  lemma CategoryByNameAppend(cs: seq<Category>, c: Category, name: string, kind: string)
    requires CategoryByName(cs, name, kind).None?
    ensures CategoryByName(cs + [c], name, kind) == if c.name == name && c.kind == kind then Some(c.id) else None
  {
    var r := CategoryByName(cs + [c], name, kind);
    if r.Some? {
      var i :| 0 <= i < |cs + [c]| && (cs + [c])[i] == Category(r.value, name, kind)
                && forall j :: 0 <= j < i ==> !((cs + [c])[j].name == name && (cs + [c])[j].kind == kind);
      assert i == |cs| by {
        if i < |cs| {
          assert false;
        }
      }
    } else {
      assert c in cs + [c];
    }
  }

  // ---------------------------------------------------------------------------
  // Transactions
  // ---------------------------------------------------------------------------

  /** The category id of a new transaction: none when the request names no
      category, the matching category's id when one has this name and type,
      and otherwise the id of a category created for it. */
  function ResolveCategory(cs: seq<Category>, category: Option<string>, kind: string): (r: (seq<Category>, Option<nat>))
    ensures !NamesCategory(category) ==> r == (cs, None)
    ensures NamesCategory(category) ==> r.1.Some? && CategoryByName(r.0, category.value, kind) == r.1
    ensures NamesCategory(category) && CategoryByName(cs, category.value, kind).Some? ==> r.0 == cs
    ensures NamesCategory(category) && CategoryByName(cs, category.value, kind).None? ==>
              && r.0 == cs + [Category(r.1.value, category.value, kind)]
              && r.1.value !in CategoryIds(cs)
    ensures UniqueCategoryNames(cs) ==> UniqueCategoryNames(r.0)
    ensures Distinct(CategoryIds(cs)) ==> Distinct(CategoryIds(r.0))
  {
    if !NamesCategory(category) then (cs, None)
    else
      match CategoryByName(cs, category.value, kind)
      case Some(id) => (cs, Some(id))
      case None =>
        var ids := CategoryIds(cs);
        var id := FreshId(ids);
        var c := Category(id, category.value, kind);
        CategoryByNameAppend(cs, c, category.value, kind);
        assert CategoryIds(cs + [c]) == ids + [id];
        assert forall i :: 0 <= i < |ids| ==> ids[i] != id;
        (cs + [c], Some(id))
  }

  /** Inserts the transaction, creating its category first when needed;
      only the categories and transactions change. */
  function InsertTransaction(s: Store, date: string, description: string, amount: real, kind: string, category: Option<string>): (r: Store)
    ensures r.categories == ResolveCategory(s.categories, category, kind).0
    ensures |r.transactions| == |s.transactions| + 1 && r.transactions[..|s.transactions|] == s.transactions
    ensures var t := r.transactions[|s.transactions|];
            && t.date == date && t.description == description && t.amount == amount && t.kind == kind
            && t.categoryId == ResolveCategory(s.categories, category, kind).1
            && t.id !in TransactionIds(s.transactions)
    ensures r == s.(categories := r.categories, transactions := r.transactions)
  {
    var (cs, cid) := ResolveCategory(s.categories, category, kind);
    var id := FreshId(TransactionIds(s.transactions));
    assert id !in TransactionIds(s.transactions);
    var ts := s.transactions + [Transaction(id, date, description, amount, kind, cid)];
    assert ts[..|s.transactions|] == s.transactions;
    s.(categories := cs, transactions := ts)
  }

  /** The common tail of the three transaction endpoints, after validation:
      insert, then run the limit check when the type is expense. The check
      runs after the insert is committed, so a failing check answers 500
      with the transaction kept and no alert raised. */
  function Record(s: Store, date: string, description: string, amount: real, kind: string, category: Option<string>,
                  month: string, today: string): (r: Reply)
    ensures r.code == Created || r.code == ServerError
    ensures var inserted := InsertTransaction(s, date, description, amount, kind, category);
            && r.store == inserted.(alerts := r.store.alerts)
            && (kind != ExpenseType ==> r.code == Created && r.store.alerts == s.alerts)
            && (kind == ExpenseType ==>
                  match CheckCategoryLimits(inserted, month, today)
                  case LimitCheckFailed => r.code == ServerError && r.store.alerts == s.alerts
                  case LimitsChecked(checked, _) => r.code == Created && r.store == checked)
  {
    var inserted := InsertTransaction(s, date, description, amount, kind, category);
    if kind != ExpenseType then Reply(inserted, Created)
    else
      match CheckCategoryLimits(inserted, month, today)
      case LimitCheckFailed => Reply(inserted, ServerError)
      case LimitsChecked(checked, _) => Reply(checked, Created)
  }

  /** `POST /api/transactions`: date, description, amount and type are
      required; the type is stored as given. */
  function AddTransaction(s: Store, req: TransactionRequest, month: string, today: string): (r: Reply)
    ensures r.code == BadRequest <==>
              req.date.None? || req.description.None? || req.amount.None? || req.kind.None?
    ensures r.code == BadRequest ==> r.store == s
    ensures r.code != BadRequest ==>
              r == Record(s, req.date.value, req.description.value, req.amount.value, req.kind.value, req.category, month, today)
  {
    if req.date.None? || req.description.None? || req.amount.None? || req.kind.None? then Reply(s, BadRequest)
    else Record(s, req.date.value, req.description.value, req.amount.value, req.kind.value, req.category, month, today)
  }

  /** `POST /api/despesas`: the type is forced to expense, whatever the body
      says, and the limit check always runs. */
  function AddExpense(s: Store, req: TransactionRequest, month: string, today: string): (r: Reply)
    ensures r.code == BadRequest <==> req.date.None? || req.description.None? || req.amount.None?
    ensures r.code == BadRequest ==> r.store == s
    ensures r.code != BadRequest ==>
              && |r.store.transactions| == |s.transactions| + 1
              && r.store.transactions[|s.transactions|].kind == ExpenseType
              && r == Record(s, req.date.value, req.description.value, req.amount.value, ExpenseType, req.category, month, today)
  {
    if req.date.None? || req.description.None? || req.amount.None? then Reply(s, BadRequest)
    else Record(s, req.date.value, req.description.value, req.amount.value, ExpenseType, req.category, month, today)
  }

  /** `POST /api/receitas`: the type is forced to income and no limit check
      runs, so the alerts never change; the row stores the given date,
      description and amount under the resolved or created income category. */
  function AddIncome(s: Store, req: TransactionRequest, month: string, today: string): (r: Reply)
    ensures r.code == BadRequest <==> req.date.None? || req.description.None? || req.amount.None?
    ensures r.code == BadRequest ==> r.store == s
    ensures r.code != BadRequest ==>
              && r.code == Created
              && |r.store.transactions| == |s.transactions| + 1
              && r.store.transactions[|s.transactions|].kind == IncomeType
              && r.store.alerts == s.alerts
    ensures r.code != BadRequest ==>
              && r == Record(s, req.date.value, req.description.value, req.amount.value, IncomeType, req.category, month, today)
              && r.store == InsertTransaction(s, req.date.value, req.description.value, req.amount.value, IncomeType, req.category)
    ensures r.code != BadRequest ==>
              var t := r.store.transactions[|s.transactions|];
              && t.date == req.date.value && t.description == req.description.value && t.amount == req.amount.value
              && t.categoryId == ResolveCategory(s.categories, req.category, IncomeType).1
              && r.store.categories == ResolveCategory(s.categories, req.category, IncomeType).0
  {
    if req.date.None? || req.description.None? || req.amount.None? then Reply(s, BadRequest)
    else Record(s, req.date.value, req.description.value, req.amount.value, IncomeType, req.category, month, today)
  }

  /** Whatever the status, a recorded transaction moves the totals by its
      amount on the side of its type, so the balance (income minus expense)
      moves by the signed amount. */
  lemma RecordMovesTotals(s: Store, date: string, description: string, amount: real, kind: string,
                          category: Option<string>, month: string, today: string)
    ensures var r := Record(s, date, description, amount, kind, category, month, today);
            && TotalIncome(r.store.transactions) == TotalIncome(s.transactions) + (if kind == IncomeType then amount else 0.0)
            && TotalExpense(r.store.transactions) == TotalExpense(s.transactions) + (if kind == ExpenseType then amount else 0.0)
  {
    var r := Record(s, date, description, amount, kind, category, month, today);
    var ts := r.store.transactions;
    assert ts == s.transactions + [ts[|s.transactions|]];
    TotalsAfterAppend(s.transactions, ts[|s.transactions|]);
  }

  /** Recording keeps category names unique and every table's ids distinct. */
  lemma RecordKeepsInvariants(s: Store, date: string, description: string, amount: real, kind: string,
                              category: Option<string>, month: string, today: string)
    requires UniqueCategoryNames(s.categories) && IdsDistinct(s)
    ensures var r := Record(s, date, description, amount, kind, category, month, today);
            UniqueCategoryNames(r.store.categories) && IdsDistinct(r.store)
  {
    var inserted := InsertTransaction(s, date, description, amount, kind, category);
    var ts := inserted.transactions;
    assert ts == s.transactions + [ts[|s.transactions|]];
    assert TransactionIds(ts) == TransactionIds(s.transactions) + [ts[|s.transactions|].id];
    assert IdsDistinct(inserted);
    if kind == ExpenseType && CheckCategoryLimits(inserted, month, today).LimitsChecked? {
      var rows := LimitStatuses(inserted.categories, inserted.limits, inserted.transactions, month);
      var msgs := RaiseAlerts(rows).value;
      assert CheckCategoryLimits(inserted, month, today).store.alerts == AppendAlerts(inserted.alerts, msgs, today);
    }
  }

  // ---------------------------------------------------------------------------
  // Categories and limits
  // ---------------------------------------------------------------------------

  /** `POST /api/categorias`: name and type are required, the type must be
      income or expense, and a (name, type) pair already present is
      rejected; otherwise exactly one category is added. */
  function AddCategory(s: Store, name: Option<string>, kind: Option<string>): (r: Reply)
    ensures r.code == Created || r.code == BadRequest
    ensures r.code == Created <==>
              && name.Some? && kind.Some?
              && (kind.value == IncomeType || kind.value == ExpenseType)
              && forall c :: c in s.categories ==> !(c.name == name.value && c.kind == kind.value)
    ensures r.code == BadRequest ==> r.store == s
    ensures r.code == Created ==>
              && |r.store.categories| == |s.categories| + 1
              && r.store.categories[..|s.categories|] == s.categories
              && var c := r.store.categories[|s.categories|];
                 c.name == name.value && c.kind == kind.value && c.id !in CategoryIds(s.categories)
    ensures r.store == s.(categories := r.store.categories)
    ensures UniqueCategoryNames(s.categories) ==> UniqueCategoryNames(r.store.categories)
    ensures Distinct(CategoryIds(s.categories)) ==> Distinct(CategoryIds(r.store.categories))
  {
    if name.None? || kind.None? then Reply(s, BadRequest)
    else if kind.value != IncomeType && kind.value != ExpenseType then Reply(s, BadRequest)
    else if CategoryByName(s.categories, name.value, kind.value).Some? then Reply(s, BadRequest)
    else
      var ids := CategoryIds(s.categories);
      var c := Category(FreshId(ids), name.value, kind.value);
      var cs := s.categories + [c];
      assert cs[..|s.categories|] == s.categories;
      assert CategoryIds(cs) == ids + [c.id];
      assert forall i :: 0 <= i < |ids| ==> ids[i] != c.id;
      Reply(s.(categories := cs), Created)
  }

  /** No category has two limits. */
  ghost predicate OneLimitPerCategory(ls: seq<CategoryLimit>)
  {
    forall i, j :: 0 <= i < j < |ls| ==> ls[i].categoryId != ls[j].categoryId
  }

  /** `POST /api/categorias/<id>/limite`: the limit is required, the
      category must exist (404) and be an expense category (400); the
      category's existing limit rows are updated, or one is inserted when it
      has none. The period defaults to "monthly". */
  function SetLimit(s: Store, categoryId: nat, limit: Option<real>, period: Option<string>): (r: Reply)
    ensures r.code == Ok || r.code == BadRequest || r.code == NotFound
    ensures r.code == BadRequest <==>
              limit.None? || (CategoryById(s.categories, categoryId).Some? && CategoryById(s.categories, categoryId).value.kind != ExpenseType)
    ensures r.code == NotFound <==> limit.Some? && forall c :: c in s.categories ==> c.id != categoryId
    ensures r.code != Ok ==> r.store == s
    ensures r.store == s.(limits := r.store.limits)
    ensures r.code == Ok ==>
              && (exists l :: l in r.store.limits && l.categoryId == categoryId)
              && (forall l :: l in r.store.limits && l.categoryId == categoryId ==>
                    l.limitAmount == limit.value && l.period == period.GetOr("monthly"))
              && |s.limits| <= |r.store.limits| <= |s.limits| + 1
              && (forall i :: 0 <= i < |s.limits| && s.limits[i].categoryId != categoryId ==> r.store.limits[i] == s.limits[i])
              && (forall i :: |s.limits| <= i < |r.store.limits| ==> r.store.limits[i].categoryId == categoryId)
    ensures OneLimitPerCategory(s.limits) ==> OneLimitPerCategory(r.store.limits)
  {
    if limit.None? then Reply(s, BadRequest)
    else match CategoryById(s.categories, categoryId)
      case None => Reply(s, NotFound)
      case Some(c) =>
        if c.kind != ExpenseType then Reply(s, BadRequest)
        else
          var p := period.GetOr("monthly");
          Reply(s.(limits := UpsertLimit(s.limits, categoryId, limit.value, p)), Ok)
  }

  /** Updates every limit row of the category, or appends one when there is
      none. */
  function UpsertLimit(ls: seq<CategoryLimit>, categoryId: nat, amount: real, period: string): (r: seq<CategoryLimit>)
    ensures exists l :: l in r && l.categoryId == categoryId
    ensures forall l :: l in r && l.categoryId == categoryId ==> l.limitAmount == amount && l.period == period
    ensures |ls| <= |r| <= |ls| + 1
    ensures forall i :: 0 <= i < |ls| ==> r[i] == if ls[i].categoryId == categoryId then ls[i].(limitAmount := amount, period := period) else ls[i]
    ensures forall i :: |ls| <= i < |r| ==> r[i].categoryId == categoryId && r[i].id !in LimitIds(ls)
    ensures (exists l :: l in ls && l.categoryId == categoryId) ==> |r| == |ls|
    ensures OneLimitPerCategory(ls) ==> OneLimitPerCategory(r)
  {
    if exists l :: l in ls && l.categoryId == categoryId then
      var r := seq(|ls|, i requires 0 <= i < |ls| =>
                 if ls[i].categoryId == categoryId then ls[i].(limitAmount := amount, period := period) else ls[i]);
      var l :| l in ls && l.categoryId == categoryId;
      var i :| 0 <= i < |ls| && ls[i] == l;
      assert r[i] in r;
      r
    else
      var id := FreshId(LimitIds(ls));
      var r := ls + [CategoryLimit(id, categoryId, amount, period)];
      assert r[|ls|] in r;
      assert forall i :: 0 <= i < |ls| ==> LimitIds(ls)[i] != id;
      r
  }

  // ---------------------------------------------------------------------------
  // Savings goals
  // ---------------------------------------------------------------------------

  /** `POST /api/metas`: name and target are required, the current amount
      defaults to 0, the creation date is today, and the goal starts as not
      completed (the column's default), whatever its amounts. */
  function AddGoal(s: Store, name: Option<string>, target: Option<real>, current: Option<real>,
                   deadline: Option<string>, today: string): (r: Reply)
    ensures r.code == Created || r.code == BadRequest
    ensures r.code == BadRequest <==> name.None? || target.None?
    ensures r.code == BadRequest ==> r.store == s
    ensures r.store == s.(goals := r.store.goals)
    ensures r.code == Created ==>
              && |r.store.goals| == |s.goals| + 1
              && r.store.goals[..|s.goals|] == s.goals
              && var g := r.store.goals[|s.goals|];
                 && g.name == name.value && g.targetAmount == target.value
                 && g.currentAmount == current.GetOr(0.0) && g.deadline == deadline
                 && g.createdAt == today && !g.completed && g.id !in GoalIds(s.goals)
  {
    if name.None? || target.None? then Reply(s, BadRequest)
    else
      var ids := GoalIds(s.goals);
      var g := SavingsGoal(FreshId(ids), name.value, target.value, current.GetOr(0.0), deadline, today, false);
      assert g.id !in ids;
      var gs := s.goals + [g];
      assert gs[..|s.goals|] == s.goals;
      Reply(s.(goals := gs), Created)
  }

  /** A goal is marked completed exactly when its current amount has reached
      its target. */
  predicate CompletionAgrees(g: SavingsGoal)
  {
    g.completed <==> g.currentAmount >= g.targetAmount
  }

  /** `PUT /api/metas/<id>`: the current amount is required (400), the goal
      must exist (404); the current amount is replaced and the goal is
      completed exactly when it reaches the target. */
  function UpdateGoal(s: Store, goalId: nat, current: Option<real>): (r: Reply)
    ensures r.code == Ok || r.code == BadRequest || r.code == NotFound
    ensures r.code == BadRequest <==> current.None?
    ensures r.code == NotFound <==> current.Some? && forall g :: g in s.goals ==> g.id != goalId
    ensures r.code != Ok ==> r.store == s
    ensures r.store == s.(goals := r.store.goals)
    ensures |r.store.goals| == |s.goals|
    ensures r.code == Ok ==> forall i :: 0 <= i < |s.goals| ==>
              if s.goals[i].id == goalId
              then && r.store.goals[i].currentAmount == current.value
                   && CompletionAgrees(r.store.goals[i])
                   && r.store.goals[i] == s.goals[i].(currentAmount := r.store.goals[i].currentAmount, completed := r.store.goals[i].completed)
              else r.store.goals[i] == s.goals[i]
  {
    if current.None? then Reply(s, BadRequest)
    else if forall g :: g in s.goals ==> g.id != goalId then Reply(s, NotFound)
    else
      var c := current.value;
      var gs := seq(|s.goals|, i requires 0 <= i < |s.goals| =>
                  if s.goals[i].id == goalId then s.goals[i].(currentAmount := c, completed := c >= s.goals[i].targetAmount)
                  else s.goals[i]);
      Reply(s.(goals := gs), Ok)
  }

  /** Updates keep the completion flag of every goal in agreement with its
      amounts when it was before. */
  lemma UpdateGoalKeepsCompletion(s: Store, goalId: nat, current: Option<real>)
    requires forall g :: g in s.goals ==> CompletionAgrees(g)
    ensures forall g :: g in UpdateGoal(s, goalId, current).store.goals ==> CompletionAgrees(g)
  {
    var r := UpdateGoal(s, goalId, current);
    forall g | g in r.store.goals
      ensures CompletionAgrees(g)
    {
      var i :| 0 <= i < |r.store.goals| && r.store.goals[i] == g;
      assert s.goals[i] in s.goals;
    }
  }

  /** A created goal starts with its flag unset, so its flag agrees with
      its amounts exactly when the target is not yet reached: a goal created
      with its target already reached stays incomplete until an update. */
  lemma NewGoalStartsIncomplete(s: Store, name: Option<string>, target: Option<real>, current: Option<real>,
                                deadline: Option<string>, today: string)
    requires name.Some? && target.Some?
    ensures var r := AddGoal(s, name, target, current, deadline, today);
            && r.code == Created
            && (CompletionAgrees(r.store.goals[|s.goals|]) <==> current.GetOr(0.0) < target.value)
  {
  }

  // ---------------------------------------------------------------------------
  // Alerts
  // ---------------------------------------------------------------------------

  /** `PUT /api/alertas/<id>/read`: marks the alerts with this id as read;
      the status is 200 even when no alert has it. */
  function MarkAlertRead(s: Store, alertId: nat): (r: Reply)
    ensures r.code == Ok
    ensures r.store == s.(alerts := r.store.alerts)
    ensures |r.store.alerts| == |s.alerts|
    ensures forall i :: 0 <= i < |s.alerts| ==>
              r.store.alerts[i] == if s.alerts[i].id == alertId then s.alerts[i].(isRead := true) else s.alerts[i]
  {
    var as_ := seq(|s.alerts|, i requires 0 <= i < |s.alerts| =>
                 if s.alerts[i].id == alertId then s.alerts[i].(isRead := true) else s.alerts[i]);
    Reply(s.(alerts := as_), Ok)
  }

  lemma MarkAlertReadIdempotent(s: Store, alertId: nat)
    ensures MarkAlertRead(MarkAlertRead(s, alertId).store, alertId) == MarkAlertRead(s, alertId)
  {
    var once := MarkAlertRead(s, alertId).store;
    var twice := MarkAlertRead(once, alertId).store;
    assert twice.alerts == once.alerts;
  }

  /** `GET /api/alertas` first runs the limit check, so every listing raises
      the month's exceeded limits again: two listings with nothing recorded
      in between raise the same alerts twice. */
  lemma ListingAlertsRepeatsThem(s: Store, month: string, today: string)
    requires CheckCategoryLimits(s, month, today).LimitsChecked?
    ensures var first := CheckCategoryLimits(s, month, today);
            var second := CheckCategoryLimits(first.store, month, today);
            second.LimitsChecked? && second.raised == first.raised
            && |second.store.alerts| == |s.alerts| + 2 * |first.raised|
  {
    var first := CheckCategoryLimits(s, month, today);
    assert first.store == s.(alerts := first.store.alerts);
  }
}

=== FILE: budget_analyzer.dfy ===
/** The budget-cut planning engine of backend/budget_analyzer.py: a per-category
    cut rule, the savings-ordered suggestion list, the planner that rescales the
    cuts towards a savings target and truncates the spending plan, and the
    quick-wins selector. Amounts are exact reals; the pandas aggregation that
    produces the per-category statistics is an input. */
module BudgetAnalyzer {
  import opened Common

  // ---------------------------------------------------------------------------
  // Category limits, keyed by category name
  // ---------------------------------------------------------------------------

  datatype LimitRow = LimitRow(categoryId: nat, limitAmount: real)
  datatype CategoryRow = CategoryRow(id: nat, name: string)

  /** Name of the first category with this id (`fetchone`), if any. */
  function NameOf(cats: seq<CategoryRow>, id: nat): (r: Option<string>)
    ensures r.Some? <==> exists i :: 0 <= i < |cats| && cats[i].id == id
    ensures r.Some? ==> exists i :: 0 <= i < |cats| && cats[i].id == id && cats[i].name == r.value
    decreases |cats|
  {
    if |cats| == 0 then None
    else if cats[0].id == id then Some(cats[0].name)
    else
      var r := NameOf(cats[1..], id);
      assert forall i :: 1 <= i < |cats| ==> cats[i] == cats[1..][i - 1];
      r
  }

  /** The position of the last row satisfying `hit`, if any row does. */
  function LastIndex(rows: seq<LimitRow>, hit: LimitRow -> bool): (k: Option<nat>)
    ensures k.None? ==> forall i :: 0 <= i < |rows| ==> !hit(rows[i])
    ensures k.Some? ==> k.value < |rows| && hit(rows[k.value])
    ensures k.Some? ==> forall j :: k.value < j < |rows| ==> !hit(rows[j])
    decreases |rows|
  {
    if |rows| == 0 then None
    else if hit(rows[|rows| - 1]) then Some(|rows| - 1)
    else
      var init := rows[..|rows| - 1];
      assert forall i :: 0 <= i < |init| ==> init[i] == rows[i];
      LastIndex(init, hit)
  }

  /** The limit the last row resolving to `name` sets, if any row does. */
  function LastLimit(rows: seq<LimitRow>, cats: seq<CategoryRow>, name: string): (v: Option<real>)
    ensures v.None? <==> forall i :: 0 <= i < |rows| ==> NameOf(cats, rows[i].categoryId) != Some(name)
    ensures v.Some? ==> exists i :: && 0 <= i < |rows|
                                    && NameOf(cats, rows[i].categoryId) == Some(name)
                                    && rows[i].limitAmount == v.value
                                    && forall j :: i < j < |rows| ==> NameOf(cats, rows[j].categoryId) != Some(name)
  {
    var hit := (r: LimitRow) => NameOf(cats, r.categoryId) == Some(name);
    var k := LastIndex(rows, hit);
    if k.None? then None
    else
      assert hit(rows[k.value]);
      Some(rows[k.value].limitAmount)
  }

  /** One more row: it sets the limit when it resolves to the name, and
      otherwise the earlier rows decide. */
  lemma LastLimitStep(rows: seq<LimitRow>, cats: seq<CategoryRow>, name: string)
    requires |rows| > 0
    ensures LastLimit(rows, cats, name) ==
              if NameOf(cats, rows[|rows| - 1].categoryId) == Some(name) then Some(rows[|rows| - 1].limitAmount)
              else LastLimit(rows[..|rows| - 1], cats, name)
  {
    var hit := (r: LimitRow) => NameOf(cats, r.categoryId) == Some(name);
    assert LastIndex(rows, hit) ==
             if hit(rows[|rows| - 1]) then Some(|rows| - 1) else LastIndex(rows[..|rows| - 1], hit);
    assert forall i :: 0 <= i < |rows| - 1 ==> rows[..|rows| - 1][i] == rows[i];
  }

  /** The limit dictionary built row by row: a limit whose category is unknown
      is dropped, and a later row for the same name overwrites an earlier one. */
  function LimitsByName(rows: seq<LimitRow>, cats: seq<CategoryRow>): (m: map<string, real>)
    ensures forall k :: k in m <==> LastLimit(rows, cats, k).Some?
    ensures forall k :: k in m ==> m[k] == LastLimit(rows, cats, k).value
    decreases |rows|
  {
    if |rows| == 0 then map[]
    else
      var m := LimitsByName(rows[..|rows| - 1], cats);
      assert forall k :: LastLimit(rows, cats, k) ==
               if NameOf(cats, rows[|rows| - 1].categoryId) == Some(k) then Some(rows[|rows| - 1].limitAmount)
               else LastLimit(rows[..|rows| - 1], cats, k)
      by {
        forall k { LastLimitStep(rows, cats, k); }
      }
      match NameOf(cats, rows[|rows| - 1].categoryId)
      case None => m
      case Some(nm) => m[nm := rows[|rows| - 1].limitAmount]
  }

  // ---------------------------------------------------------------------------
  // The per-category cut rule
  // ---------------------------------------------------------------------------

  const NonEssentialKeywords: seq<string> :=
    ["lazer", "entretenimento", "restaurantes", "viagens", "compras", "roupas", "assinaturas", "jogos"]

  /** One row of the per-category aggregation over the analysed window.
      `name` is "" for a row the analysis skips; `monthlyAvg` is the mean of the
      category's monthly totals and `variance` their sample variance (0 for a
      single month). */
  datatype CategoryStats = CategoryStats(name: string, monthlyAvg: real, variance: real)

  /** Why a cut was suggested. `OverLimit` carries the overage percentage. */
  datatype Reason = NonEssentialHighSpend | InconsistentSpending | OverLimit(percent: real)

  /** The advice strings attached to a suggestion, one constructor per text. */
  datatype Action = ReviewStreaming | CookAtHome | PlanPurchases | FixMonthlyBudget | MeetLimit

  predicate NonEssential(c: CategoryStats)
  {
    AnyContained(Lower(c.name), NonEssentialKeywords)
  }

  /** Criterion 1: a non-essential category above 10% of the monthly total. */
  predicate HighNonEssential(c: CategoryStats, monthlyTotal: real)
  {
    NonEssential(c) && c.monthlyAvg > monthlyTotal * 0.1
  }

  /** Criterion 2: variance above 1.5 times the monthly average. */
  predicate Inconsistent(c: CategoryStats)
  {
    c.variance > c.monthlyAvg * 1.5
  }

  /** Criterion 3: a limit exists and the monthly average exceeds it. */
  predicate OverBudget(avg: real, limit: Option<real>)
  {
    limit.Some? && avg > limit.value
  }

  /** A limit the overage percentage can be computed for: the average is not
      over it, or it is not zero. */
  predicate LimitUsable(avg: real, limit: Option<real>)
  {
    OverBudget(avg, limit) ==> limit.value != 0.0
  }

  /** `(avg - limit) / limit * 100`. Both operands are Python floats (a value
      of an `iterrows` row and an SQLite REAL), so a zero limit raises
      ZeroDivisionError instead; callers rule that case out first. */
  function OveragePercent(avg: real, limit: real): (p: real)
    requires avg > limit && limit != 0.0
    ensures avg == limit * (1.0 + p / 100.0)
    ensures p > 0.0 <==> limit > 0.0
  {
    (avg - limit) / limit * 100.0
  }

  /** Criterion 3's cut: the overage percentage, capped at 40. */
  function OverageCut(avg: real, limit: real): (cut: real)
    requires avg > limit && limit != 0.0
    ensures OveragePercent(avg, limit) <= 40.0 ==> cut == OveragePercent(avg, limit)
    ensures OveragePercent(avg, limit) >= 40.0 ==> cut == 40.0
    ensures cut <= 40.0
    ensures limit > 0.0 ==> cut > 0.0
  {
    MinR(OveragePercent(avg, limit), 40.0)
  }

  /** The suggested cut of a category: the largest cut among the criteria that
      apply, and 0 when none does. */
  function SuggestedCut(c: CategoryStats, monthlyTotal: real, limit: Option<real>): (cut: real)
    requires LimitUsable(c.monthlyAvg, limit)
    ensures 0.0 <= cut <= 40.0
    ensures HighNonEssential(c, monthlyTotal) ==> cut >= 30.0
    ensures Inconsistent(c) ==> cut >= 20.0
    ensures OverBudget(c.monthlyAvg, limit) ==> cut >= OverageCut(c.monthlyAvg, limit.value)
  {
    var afterFirst := if HighNonEssential(c, monthlyTotal) then 30.0 else 0.0;
    var afterSecond := if Inconsistent(c) then MaxR(afterFirst, 20.0) else afterFirst;
    if OverBudget(c.monthlyAvg, limit) then MaxR(afterSecond, OverageCut(c.monthlyAvg, limit.value))
    else afterSecond
  }

  /** The cut is exactly the contribution of one criterion that applies (the
      largest, by the bounds above), or 0 when none applies; so it is positive
      exactly when some criterion contributes a positive cut. */
  lemma SuggestedCutIsLargestContribution(c: CategoryStats, monthlyTotal: real, limit: Option<real>)
    requires LimitUsable(c.monthlyAvg, limit)
    ensures var cut := SuggestedCut(c, monthlyTotal, limit);
            || cut == 0.0
            || (HighNonEssential(c, monthlyTotal) && cut == 30.0)
            || (Inconsistent(c) && cut == 20.0)
            || (OverBudget(c.monthlyAvg, limit) && cut == OverageCut(c.monthlyAvg, limit.value))
    ensures SuggestedCut(c, monthlyTotal, limit) > 0.0 <==>
              || HighNonEssential(c, monthlyTotal)
              || Inconsistent(c)
              || (OverBudget(c.monthlyAvg, limit) && OverageCut(c.monthlyAvg, limit.value) > 0.0)
  {
  }

  /** The reasons, one per criterion that applies, in criterion order; the
      over-limit reason carries the overage percentage. */
  function Reasons(c: CategoryStats, monthlyTotal: real, limit: Option<real>): (r: seq<Reason>)
    requires LimitUsable(c.monthlyAvg, limit)
    ensures NonEssentialHighSpend in r <==> HighNonEssential(c, monthlyTotal)
    ensures InconsistentSpending in r <==> Inconsistent(c)
    ensures (exists p :: OverLimit(p) in r) <==> OverBudget(c.monthlyAvg, limit)
    ensures forall p :: OverLimit(p) in r ==> p == OveragePercent(c.monthlyAvg, limit.value)
    ensures |r| <= 3
  {
    (if HighNonEssential(c, monthlyTotal) then [NonEssentialHighSpend] else [])
    + (if Inconsistent(c) then [InconsistentSpending] else [])
    + (if OverBudget(c.monthlyAvg, limit) then [OverLimit(OveragePercent(c.monthlyAvg, limit.value))] else [])
  }

  /** Advice texts: for a high-spend non-essential category, each of the
      three category-specific ones exactly when the lowered name contains one
      of its words; then one per further criterion. */
  function Actions(c: CategoryStats, monthlyTotal: real, limit: Option<real>): (r: seq<Action>)
    ensures (ReviewStreaming in r || CookAtHome in r || PlanPurchases in r) ==> HighNonEssential(c, monthlyTotal)
    ensures ReviewStreaming in r <==>
              HighNonEssential(c, monthlyTotal)
              && (Contains(Lower(c.name), "entretenimento") || Contains(Lower(c.name), "assinaturas"))
    ensures CookAtHome in r <==> HighNonEssential(c, monthlyTotal) && Contains(Lower(c.name), "restaurantes")
    ensures PlanPurchases in r <==>
              HighNonEssential(c, monthlyTotal)
              && (Contains(Lower(c.name), "compras") || Contains(Lower(c.name), "roupas"))
    ensures FixMonthlyBudget in r <==> Inconsistent(c)
    ensures MeetLimit in r <==> OverBudget(c.monthlyAvg, limit)
  {
    var lower := Lower(c.name);
    var specific := SpecificActions(HighNonEssential(c, monthlyTotal),
                                    Contains(lower, "entretenimento") || Contains(lower, "assinaturas"),
                                    Contains(lower, "restaurantes"),
                                    Contains(lower, "compras") || Contains(lower, "roupas"));
    specific
    + (if Inconsistent(c) then [FixMonthlyBudget] else [])
    + (if OverBudget(c.monthlyAvg, limit) then [MeetLimit] else [])
  }

  /** The category-specific advice, given whether the category is high-spend
      non-essential and which of the three word groups its name contains. */
  function SpecificActions(high: bool, streaming: bool, dining: bool, shopping: bool): (r: seq<Action>)
    ensures ReviewStreaming in r <==> high && streaming
    ensures CookAtHome in r <==> high && dining
    ensures PlanPurchases in r <==> high && shopping
    ensures FixMonthlyBudget !in r && MeetLimit !in r
  {
    if high then
      (if streaming then [ReviewStreaming] else [])
      + (if dining then [CookAtHome] else [])
      + (if shopping then [PlanPurchases] else [])
    else []
  }

  // ---------------------------------------------------------------------------
  // Suggestions and the analysis summary
  // ---------------------------------------------------------------------------

  datatype Suggestion = Suggestion(
    category: string,
    monthlyAvg: real,
    percentOfTotal: Option<real>,
    cut: real,
    savings: real,
    reasons: seq<Reason>,
    actions: seq<Action>)

  /** Savings agree with the cut: avg * cut / 100. */
  predicate Consistent(s: Suggestion)
  {
    s.savings == s.monthlyAvg * s.cut / 100.0
  }

  function SavingsKey(s: Suggestion): real { s.savings }

  function LimitFor(limits: map<string, real>, name: string): Option<real>
  {
    if name in limits then Some(limits[name]) else None
  }

  /** A named category whose monthly average is over a zero limit: its
      overage percentage divides by zero and the whole analysis raises. */
  predicate ZeroLimitOverrun(c: CategoryStats, limits: map<string, real>)
  {
    c.name != "" && !LimitUsable(c.monthlyAvg, LimitFor(limits, c.name))
  }

  /** No row of the aggregation is a zero-limit overrun. */
  predicate NoZeroLimitOverrun(rows: seq<CategoryStats>, limits: map<string, real>)
  {
    forall i :: 0 <= i < |rows| ==> !ZeroLimitOverrun(rows[i], limits)
  }

  /** `monthly_avg / monthly_total_avg * 100`. The divisor is a numpy float
      (a column sum), so a zero total yields inf or nan rather than an
      error; None stands for that non-finite value. */
  function ShareOfTotal(avg: real, monthlyTotal: real): (p: Option<real>)
    ensures p.None? <==> monthlyTotal == 0.0
    ensures p.Some? ==> p.value * monthlyTotal == avg * 100.0
  {
    if monthlyTotal == 0.0 then None else Some(avg / monthlyTotal * 100.0)
  }

  /** The suggestion emitted for one row: none for a nameless row or a zero cut. */
  function SuggestionFor(c: CategoryStats, monthlyTotal: real, limits: map<string, real>): (r: Option<Suggestion>)
    requires !ZeroLimitOverrun(c, limits)
    ensures r.Some? <==> c.name != "" && SuggestedCut(c, monthlyTotal, LimitFor(limits, c.name)) > 0.0
    ensures r.Some? ==> && c.name != ""
                        && r.value.category == c.name
                        && r.value.monthlyAvg == c.monthlyAvg
                        && r.value.percentOfTotal == ShareOfTotal(c.monthlyAvg, monthlyTotal)
                        && r.value.cut == SuggestedCut(c, monthlyTotal, LimitFor(limits, c.name))
                        && Consistent(r.value)
                        && 0.0 < r.value.cut <= 40.0
  {
    if c.name == "" then None
    else
      var limit := LimitFor(limits, c.name);
      var cut := SuggestedCut(c, monthlyTotal, limit);
      if cut > 0.0 then
        Some(NewSuggestion(c, ShareOfTotal(c.monthlyAvg, monthlyTotal), cut,
                           Reasons(c, monthlyTotal, limit), Actions(c, monthlyTotal, limit)))
      else None
  }

  /** A suggestion for category `c` with its share of the monthly total, the
      given cut and its savings, the reasons and the advice. */
  function NewSuggestion(c: CategoryStats, share: Option<real>, cut: real,
                         reasons: seq<Reason>, actions: seq<Action>): (s: Suggestion)
    ensures s.category == c.name && s.monthlyAvg == c.monthlyAvg && s.percentOfTotal == share && s.cut == cut
    ensures Consistent(s)
  {
    Suggestion(c.name, c.monthlyAvg, share, cut, c.monthlyAvg * cut / 100.0, reasons, actions)
  }

  /** The emitted suggestions, in row order, before sorting. */
  function CollectSuggestions(rows: seq<CategoryStats>, monthlyTotal: real, limits: map<string, real>): (r: seq<Suggestion>)
    requires NoZeroLimitOverrun(rows, limits)
    ensures |r| <= |rows|
    ensures forall s :: s in r ==> Consistent(s) && 0.0 < s.cut <= 40.0 && s.category != ""
    ensures forall s :: s in r ==> exists i :: 0 <= i < |rows| && SuggestionFor(rows[i], monthlyTotal, limits) == Some(s)
    ensures forall i :: 0 <= i < |rows| && SuggestionFor(rows[i], monthlyTotal, limits).Some? ==>
              SuggestionFor(rows[i], monthlyTotal, limits).value in r
    decreases |rows|
  {
    if |rows| == 0 then []
    else
      assert forall i :: 1 <= i < |rows| ==> rows[i] == rows[1..][i - 1];
      var rest := CollectSuggestions(rows[1..], monthlyTotal, limits);
      match SuggestionFor(rows[0], monthlyTotal, limits)
      case None => rest
      case Some(s) => [s] + rest
  }

  /** The savings of the suggestions added up. */
  function TotalSavings(sugs: seq<Suggestion>): real
  {
    SumBy(sugs, SavingsKey)
  }

  function MonthlyTotal(rows: seq<CategoryStats>): real
  {
    Sum(seq(|rows|, i requires 0 <= i < |rows| => rows[i].monthlyAvg))
  }

  datatype Summary = Summary(totalMonthlyExpenses: real, potentialSavings: real, potentialSavingsPercent: real)

  /** General recommendations of the analysis that depend only on the
      suggestions (seasonality and national comparisons are not modelled). */
  datatype GeneralRecommendation = ApplySuggestedCuts(savings: real, percent: real) | SignificantOpportunities

  /** The outcome of the analysis. `AnalysisFailed` is the exception a
      zero-limit overrun raises, which both endpoints turn into a server
      error. */
  datatype ExpenseAnalysis =
    | InsufficientData
    | AnalysisFailed
    | Analysed(summary: Summary, suggestions: seq<Suggestion>, recommendations: seq<GeneralRecommendation>)

  /** Percentage of `part` in `whole`, 0 when `whole` is not positive. */
  function PercentOf(part: real, whole: real): (p: real)
    ensures whole > 0.0 ==> p * whole == part * 100.0
    ensures whole <= 0.0 ==> p == 0.0
  {
    if whole > 0.0 then part / whole * 100.0 else 0.0
  }

  /** The general recommendations that depend on the suggestions: a summary
      when there are at least three, and a note when some cut exceeds 30%. */
  function GeneralRecommendations(sugs: seq<Suggestion>, potential: real, percent: real): (recs: seq<GeneralRecommendation>)
    ensures ApplySuggestedCuts(potential, percent) in recs <==> |sugs| >= 3
    ensures SignificantOpportunities in recs <==> exists s :: s in sugs && s.cut > 30.0
    ensures |recs| <= 2
  {
    (if |sugs| >= 3 then [ApplySuggestedCuts(potential, percent)] else [])
    + (if exists s :: s in sugs && s.cut > 30.0 then [SignificantOpportunities] else [])
  }

  /** `get_expense_analysis` after the aggregation step. `hasExpenses` says
      whether any expense transaction fell in the window. */
  function AnalyzeExpenses(hasExpenses: bool, rows: seq<CategoryStats>, limits: map<string, real>): (r: ExpenseAnalysis)
    ensures r.InsufficientData? <==> !hasExpenses
    ensures r.AnalysisFailed? <==> hasExpenses && exists i :: 0 <= i < |rows| && ZeroLimitOverrun(rows[i], limits)
    ensures r.Analysed? ==>
              && NoZeroLimitOverrun(rows, limits)
              && r.summary.totalMonthlyExpenses == MonthlyTotal(rows)
              && SortedDesc(r.suggestions, SavingsKey)
              && multiset(r.suggestions) == multiset(CollectSuggestions(rows, MonthlyTotal(rows), limits))
              && r.summary.potentialSavings == TotalSavings(r.suggestions)
              && r.summary.potentialSavingsPercent == PercentOf(r.summary.potentialSavings, r.summary.totalMonthlyExpenses)
              && r.recommendations == GeneralRecommendations(r.suggestions, r.summary.potentialSavings, r.summary.potentialSavingsPercent)
    ensures r.Analysed? ==> forall s :: s in r.suggestions ==> Consistent(s) && 0.0 < s.cut <= 40.0
  {
    if !hasExpenses then InsufficientData
    else if !NoZeroLimitOverrun(rows, limits) then AnalysisFailed
    else
      var total := MonthlyTotal(rows);
      var collected := CollectSuggestions(rows, total, limits);
      var sorted := SortDesc(collected, SavingsKey);
      assert forall s :: s in sorted ==> s in multiset(collected);
      var potential := TotalSavings(sorted);
      var percent := PercentOf(potential, total);
      Analysed(Summary(total, potential, percent), sorted, GeneralRecommendations(sorted, potential, percent))
  }

  /** The suggestions are exactly those emitted for the rows: one for every
      named category with a positive cut, and nothing else. */
  lemma AnalysisCoversCategories(rows: seq<CategoryStats>, limits: map<string, real>)
    ensures var a := AnalyzeExpenses(true, rows, limits);
            a.Analysed? ==>
              forall s :: s in a.suggestions <==>
                exists i :: 0 <= i < |rows| && SuggestionFor(rows[i], MonthlyTotal(rows), limits) == Some(s)
  {
    var a := AnalyzeExpenses(true, rows, limits);
    if a.Analysed? {
      var collected := CollectSuggestions(rows, MonthlyTotal(rows), limits);
      forall s
        ensures s in a.suggestions <==> s in collected
      {
        assert s in a.suggestions <==> s in multiset(a.suggestions);
        assert s in collected <==> s in multiset(collected);
      }
    }
  }

  // ---------------------------------------------------------------------------
  // The cut planner
  // ---------------------------------------------------------------------------

  /** The caller gave a target: the query value parsed as a number other
      than 0 (a missing or zero one is falsy). */
  predicate TargetRequested(requested: Option<real>)
  {
    requested.Some? && requested.value != 0.0
  }

  /** A requested target is kept; otherwise the target is 15% of the monthly
      expenses. */
  function EffectiveTarget(monthly: real, requested: Option<real>): (t: real)
    ensures TargetRequested(requested) ==> t == requested.value
    ensures !TargetRequested(requested) ==> t * 100.0 == monthly * 15.0
  {
    if TargetRequested(requested) then requested.value else monthly * 0.15
  }

  /** Scaling up: cuts grow by the factor and are capped at 50. */
  function ScaleUp(s: Suggestion, factor: real): (r: Suggestion)
    ensures r.cut <= 50.0
    ensures s.cut * factor <= 50.0 ==> r.cut == s.cut * factor
    ensures Consistent(r)
    ensures r.category == s.category && r.monthlyAvg == s.monthlyAvg && r.actions == s.actions
  {
    var cut := MinR(s.cut * factor, 50.0);
    s.(cut := cut, savings := s.monthlyAvg * cut / 100.0)
  }

  /** Scaling down: cuts shrink by the factor and are floored at 5. */
  function ScaleDown(s: Suggestion, factor: real): (r: Suggestion)
    ensures r.cut >= 5.0
    ensures s.cut * factor >= 5.0 ==> r.cut == s.cut * factor
    ensures Consistent(r)
    ensures r.category == s.category && r.monthlyAvg == s.monthlyAvg && r.actions == s.actions
  {
    var cut := MaxR(s.cut * factor, 5.0);
    s.(cut := cut, savings := s.monthlyAvg * cut / 100.0)
  }

  /** The scale-up factor `min(target / potential, 1.5)`, used when the
      potential is below the target. A zero potential only gets here with the
      default target, a numpy float, whose ratio is +inf: the factor is 1.5. */
  function UpFactor(potential: real, target: real): (f: real)
    requires potential < target
    ensures f <= 1.5
    ensures potential != 0.0 && target / potential <= 1.5 ==> f == target / potential
    ensures potential == 0.0 || target / potential >= 1.5 ==> f == 1.5
    ensures 0.0 < potential ==> 1.0 < f
  {
    if potential == 0.0 then 1.5 else MinR(target / potential, 1.5)
  }

  /** The scale-down factor `max(target / potential, 0.3)`, used when the
      potential is above the target. A zero potential only gets here with a
      negative default target, whose ratio is -inf: the factor is 0.3. */
  function DownFactor(potential: real, target: real): (f: real)
    requires target < potential
    ensures f >= 0.3
    ensures potential != 0.0 && target / potential >= 0.3 ==> f == target / potential
    ensures potential == 0.0 || target / potential <= 0.3 ==> f == 0.3
    ensures 0.0 < potential ==> f < 1.0
  {
    if potential == 0.0 then 0.3 else MaxR(target / potential, 0.3)
  }

  /** Same categories, averages and advice, position by position. */
  ghost predicate SameCategories(a: seq<Suggestion>, b: seq<Suggestion>)
  {
    |a| == |b| && forall i :: 0 <= i < |a| ==>
      a[i].category == b[i].category && a[i].monthlyAvg == b[i].monthlyAvg && a[i].actions == b[i].actions
  }

  /** Rescales every cut by the clamped factor. With a zero potential the
      ratio target / potential divides by zero: a requested target is a
      Python float and the division raises (None), while the default target
      is a numpy float and the factor clamps (see `UpFactor`, `DownFactor`). */
  function Rescale(sugs: seq<Suggestion>, target: real, requested: bool): (r: Option<seq<Suggestion>>)
    ensures r.None? <==> requested && TotalSavings(sugs) == 0.0 && target != 0.0
    ensures r.Some? ==> SameCategories(r.value, sugs)
    ensures r.Some? && TotalSavings(sugs) == target ==> r.value == sugs
    ensures r.Some? && TotalSavings(sugs) < target ==>
              forall i :: 0 <= i < |sugs| ==> r.value[i] == ScaleUp(sugs[i], UpFactor(TotalSavings(sugs), target))
    ensures r.Some? && TotalSavings(sugs) > target ==>
              forall i :: 0 <= i < |sugs| ==> r.value[i] == ScaleDown(sugs[i], DownFactor(TotalSavings(sugs), target))
    ensures r.Some? && TotalSavings(sugs) < target ==>
              forall i :: 0 <= i < |sugs| ==> r.value[i].cut <= 50.0 && Consistent(r.value[i])
    ensures r.Some? && TotalSavings(sugs) > target ==>
              forall i :: 0 <= i < |sugs| ==> r.value[i].cut >= 5.0 && Consistent(r.value[i])
    ensures r.Some? && 0.0 < TotalSavings(sugs) < target ==>
              forall i :: 0 <= i < |sugs| && 0.0 <= sugs[i].cut ==>
                MinR(sugs[i].cut, 50.0) <= r.value[i].cut <= MinR(sugs[i].cut * 1.5, 50.0)
    ensures r.Some? && 0.0 < TotalSavings(sugs) && target < TotalSavings(sugs) ==>
              forall i :: 0 <= i < |sugs| && 0.0 <= sugs[i].cut ==>
                MaxR(sugs[i].cut * 0.3, 5.0) <= r.value[i].cut <= MaxR(sugs[i].cut, 5.0)
  {
    var potential := TotalSavings(sugs);
    if requested && potential == 0.0 && target != 0.0 then None
    else if potential < target then
      var f := UpFactor(potential, target);
      var up := seq(|sugs|, i requires 0 <= i < |sugs| => ScaleUp(sugs[i], f));
      ScaleBounds(sugs, f, potential, target);
      Some(up)
    else if potential > target then
      var f := DownFactor(potential, target);
      var down := seq(|sugs|, i requires 0 <= i < |sugs| => ScaleDown(sugs[i], f));
      ScaleBounds(sugs, f, potential, target);
      Some(down)
    else Some(sugs)
  }

  lemma ScaleBounds(sugs: seq<Suggestion>, f: real, potential: real, target: real)
    ensures 0.0 < potential < target && f == UpFactor(potential, target) ==>
              forall i :: 0 <= i < |sugs| && 0.0 <= sugs[i].cut ==>
                MinR(sugs[i].cut, 50.0) <= ScaleUp(sugs[i], f).cut <= MinR(sugs[i].cut * 1.5, 50.0)
    ensures 0.0 < potential && target < potential && f == DownFactor(potential, target) ==>
              forall i :: 0 <= i < |sugs| && 0.0 <= sugs[i].cut ==>
                MaxR(sugs[i].cut * 0.3, 5.0) <= ScaleDown(sugs[i], f).cut <= MaxR(sugs[i].cut, 5.0)
  {
    if 0.0 < potential < target && f == UpFactor(potential, target) {
      ScaleUpBounds(sugs, f);
    }
    if 0.0 < potential && target < potential && f == DownFactor(potential, target) {
      ScaleDownBounds(sugs, f);
    }
  }

  lemma ScaleUpBounds(sugs: seq<Suggestion>, f: real)
    requires 1.0 < f <= 1.5
    ensures forall i :: 0 <= i < |sugs| && 0.0 <= sugs[i].cut ==>
              MinR(sugs[i].cut, 50.0) <= ScaleUp(sugs[i], f).cut <= MinR(sugs[i].cut * 1.5, 50.0)
  {
    forall i | 0 <= i < |sugs| && 0.0 <= sugs[i].cut
      ensures MinR(sugs[i].cut, 50.0) <= ScaleUp(sugs[i], f).cut <= MinR(sugs[i].cut * 1.5, 50.0)
    {
      UpBounds(sugs[i].cut, f);
      assert ScaleUp(sugs[i], f).cut == MinR(sugs[i].cut * f, 50.0);
    }
  }

  lemma ScaleDownBounds(sugs: seq<Suggestion>, f: real)
    requires 0.3 <= f < 1.0
    ensures forall i :: 0 <= i < |sugs| && 0.0 <= sugs[i].cut ==>
              MaxR(sugs[i].cut * 0.3, 5.0) <= ScaleDown(sugs[i], f).cut <= MaxR(sugs[i].cut, 5.0)
  {
    forall i | 0 <= i < |sugs| && 0.0 <= sugs[i].cut
      ensures MaxR(sugs[i].cut * 0.3, 5.0) <= ScaleDown(sugs[i], f).cut <= MaxR(sugs[i].cut, 5.0)
    {
      DownBounds(sugs[i].cut, f);
    }
  }

  lemma UpBounds(cut: real, f: real)
    requires 0.0 <= cut && 1.0 < f <= 1.5
    ensures MinR(cut, 50.0) <= MinR(cut * f, 50.0) <= MinR(cut * 1.5, 50.0)
  {
    MulMono(cut, 1.0, f);
    MulMono(cut, f, 1.5);
    MinMono(cut, cut * f, 50.0);
    MinMono(cut * f, cut * 1.5, 50.0);
  }

  lemma DownBounds(cut: real, f: real)
    requires 0.0 <= cut && 0.3 <= f < 1.0
    ensures MaxR(cut * 0.3, 5.0) <= MaxR(cut * f, 5.0) <= MaxR(cut, 5.0)
  {
    MulMono(cut, 0.3, f);
    MulMono(cut, f, 1.0);
    MaxMono(cut * 0.3, cut * f, 5.0);
    MaxMono(cut * f, cut, 5.0);
  }

  /** Multiplying by a non-negative number is monotone. */
  lemma MulMono(c: real, a: real, b: real)
    requires 0.0 <= c && a <= b
    ensures c * a <= c * b
  {
    assert c * b - c * a == c * (b - a);
  }

  lemma MinMono(a: real, b: real, k: real)
    requires a <= b
    ensures MinR(a, k) <= MinR(b, k)
  {
  }

  lemma MaxMono(a: real, b: real, k: real)
    requires a <= b
    ensures MaxR(a, k) <= MaxR(b, k)
  {
  }

  /** No clamp binds: the potential is not zero, the ratio target / potential
      stays within 1.5 when scaling up and 0.3 when scaling down, and every
      scaled cut stays within 50 and 5 respectively. */
  ghost predicate Unclamped(sugs: seq<Suggestion>, target: real)
  {
    var p := TotalSavings(sugs);
    && p != 0.0
    && (p < target ==> target / p <= 1.5 && forall i :: 0 <= i < |sugs| ==> sugs[i].cut * (target / p) <= 50.0)
    && (target < p ==> target / p >= 0.3 && forall i :: 0 <= i < |sugs| ==> sugs[i].cut * (target / p) >= 5.0)
  }

  /** A cut scaled by `f` scales its savings by `f`. */
  lemma ScaledSavings(s: Suggestion, t: Suggestion, f: real)
    requires Consistent(s) && Consistent(t) && t.monthlyAvg == s.monthlyAvg && t.cut == s.cut * f
    ensures t.savings == f * s.savings
  {
    assert s.monthlyAvg * (s.cut * f) == (s.monthlyAvg * s.cut) * f;
  }

  /** Savings scaled termwise by `f` add up to `f` times the total. */
  lemma {:induction false} TotalSavingsScaled(a: seq<Suggestion>, b: seq<Suggestion>, f: real)
    requires |a| == |b|
    requires forall i :: 0 <= i < |a| ==> b[i].savings == f * a[i].savings
    ensures TotalSavings(b) == f * TotalSavings(a)
    decreases |a|
  {
    if |a| > 0 {
      var n := |a| - 1;
      TotalSavingsScaled(a[..n], b[..n], f);
      assert f * (TotalSavings(a[..n]) + a[n].savings) == f * TotalSavings(a[..n]) + f * a[n].savings;
    }
  }

  /** When no clamp binds, the rescaled cuts save exactly the target: every
      saving is scaled by target / potential, and so is their sum. */
  lemma RescaleReachesTarget(sugs: seq<Suggestion>, target: real, requested: bool)
    requires forall s :: s in sugs ==> Consistent(s)
    requires Unclamped(sugs, target)
    ensures Rescale(sugs, target, requested).Some?
    ensures TotalSavings(Rescale(sugs, target, requested).value) == target
  {
    var p := TotalSavings(sugs);
    var r := Rescale(sugs, target, requested).value;
    if p < target {
      RescaledUp(sugs, target, r, p);
    } else if target < p {
      RescaledDown(sugs, target, r, p);
    }
  }

  lemma RescaledUp(sugs: seq<Suggestion>, target: real, r: seq<Suggestion>, p: real)
    requires forall s :: s in sugs ==> Consistent(s)
    requires p == TotalSavings(sugs) && p != 0.0 && p < target && target / p <= 1.5
    requires forall i :: 0 <= i < |sugs| ==> sugs[i].cut * (target / p) <= 50.0
    requires |r| == |sugs| && forall i :: 0 <= i < |sugs| ==> r[i] == ScaleUp(sugs[i], UpFactor(p, target))
    ensures TotalSavings(r) == target
  {
    var f := target / p;
    forall i | 0 <= i < |sugs|
      ensures r[i].savings == f * sugs[i].savings
    {
      assert sugs[i] in sugs;
      ScaledSavings(sugs[i], r[i], f);
    }
    TotalSavingsScaled(sugs, r, f);
  }

  lemma RescaledDown(sugs: seq<Suggestion>, target: real, r: seq<Suggestion>, p: real)
    requires forall s :: s in sugs ==> Consistent(s)
    requires p == TotalSavings(sugs) && p != 0.0 && target < p && target / p >= 0.3
    requires forall i :: 0 <= i < |sugs| ==> sugs[i].cut * (target / p) >= 5.0
    requires |r| == |sugs| && forall i :: 0 <= i < |sugs| ==> r[i] == ScaleDown(sugs[i], DownFactor(p, target))
    ensures TotalSavings(r) == target
  {
    var f := target / p;
    forall i | 0 <= i < |sugs|
      ensures r[i].savings == f * sugs[i].savings
    {
      assert sugs[i] in sugs;
      ScaledSavings(sugs[i], r[i], f);
    }
    TotalSavingsScaled(sugs, r, f);
  }

  datatype PlanItem = PlanItem(
    category: string,
    currentSpending: real,
    cutPercent: real,
    newBudget: real,
    monthlySavings: real,
    actions: seq<Action>)

  /** One spending-plan row: the budget after the cut and the monthly saving. */
  function ToPlanItem(s: Suggestion): (p: PlanItem)
    ensures Consistent(s) ==> p.currentSpending - p.newBudget == p.monthlySavings
    ensures p.newBudget == p.currentSpending * (1.0 - p.cutPercent / 100.0)
    ensures p.category == s.category && p.cutPercent == s.cut && p.monthlySavings == s.savings
  {
    PlanItem(s.category, s.monthlyAvg, s.cut, s.monthlyAvg * (1.0 - s.cut / 100.0), s.savings, s.actions)
  }

  function PlanItemSavings(p: PlanItem): real { p.monthlySavings }

  /** The monthly savings of the plan rows added up. */
  function PlanSavings(items: seq<PlanItem>): real
  {
    SumBy(items, PlanItemSavings)
  }

  /** The savings of the first `k` suggestions. */
  function Running(sugs: seq<Suggestion>, k: nat): real
    requires k <= |sugs|
  {
    TotalSavings(sugs[..k])
  }

  /** One more suggestion adds its savings to the running total. */
  lemma RunningStep(sugs: seq<Suggestion>, k: nat)
    requires k < |sugs|
    ensures Running(sugs, k + 1) == Running(sugs, k) + sugs[k].savings
  {
    assert sugs[..k + 1][..k] == sugs[..k];
  }

  /** The loop that builds the spending plan, from position `i` on, with
      `running` the savings of the first `i` suggestions. */
  function PlanFrom(sugs: seq<Suggestion>, target: real, i: nat, running: real): (r: seq<PlanItem>)
    requires i <= |sugs|
    requires running == Running(sugs, i)
    ensures |r| <= |sugs| - i
    ensures forall k :: 0 <= k < |r| ==> r[k] == ToPlanItem(sugs[i + k])
    ensures forall k :: 3 <= k < i + |r| && i < k ==> Running(sugs, k) < target
    ensures i + |r| < |sugs| ==> i + |r| >= 3 && Running(sugs, i + |r|) >= target && |r| > 0
    decreases |sugs| - i
  {
    if i == |sugs| then []
    else
      var running' := running + sugs[i].savings;
      RunningStep(sugs, i);
      if running' >= target && i + 1 >= 3 then [ToPlanItem(sugs[i])]
      else
        var rest := PlanFrom(sugs, target, i + 1, running');
        [ToPlanItem(sugs[i])] + rest
  }

  /** The spending plan: the savings-ordered suggestions, stopping after the
      first position (at least the third) where the running savings reach the
      target. */
  function SpendingPlan(sugs: seq<Suggestion>, target: real): (plan: seq<PlanItem>)
    ensures |plan| <= |sugs|
    ensures |plan| >= 3 || |plan| == |sugs|
    ensures forall k :: 0 <= k < |plan| ==> plan[k] == ToPlanItem(sugs[k])
    ensures forall k :: 3 <= k < |plan| ==> Running(sugs, k) < target
    ensures |plan| < |sugs| ==> Running(sugs, |plan|) >= target
  {
    assert sugs[..0] == [];
    PlanFrom(sugs, target, 0, 0.0)
  }

  lemma {:induction false} PlanSavingsIsPrefix(sugs: seq<Suggestion>, plan: seq<PlanItem>, n: nat)
    requires n <= |plan| <= |sugs|
    requires forall k :: 0 <= k < |plan| ==> plan[k] == ToPlanItem(sugs[k])
    ensures PlanSavings(plan[..n]) == TotalSavings(sugs[..n])
  {
    if n > 0 {
      PlanSavingsIsPrefix(sugs, plan, n - 1);
      assert plan[..n][..n - 1] == plan[..n - 1];
      assert sugs[..n][..n - 1] == sugs[..n - 1];
    }
  }

  datatype PlanRecommendation =
    | GoalAchievable(target: real)
    | GoalChallenging(target: real, identified: real)
    | FromAnalysis(rec: GeneralRecommendation)

  datatype CutPlan =
    | NotAnalysed(analysis: ExpenseAnalysis)
    | PlanServerError
    | Plan(
        target: real,
        achievable: bool,
        estimatedSavings: real,
        percentOfExpenses: real,
        spendingPlan: seq<PlanItem>,
        recommendations: seq<PlanRecommendation>)

  /** The plan built from the rescaled suggestions: the estimate is the
      adjusted total capped at the target, the goal is achievable exactly when
      the cap applies, and the spending plan is the savings-ordered prefix
      that saves at least the estimate. */
  function PlanFromAdjusted(monthly: real, target: real, adjusted: seq<Suggestion>,
                            analysisRecs: seq<GeneralRecommendation>): (r: CutPlan)
    requires forall s :: s in adjusted ==> Consistent(s)
    ensures r.Plan? && r.target == target
    ensures r.estimatedSavings == MinR(TotalSavings(adjusted), target)
    ensures r.estimatedSavings <= r.target
    ensures r.achievable <==> r.estimatedSavings == r.target
    ensures r.achievable <==> TotalSavings(adjusted) >= target
    ensures r.percentOfExpenses == PercentOf(r.estimatedSavings, monthly)
    ensures r.spendingPlan == SpendingPlan(SortDesc(adjusted, SavingsKey), target)
    ensures |r.spendingPlan| <= |adjusted|
    ensures forall p :: p in r.spendingPlan ==> p.newBudget == p.currentSpending - p.monthlySavings
    ensures PlanSavings(r.spendingPlan) >= r.estimatedSavings
    ensures |r.recommendations| == |analysisRecs| + 1
    ensures r.recommendations[0].GoalAchievable? <==> r.achievable
  {
    var sorted := SortDesc(adjusted, SavingsKey);
    var adjustedTotal := TotalSavings(sorted);
    SumByPermutation(adjusted, sorted, SavingsKey);
    var achievable := adjustedTotal >= target;
    var estimated := MinR(adjustedTotal, target);
    var plan := SpendingPlan(sorted, target);
    PlanCoversEstimate(sorted, plan, target);
    PlanBudgetsBalance(adjusted, sorted, plan, target);
    var first := if achievable then GoalAchievable(target) else GoalChallenging(target, adjustedTotal);
    var recs := [first] + seq(|analysisRecs|, i requires 0 <= i < |analysisRecs| => FromAnalysis(analysisRecs[i]));
    Plan(target, achievable, estimated, PercentOf(estimated, monthly), plan, recs)
  }

  /** `get_cost_cutting_recommendation` on an analysis, with the endpoint's
      translation of a raised error into a server error: the analysis's own,
      or the division by a zero potential for a requested target. The
      analysis's suggestions are consistent by construction (see
      `AnalyzeExpenses`). */
  function PlanCuts(analysis: ExpenseAnalysis, requested: Option<real>): (r: CutPlan)
    requires analysis.Analysed? ==> forall s :: s in analysis.suggestions ==> Consistent(s)
    ensures r.NotAnalysed? <==> analysis.InsufficientData?
    ensures analysis.InsufficientData? ==> r == NotAnalysed(analysis)
    ensures analysis.AnalysisFailed? ==> r == PlanServerError
    ensures analysis.Analysed? ==>
              var t := EffectiveTarget(analysis.summary.totalMonthlyExpenses, requested);
              var rescaled := Rescale(analysis.suggestions, t, TargetRequested(requested));
              && (r.PlanServerError? <==> TargetRequested(requested) && TotalSavings(analysis.suggestions) == 0.0)
              && (r.Plan? ==> && rescaled.Some?
                              && r.target == t
                              && r.estimatedSavings == MinR(TotalSavings(rescaled.value), t)
                              && r.spendingPlan == SpendingPlan(SortDesc(rescaled.value, SavingsKey), t)
                              && (r.achievable <==> TotalSavings(rescaled.value) >= t))
    ensures r.Plan? ==> && r.estimatedSavings <= r.target
                        && (r.achievable <==> r.estimatedSavings == r.target)
                        && r.percentOfExpenses == PercentOf(r.estimatedSavings, analysis.summary.totalMonthlyExpenses)
                        && |r.spendingPlan| <= |analysis.suggestions|
                        && PlanSavings(r.spendingPlan) >= r.estimatedSavings
  {
    match analysis
    case InsufficientData => NotAnalysed(analysis)
    case AnalysisFailed => PlanServerError
    case Analysed(summary, suggestions, analysisRecs) =>
      var target := EffectiveTarget(summary.totalMonthlyExpenses, requested);
      match Rescale(suggestions, target, TargetRequested(requested))
      case None => PlanServerError
      case Some(adjusted) =>
        RescaledConsistent(suggestions, target, TargetRequested(requested), adjusted);
        PlanFromAdjusted(summary.totalMonthlyExpenses, target, adjusted, analysisRecs)
  }

  /** When no clamp binds, the plan's estimate is the target itself and the
      goal is achievable. */
  lemma UnclampedPlanMeetsTarget(analysis: ExpenseAnalysis, requested: Option<real>)
    requires analysis.Analysed? && forall s :: s in analysis.suggestions ==> Consistent(s)
    requires Unclamped(analysis.suggestions, EffectiveTarget(analysis.summary.totalMonthlyExpenses, requested))
    ensures var r := PlanCuts(analysis, requested);
            r.Plan? && r.achievable && r.estimatedSavings == r.target
  {
    var t := EffectiveTarget(analysis.summary.totalMonthlyExpenses, requested);
    RescaleReachesTarget(analysis.suggestions, t, TargetRequested(requested));
  }

  /** The endpoint's full computation: analyse, then plan. A plan's target is
      the requested one or 15% of the monthly expenses, and its estimate is
      the rescaled total capped at that target. */
  function CostCuttingRecommendation(hasExpenses: bool, rows: seq<CategoryStats>, limits: map<string, real>,
                                     requested: Option<real>): (r: CutPlan)
    ensures !hasExpenses ==> r == NotAnalysed(InsufficientData)
    ensures hasExpenses && !NoZeroLimitOverrun(rows, limits) ==> r == PlanServerError
    ensures r.Plan? ==>
              var a := AnalyzeExpenses(hasExpenses, rows, limits);
              && a.Analysed?
              && r.target == EffectiveTarget(MonthlyTotal(rows), requested)
              && r.percentOfExpenses == PercentOf(r.estimatedSavings, MonthlyTotal(rows))
              && (var rescaled := Rescale(a.suggestions, r.target, TargetRequested(requested));
                  && rescaled.Some?
                  && r.estimatedSavings == MinR(TotalSavings(rescaled.value), r.target)
                  && r.spendingPlan == SpendingPlan(SortDesc(rescaled.value, SavingsKey), r.target))
  {
    PlanCuts(AnalyzeExpenses(hasExpenses, rows, limits), requested)
  }

  lemma PlanBudgetsBalance(adjusted: seq<Suggestion>, sorted: seq<Suggestion>, plan: seq<PlanItem>, target: real)
    requires forall s :: s in adjusted ==> Consistent(s)
    requires multiset(sorted) == multiset(adjusted)
    requires plan == SpendingPlan(sorted, target)
    ensures forall p :: p in plan ==> p.newBudget == p.currentSpending - p.monthlySavings
  {
    forall p | p in plan
      ensures p.newBudget == p.currentSpending - p.monthlySavings
    {
      var k :| 0 <= k < |plan| && plan[k] == p;
      var x := sorted[k];
      assert x in multiset(sorted);
      assert Consistent(x);
      assert p == ToPlanItem(x);
    }
  }

  lemma RescaledConsistent(sugs: seq<Suggestion>, target: real, requested: bool, adjusted: seq<Suggestion>)
    requires forall s :: s in sugs ==> Consistent(s)
    requires Rescale(sugs, target, requested) == Some(adjusted)
    ensures forall s :: s in adjusted ==> Consistent(s)
  {
    forall s | s in adjusted
      ensures Consistent(s)
    {
      var i :| 0 <= i < |adjusted| && adjusted[i] == s;
      if TotalSavings(sugs) == target {
        assert s in sugs;
      }
    }
  }

  /** The spending plan saves at least the estimated savings: either it stopped
      early, having reached the target, or it holds every suggestion. */
  lemma PlanCoversEstimate(sorted: seq<Suggestion>, plan: seq<PlanItem>, target: real)
    requires plan == SpendingPlan(sorted, target)
    ensures PlanSavings(plan) >= MinR(TotalSavings(sorted), target)
  {
    PlanPrefixCovers(sorted, plan, target);
  }

  lemma PlanPrefixCovers(sorted: seq<Suggestion>, plan: seq<PlanItem>, target: real)
    requires |plan| <= |sorted|
    requires forall k :: 0 <= k < |plan| ==> plan[k] == ToPlanItem(sorted[k])
    requires |plan| < |sorted| ==> Running(sorted, |plan|) >= target
    ensures PlanSavings(plan) >= MinR(TotalSavings(sorted), target)
  {
    var n := |plan|;
    PlanSavingsIsPrefix(sorted, plan, n);
    assert plan[..n] == plan;
    if n == |sorted| {
      assert sorted[..n] == sorted;
    }
  }

  // ---------------------------------------------------------------------------
  // Quick wins
  // ---------------------------------------------------------------------------

  /** A recent expense, as the last-month query returns it. */
  datatype Expense = Expense(description: string, amount: real, date: string, category: Option<string>)

  datatype QuickWin =
    | FrequentSmall(description: string, frequency: nat, totalAmount: real)
    | Subscription(description: string, amount: real)
    | HighExpense(description: string, category: Option<string>, amount: real, date: string)

  /** The sort key: the numeric `potential_monthly_savings`, and 0 for a win
      that has none (a high expense only carries a textual estimate). */
  function PotentialMonthlySavings(w: QuickWin): (r: real)
    ensures w.FrequentSmall? ==> r * 4.0 == w.totalAmount * 3.0
    ensures w.Subscription? ==> r == w.amount
    ensures w.HighExpense? ==> r == 0.0
  {
    match w
    case FrequentSmall(_, _, total) => total * 0.75
    case Subscription(_, amount) => amount
    case HighExpense(_, _, _, _) => 0.0
  }

  function CountOf(es: seq<Expense>, d: string): nat
  {
    if |es| == 0 then 0 else CountOf(es[..|es| - 1], d) + (if es[|es| - 1].description == d then 1 else 0)
  }

  function TotalOf(es: seq<Expense>, d: string): real
  {
    if |es| == 0 then 0.0 else TotalOf(es[..|es| - 1], d) + (if es[|es| - 1].description == d then es[|es| - 1].amount else 0.0)
  }

  lemma {:induction false} CountPositive(es: seq<Expense>, d: string)
    ensures CountOf(es, d) > 0 <==> exists e :: e in es && e.description == d
  {
    if |es| > 0 {
      CountPositive(es[..|es| - 1], d);
      assert es == es[..|es| - 1] + [es[|es| - 1]];
    }
  }

  /** Distinct descriptions in order of first occurrence. */
  function Descriptions(es: seq<Expense>): (ds: seq<string>)
    ensures forall d :: d in ds <==> exists e :: e in es && e.description == d
    ensures forall i, j :: 0 <= i < j < |ds| ==> ds[i] != ds[j]
  {
    if |es| == 0 then []
    else
      var ds := Descriptions(es[..|es| - 1]);
      assert es == es[..|es| - 1] + [es[|es| - 1]];
      if es[|es| - 1].description in ds then ds else ds + [es[|es| - 1].description]
  }

  function Small(es: seq<Expense>): seq<Expense>
  {
    Filter(es, (e: Expense) => e.amount < 50.0)
  }

  /** A description as its own sort key. */
  function Text(d: string): string { d }

  /** One win per description of `ds` repeated at least three times, in the
      order of `ds`. */
  function WinsFor(ds: seq<string>, small: seq<Expense>): (ws: seq<QuickWin>)
    ensures forall w :: w in ws <==>
              exists d :: d in ds && CountOf(small, d) >= 3 && w == FrequentSmall(d, CountOf(small, d), TotalOf(small, d))
    ensures SortedByText(ds, Text) ==>
              forall i, j :: 0 <= i < j < |ws| ==> LexLe(ws[i].description, ws[j].description)
  {
    if |ds| == 0 then []
    else
      var rest := WinsFor(ds[1..], small);
      assert forall d :: d in ds <==> d == ds[0] || d in ds[1..];
      var d := ds[0];
      var w0 := FrequentSmall(d, CountOf(small, d), TotalOf(small, d));
      var ws := if CountOf(small, d) >= 3 then [w0] + rest else rest;
      assert forall w :: w in ws <==> (CountOf(small, d) >= 3 && w == w0) || w in rest;
      WinsAfterHead(ds, small, rest);
      ws
  }

  /** The wins drawn from the tail of a sorted `ds` have descriptions no
      smaller than its head. */
  lemma WinsAfterHead(ds: seq<string>, small: seq<Expense>, rest: seq<QuickWin>)
    requires |ds| > 0
    requires forall w :: w in rest ==>
               exists d :: d in ds[1..] && CountOf(small, d) >= 3 && w == FrequentSmall(d, CountOf(small, d), TotalOf(small, d))
    ensures SortedByText(ds, Text) ==> SortedByText(ds[1..], Text)
    ensures SortedByText(ds, Text) ==> forall w :: w in rest ==> LexLe(ds[0], w.description)
  {
    if SortedByText(ds, Text) {
      HeadBelowRest(ds, small, rest);
    }
  }

  lemma HeadBelowRest(ds: seq<string>, small: seq<Expense>, rest: seq<QuickWin>)
    requires |ds| > 0 && SortedByText(ds, Text)
    requires forall w :: w in rest ==>
               exists d :: d in ds[1..] && CountOf(small, d) >= 3 && w == FrequentSmall(d, CountOf(small, d), TotalOf(small, d))
    ensures forall w :: w in rest ==> LexLe(ds[0], w.description)
  {
    forall w | w in rest
      ensures LexLe(ds[0], w.description)
    {
      var d :| d in ds[1..] && CountOf(small, d) >= 3 && w == FrequentSmall(d, CountOf(small, d), TotalOf(small, d));
      var k :| 0 <= k < |ds[1..]| && ds[1..][k] == d;
      assert ds[k + 1] == d;
    }
  }

  /** Small (below 50) expenses repeated at least three times under one
      description, one win per description, in ascending description order:
      `groupby` sorts its keys. */
  function FrequentSmallWins(es: seq<Expense>): (ws: seq<QuickWin>)
    ensures forall i, j :: 0 <= i < j < |ws| ==> LexLe(ws[i].description, ws[j].description)
  {
    WinsFor(SortByText(Descriptions(Small(es)), Text), Small(es))
  }

  /** One win per description occurring at least three times among the
      small expenses, and no other. */
  lemma FrequentSmallWinsExact(es: seq<Expense>, w: QuickWin)
    ensures w in FrequentSmallWins(es) <==>
              exists d :: && CountOf(Small(es), d) >= 3
                          && w == FrequentSmall(d, CountOf(Small(es), d), TotalOf(Small(es), d))
  {
    var small := Small(es);
    var ds := SortByText(Descriptions(small), Text);
    if exists d :: CountOf(small, d) >= 3 && w == FrequentSmall(d, CountOf(small, d), TotalOf(small, d)) {
      var d :| CountOf(small, d) >= 3 && w == FrequentSmall(d, CountOf(small, d), TotalOf(small, d));
      CountPositive(small, d);
      assert d in Descriptions(small);
      assert d in multiset(ds);
    }
    forall d | d in ds
      ensures d in Descriptions(small)
    {
      assert d in multiset(Descriptions(small));
    }
  }

  const SubscriptionKeywords: seq<string> :=
    ["assinatura", "mensalidade", "premium", "plus", "pro", "netflix", "spotify", "disney",
     "amazon", "hbo", "deezer", "youtube", "apple", "microsoft", "adobe", "subscription"]

  predicate LooksLikeSubscription(e: Expense)
  {
    AnyContained(Lower(e.description), SubscriptionKeywords)
  }

  /** The subscription win `iterrows` appends for one expense. */
  function SubscriptionWin(e: Expense): QuickWin
  {
    Subscription(e.description, e.amount)
  }

  /** One subscription win per expense whose lowered description contains a
      subscription keyword, in row order, repeats included. */
  function SubscriptionWins(es: seq<Expense>): (ws: seq<QuickWin>)
    ensures |ws| == |Filter(es, LooksLikeSubscription)|
    ensures forall i :: 0 <= i < |ws| ==> ws[i] == SubscriptionWin(Filter(es, LooksLikeSubscription)[i])
    ensures forall w :: w in ws <==> exists e :: e in es && LooksLikeSubscription(e) && w == Subscription(e.description, e.amount)
    decreases |es|
  {
    if |es| == 0 then []
    else
      var rest := SubscriptionWins(es[1..]);
      var head := if LooksLikeSubscription(es[0]) then [SubscriptionWin(es[0])] else [];
      assert Filter(es, LooksLikeSubscription)
             == (if LooksLikeSubscription(es[0]) then [es[0]] else []) + Filter(es[1..], LooksLikeSubscription);
      assert forall e :: e in es <==> e == es[0] || e in es[1..];
      head + rest
  }

  /** An expense above the 90th percentile `threshold`. */
  predicate Above(threshold: real, e: Expense)
  {
    e.amount > threshold
  }

  /** The high-expense win `iterrows` appends for one expense. */
  function HighExpenseWin(e: Expense): QuickWin
  {
    HighExpense(e.description, e.category, e.amount, e.date)
  }

  /** One high-expense win per expense above the threshold, in row order,
      repeats included. */
  function AboveThreshold(es: seq<Expense>, threshold: real): (ws: seq<QuickWin>)
    ensures |ws| == |Filter(es, e => Above(threshold, e))|
    ensures forall i :: 0 <= i < |ws| ==> ws[i] == HighExpenseWin(Filter(es, e => Above(threshold, e))[i])
    ensures forall w :: w in ws <==>
              exists e :: e in es && e.amount > threshold && w == HighExpense(e.description, e.category, e.amount, e.date)
    decreases |es|
  {
    if |es| == 0 then []
    else
      var rest := AboveThreshold(es[1..], threshold);
      var head := if Above(threshold, es[0]) then [HighExpenseWin(es[0])] else [];
      assert Filter(es, e => Above(threshold, e))
             == (if Above(threshold, es[0]) then [es[0]] else []) + Filter(es[1..], e => Above(threshold, e));
      assert forall e :: e in es <==> e == es[0] || e in es[1..];
      head + rest
  }

  /** Expenses above the 90th percentile `threshold`, considered only when
      there are at least ten recent expenses: then one win per such expense,
      in row order. */
  function HighExpenseWins(es: seq<Expense>, threshold: real): (ws: seq<QuickWin>)
    ensures |es| < 10 ==> ws == []
    ensures |es| >= 10 ==> |ws| == |Filter(es, e => Above(threshold, e))|
    ensures |es| >= 10 ==> forall i :: 0 <= i < |ws| ==> ws[i] == HighExpenseWin(Filter(es, e => Above(threshold, e))[i])
    ensures |es| >= 10 ==> forall w :: w in ws <==>
              exists e :: e in es && e.amount > threshold && w == HighExpense(e.description, e.category, e.amount, e.date)
  {
    if |es| < 10 then [] else AboveThreshold(es, threshold)
  }

  function Candidates(es: seq<Expense>, threshold: real): seq<QuickWin>
  {
    FrequentSmallWins(es) + SubscriptionWins(es) + HighExpenseWins(es, threshold)
  }

  datatype QuickWinsResult = NoRecentExpenses | QuickWins(wins: seq<QuickWin>)

  /** `get_quick_wins`: the candidates ranked by numeric potential savings and
      truncated to ten; every candidate left out ranks no higher than the last
      one kept. */
  function SelectQuickWins(es: seq<Expense>, threshold: real): (r: QuickWinsResult)
    ensures r.NoRecentExpenses? <==> |es| == 0
    ensures r.QuickWins? ==>
              var cands := Candidates(es, threshold);
              && |r.wins| == (if |cands| <= 10 then |cands| else 10)
              && SortedDesc(r.wins, PotentialMonthlySavings)
              && multiset(r.wins) <= multiset(cands)
              && (forall c :: c in multiset(cands) - multiset(r.wins) ==>
                    PotentialMonthlySavings(c) <= PotentialMonthlySavings(r.wins[|r.wins| - 1]))
  {
    if |es| == 0 then NoRecentExpenses
    else
      var cands := Candidates(es, threshold);
      var ranked := SortDesc(cands, PotentialMonthlySavings);
      TopOfSorted(ranked, 10, PotentialMonthlySavings);
      QuickWins(Take(ranked, 10))
  }

  lemma TopOfSorted<T>(r: seq<T>, n: nat, key: T -> real)
    requires n > 0 && SortedDesc(r, key)
    ensures SortedDesc(Take(r, n), key)
    ensures multiset(Take(r, n)) <= multiset(r)
    ensures forall c :: c in multiset(r) - multiset(Take(r, n)) ==> key(c) <= key(Take(r, n)[|Take(r, n)| - 1])
  {
    var t := Take(r, n);
    var rest := r[|t|..];
    assert r == t + rest;
    assert multiset(r) == multiset(t) + multiset(rest);
    forall c | c in multiset(r) - multiset(t)
      ensures key(c) <= key(t[|t| - 1])
    {
      RestRanksBelow(r, |t|, key, c);
    }
  }

  /** In a descending sequence, an element after position `k` ranks no
      higher than the one just before it. */
  lemma RestRanksBelow<T>(r: seq<T>, k: nat, key: T -> real, c: T)
    requires 0 < k <= |r| && SortedDesc(r, key) && c in r[k..]
    ensures key(c) <= key(r[k - 1])
  {
    var j :| 0 <= j < |r[k..]| && r[k..][j] == c;
    assert r[k + j] == c;
  }

  /** As written, the frame is built from database rows without column names,
      so its labels are positions and the `'description' in df.columns` and
      `'amount' in df.columns` guards never hold: no candidate is produced. */
  function SelectQuickWinsAsWritten(es: seq<Expense>, threshold: real): (r: QuickWinsResult)
    ensures r.NoRecentExpenses? <==> |es| == 0
    ensures r.QuickWins? ==> r.wins == []
  {
    if |es| == 0 then NoRecentExpenses else QuickWins([])
  }

  /** Three small coffees: the intended selector reports one frequent-small
      win worth 75% of their total, the code as written reports none. */
  lemma QuickWinsColumnsCounterexample()
    ensures var es := Coffees();
            && SelectQuickWinsAsWritten(es, 100.0) == QuickWins([])
            && SelectQuickWins(es, 100.0) == QuickWins([FrequentSmall("cafe", 3, 24.0)])
            && PotentialMonthlySavings(FrequentSmall("cafe", 3, 24.0)) == 18.0
  {
    CoffeesRanked();
    assert Take([FrequentSmall("cafe", 3, 24.0)], 10) == [FrequentSmall("cafe", 3, 24.0)];
  }

  lemma CoffeesRanked()
    ensures SortDesc(Candidates(Coffees(), 100.0), PotentialMonthlySavings) == [FrequentSmall("cafe", 3, 24.0)]
  {
    CoffeesCandidates();
    var cands := Candidates(Coffees(), 100.0);
    var ranked := SortDesc(cands, PotentialMonthlySavings);
    assert |ranked| == 1;
    assert ranked[0] in multiset(cands);
  }

  lemma CoffeesCandidates()
    ensures Candidates(Coffees(), 100.0) == [FrequentSmall("cafe", 3, 24.0)]
  {
    CoffeesFrequent();
    CoffeesNoSubscription();
  }

  function Coffees(): seq<Expense>
  {
    [Expense("cafe", 8.0, "2025-01-02", None),
     Expense("cafe", 8.0, "2025-01-03", None),
     Expense("cafe", 8.0, "2025-01-04", None)]
  }

  lemma CoffeesFrequent()
    ensures FrequentSmallWins(Coffees()) == [FrequentSmall("cafe", 3, 24.0)]
  {
    var es := Coffees();
    var e1, e2 := es[0], es[1];
    assert Small(es) == es;
    assert es[..2] == [e1, e2];
    assert [e1, e2][..1] == [e1];
    assert [e1][..0] == [];
    assert Descriptions([e1]) == ["cafe"];
    assert Descriptions([e1, e2]) == ["cafe"];
    assert Descriptions(es) == ["cafe"];
    var sorted := SortByText(["cafe"], Text);
    assert |sorted| == 1 && sorted[0] in multiset(["cafe"]);
    assert sorted == ["cafe"];
    assert CountOf([e1], "cafe") == 1 && TotalOf([e1], "cafe") == 8.0;
    assert CountOf([e1, e2], "cafe") == 2 && TotalOf([e1, e2], "cafe") == 16.0;
    assert CountOf(es, "cafe") == 3 && TotalOf(es, "cafe") == 24.0;
  }

  lemma CoffeesNoSubscription()
    ensures SubscriptionWins(Coffees()) == []
  {
    var es := Coffees();
    assert Lower("cafe") == "cafe";
    forall k | 0 <= k < |SubscriptionKeywords|
      ensures !Contains("cafe", SubscriptionKeywords[k])
    {
      var kw := SubscriptionKeywords[k];
      if |kw| <= 4 {
        assert kw == "plus" || kw == "pro" || kw == "hbo";
        Lacks("cafe", kw, 0);
      }
    }
    assert forall e :: e in es ==> e.description == "cafe" && !LooksLikeSubscription(e);
    if |SubscriptionWins(es)| > 0 {
      assert SubscriptionWins(es)[0] in SubscriptionWins(es);
    }
  }
}

=== FILE: chat_view.dfy ===
/** The state logic of frontend/src/components/Chatbot.js: the guard on the
    typed message, the numbering of the user's message and of the reply (or
    the error shown instead), the send button's state, and the splitting of
    a reply into lines. The 500 ms delay before a reply shows and the
    scrolling are not modelled. */
module ChatView {
  import opened Common

  // ---------------------------------------------------------------------------
  // Blank input
  // ---------------------------------------------------------------------------

  /** The characters `String.prototype.trim` removes: the WhiteSpace and
      LineTerminator characters of ECMAScript, the Unicode space separators
      among them. */
  predicate IsJsWhitespace(c: char)
  {
    c == ' ' || c == '\t' || c == '\n' || c == '\r' || c == '\U{000B}' || c == '\U{000C}'
    || c == '\U{00A0}' || c == '\U{1680}' || ('\U{2000}' <= c <= '\U{200A}')
    || c == '\U{2028}' || c == '\U{2029}' || c == '\U{202F}' || c == '\U{205F}'
    || c == '\U{3000}' || c == '\U{FEFF}'
  }

  /** The text without its leading white space. */
  function TrimStart(s: string): (r: string)
    ensures |r| <= |s| && r == s[|s| - |r|..]
    ensures |r| > 0 ==> !IsJsWhitespace(r[0])
    ensures forall i :: 0 <= i < |s| - |r| ==> IsJsWhitespace(s[i])
    decreases |s|
  {
    if |s| > 0 && IsJsWhitespace(s[0]) then
      var r := TrimStart(s[1..]);
      assert forall i :: 1 <= i < |s| ==> s[i] == s[1..][i - 1];
      r
    else s
  }

  /** `!text.trim()`: nothing but white space. */
  predicate Blank(s: string) { TrimStart(s) == "" }

  lemma BlankMeansAllWhitespace(s: string)
    ensures Blank(s) <==> forall i :: 0 <= i < |s| ==> IsJsWhitespace(s[i])
  {
    var r := TrimStart(s);
    if |r| > 0 {
      assert r[0] == s[|s| - |r|];
    }
  }

  // ---------------------------------------------------------------------------
  // Messages
  // ---------------------------------------------------------------------------

  datatype Sender = User | Bot

  datatype Message = Message(id: nat, text: string, sender: Sender, error: bool)

  datatype Chat = Chat(messages: seq<Message>, input: string, loading: bool)

  const Greeting := "Olá! Eu sou o assistente financeiro. Como posso te ajudar hoje?"
  const ErrorText := "Desculpe, tive um problema ao processar sua mensagem. Por favor, tente novamente."

  const Initial := Chat([Message(1, Greeting, Bot, false)], "", false)

  /** Each message's id is its position counted from 1. */
  predicate IdsSequential(ms: seq<Message>)
  {
    forall i :: 0 <= i < |ms| ==> ms[i].id == i + 1
  }

  /** The send button is disabled while a reply is awaited or when the
      input is blank; the input itself is disabled while awaiting. */
  predicate SendDisabled(c: Chat) { c.loading || Blank(c.input) }

  /** `sendMessage` up to the request: nothing for a blank input; otherwise
      the typed text is appended as the user's message numbered after the
      others, the input is cleared and the reply is awaited. */
  function Send(c: Chat): (r: Option<Chat>)
    ensures r.None? <==> Blank(c.input)
    ensures r.Some? ==>
              && r.value.messages == c.messages + [Message(|c.messages| + 1, c.input, User, false)]
              && r.value.input == "" && r.value.loading
  {
    if Blank(c.input) then None
    else Some(Chat(c.messages + [Message(|c.messages| + 1, c.input, User, false)], "", true))
  }

  /** The request's outcome for a send made with `sentWith` messages on
      screen: the reply's text, or the error message flagged as an error,
      numbered two after the count at sending; waiting ends. */
  function ReplyArrived(c: Chat, sentWith: nat, reply: Option<string>): (r: Chat)
    ensures r.input == c.input && !r.loading
    ensures |r.messages| == |c.messages| + 1 && r.messages[..|c.messages|] == c.messages
    ensures var m := r.messages[|c.messages|];
            m.id == sentWith + 2 && m.sender == Bot
            && (m.error <==> reply.None?)
            && m.text == (if reply.Some? then reply.value else ErrorText)
  {
    var m := if reply.Some? then Message(sentWith + 2, reply.value, Bot, false)
             else Message(sentWith + 2, ErrorText, Bot, true);
    assert (c.messages + [m])[..|c.messages|] == c.messages;
    c.(messages := c.messages + [m], loading := false)
  }

  /** A full exchange keeps the ids sequential: the user's message and the
      reply take the next two numbers. */
  lemma ExchangeKeepsIds(c: Chat, reply: Option<string>)
    requires IdsSequential(c.messages) && !Blank(c.input)
    ensures var sent := Send(c).value;
            var after := ReplyArrived(sent, |c.messages|, reply);
            IdsSequential(after.messages) && |after.messages| == |c.messages| + 2
            && after.messages[|c.messages|].text == c.input
  {
    var sent := Send(c).value;
    var after := ReplyArrived(sent, |c.messages|, reply);
    assert after.messages[..|sent.messages|] == sent.messages;
    forall i | 0 <= i < |after.messages|
      ensures after.messages[i].id == i + 1
    {
      if i < |c.messages| {
        assert after.messages[i] == sent.messages[i] == c.messages[i];
      } else if i == |c.messages| {
        assert after.messages[i] == sent.messages[i];
      }
    }
  }

  /** While a reply is awaited nothing more can be sent. */
  lemma NoSendWhileWaiting(c: Chat)
    requires Send(c).Some?
    ensures SendDisabled(Send(c).value)
  {
  }

  // ---------------------------------------------------------------------------
  // Line splitting
  // ---------------------------------------------------------------------------

  /** `text.split('\n')`. */
  function SplitLines(s: string): (lines: seq<string>)
    ensures |lines| >= 1
    ensures forall k :: 0 <= k < |lines| ==> '\n' !in lines[k]
    decreases |s|
  {
    if |s| == 0 then [""]
    else
      var rest := SplitLines(s[1..]);
      if s[0] == '\n' then [""] + rest
      else [[s[0]] + rest[0]] + rest[1..]
  }

  /** The lines joined back with '\n' between them. */
  function JoinLines(lines: seq<string>): string
    requires |lines| >= 1
    decreases |lines|
  {
    if |lines| == 1 then lines[0] else lines[0] + "\n" + JoinLines(lines[1..])
  }

  function CountNewlines(s: string): nat
    decreases |s|
  {
    if |s| == 0 then 0 else (if s[0] == '\n' then 1 else 0) + CountNewlines(s[1..])
  }

  /** Splitting loses nothing: joining the lines gives the text back, and
      there is one line more than there are line feeds. */
  lemma {:induction false} SplitJoinRoundTrip(s: string)
    ensures JoinLines(SplitLines(s)) == s
    ensures |SplitLines(s)| == CountNewlines(s) + 1
    decreases |s|
  {
    if |s| > 0 {
      SplitJoinRoundTrip(s[1..]);
      var rest := SplitLines(s[1..]);
      if s[0] == '\n' {
        assert s == "\n" + s[1..];
      } else {
        JoinHead(s[0], rest);
        assert s == [s[0]] + s[1..];
      }
    }
  }

  lemma JoinHead(c: char, lines: seq<string>)
    requires |lines| >= 1
    ensures JoinLines([[c] + lines[0]] + lines[1..]) == [c] + JoinLines(lines)
  {
    if |lines| > 1 {
      var tail := JoinLines(lines[1..]);
      JoinCons([c] + lines[0], lines[1..]);
      JoinCons(lines[0], lines[1..]);
      assert lines == [lines[0]] + lines[1..];
      ConcatAssoc([c], lines[0], "\n", tail);
    }
  }

  /** One step of joining: the head, a line feed, then the rest joined. */
  lemma JoinCons(head: string, rest: seq<string>)
    requires |rest| >= 1
    ensures JoinLines([head] + rest) == head + "\n" + JoinLines(rest)
  {
    assert ([head] + rest)[1..] == rest;
  }

  lemma ConcatAssoc(a: string, b: string, c: string, d: string)
    ensures (a + b) + c + d == a + (b + c + d)
  {
  }

  /** A rendered line and whether a `<br />` follows it. */
  datatype RenderedLine = RenderedLine(text: string, breakAfter: bool)

  /** `formatMessageText`: every line but the last is followed by a break. */
  function FormatMessageText(text: string): (r: seq<RenderedLine>)
    ensures |r| == |SplitLines(text)|
    ensures forall i :: 0 <= i < |r| ==> r[i].text == SplitLines(text)[i] && (r[i].breakAfter <==> i != |r| - 1)
  {
    var lines := SplitLines(text);
    seq(|lines|, i requires 0 <= i < |lines| => RenderedLine(lines[i], i != |lines| - 1))
  }

  function CountBreaks(r: seq<RenderedLine>): nat
    decreases |r|
  {
    if |r| == 0 then 0 else (if r[0].breakAfter then 1 else 0) + CountBreaks(r[1..])
  }

  /** A text with n line feeds renders n breaks: one fewer than its lines. */
  lemma BreaksMatchNewlines(text: string)
    ensures CountBreaks(FormatMessageText(text)) == CountNewlines(text)
  {
    SplitJoinRoundTrip(text);
    BreaksAllButLast(FormatMessageText(text));
  }

  lemma {:induction false} BreaksAllButLast(r: seq<RenderedLine>)
    requires |r| >= 1
    requires forall i :: 0 <= i < |r| ==> (r[i].breakAfter <==> i != |r| - 1)
    ensures CountBreaks(r) == |r| - 1
    decreases |r|
  {
    if |r| > 1 {
      BreaksAllButLast(r[1..]);
    }
  }
}

=== FILE: chatbot.dfy ===
/** The `/api/chatbot` endpoint of backend/app.py: the lowercased message
    picks the first branch whose keywords it contains, the branch computes its
    answer from the store, and the exchange is logged. The clock is a
    parameter: `month` is the current YYYY-MM, `today` the current date and
    `now` the current timestamp. */
module Chatbot {
  import opened Common
  import opened Db
  import App

  /** The keyword groups of the branches, in the order they are tried. */
  const ChatGroups: seq<seq<string>> := [
    ["adicionar despesa", "registrar despesa"],
    ["adicionar receita", "registrar receita"],
    ["relatório", "resumo"],
    ["sugestões", "dicas"],
    ["meta", "economia"],
    ["alerta", "limite"],
    ["investimento", "aplicar"],
    ["ajuda", "help"]
  ]

  /** The branch a message takes; `Fallback` is the final `else`. */
  datatype Branch =
    | ExpenseHowTo | IncomeHowTo | SummaryBranch | AdviceBranch | GoalBranch
    | AlertsBranch | InvestmentsBranch | HelpBranch | Fallback

  /** The position of a branch's keyword group in `ChatGroups`. */
  function GroupOf(b: Branch): (i: nat)
    requires b != Fallback
    ensures i < |ChatGroups|
  {
    match b
    case ExpenseHowTo => 0
    case IncomeHowTo => 1
    case SummaryBranch => 2
    case AdviceBranch => 3
    case GoalBranch => 4
    case AlertsBranch => 5
    case InvestmentsBranch => 6
    case HelpBranch => 7
  }

  function BranchAt(i: nat): (b: Branch)
    requires i < |ChatGroups|
    ensures b != Fallback && GroupOf(b) == i
  {
    [ExpenseHowTo, IncomeHowTo, SummaryBranch, AdviceBranch, GoalBranch,
     AlertsBranch, InvestmentsBranch, HelpBranch][i]
  }

  /** The `if`/`elif` chain over the lowercased message: the branch of the
      first group with a keyword in the text, and the fallback only when no
      group has one. */
  function Dispatch(message: string): (b: Branch)
    ensures b == Fallback <==> forall j :: 0 <= j < |ChatGroups| ==> !AnyContained(Lower(message), ChatGroups[j])
    ensures b != Fallback ==> AnyContained(Lower(message), ChatGroups[GroupOf(b)])
    ensures b != Fallback ==> forall j :: 0 <= j < GroupOf(b) ==> !AnyContained(Lower(message), ChatGroups[j])
  {
    var g := FirstGroup(Lower(message), ChatGroups);
    if g.None? then Fallback else BranchAt(g.value)
  }

  /** A message whose keywords belong to several groups takes the earliest
      group's branch. */
  lemma EarliestGroupWins(message: string, j: nat)
    requires j < |ChatGroups| && AnyContained(Lower(message), ChatGroups[j])
    ensures Dispatch(message) != Fallback && GroupOf(Dispatch(message)) <= j
  {
  }

  /** A message with a summary keyword and neither how-to phrase is
      answered by the summary branch, whatever goal, alert or other later
      keywords it also has. */
  lemma SummaryBeforeGoal(message: string)
    requires AnyContained(Lower(message), ChatGroups[2])
    requires !AnyContained(Lower(message), ChatGroups[0]) && !AnyContained(Lower(message), ChatGroups[1])
    ensures Dispatch(message) == SummaryBranch
  {
    DispatchAt(message, 2);
  }

  /** "Resumo da META" names both the summary and the goal branch; the
      summary branch answers it. */
  lemma SummaryBeforeGoalExample()
    ensures Dispatch("Resumo da META") == SummaryBranch
  {
    LowerExample();
    SummaryGroupMatches();
    SummaryBeforeGoal("Resumo da META");
  }

  lemma SummaryGroupMatches()
    ensures AnyContained("resumo da meta", ChatGroups[2])
    ensures !AnyContained("resumo da meta", ChatGroups[0])
    ensures !AnyContained("resumo da meta", ChatGroups[1])
  {
    NotExpenseHowTo();
    NotIncomeHowTo();
    var m := "resumo da meta";
    assert OccursAt(m, "resumo", 0);
    assert ChatGroups[2][1] == "resumo";
    assert Contains(m, ChatGroups[2][1]);
  }

  lemma NotExpenseHowTo()
    ensures !AnyContained("resumo da meta", ChatGroups[0])
  {
    var m := "resumo da meta";
    Lacks(m, "adicionar despesa", 2);
    Lacks(m, "registrar despesa", 2);
    NoneContained(m, ["adicionar despesa", "registrar despesa"]);
  }

  lemma NotIncomeHowTo()
    ensures !AnyContained("resumo da meta", ChatGroups[1])
  {
    var m := "resumo da meta";
    Lacks(m, "adicionar receita", 2);
    Lacks(m, "registrar receita", 2);
    NoneContained(m, ["adicionar receita", "registrar receita"]);
  }

  /** A text containing none of the words of a group does not match it. */
  lemma NoneContained(text: string, words: seq<string>)
    requires forall k :: 0 <= k < |words| ==> !Contains(text, words[k])
    ensures !AnyContained(text, words)
  {
  }

  /** The first group with a keyword in the lowered message decides the branch. */
  lemma DispatchAt(message: string, j: nat)
    requires j < |ChatGroups| && AnyContained(Lower(message), ChatGroups[j])
    requires forall i :: 0 <= i < j ==> !AnyContained(Lower(message), ChatGroups[i])
    ensures Dispatch(message) == BranchAt(j)
  {
  }

  lemma LowerExample()
    ensures Lower("Resumo da META") == "resumo da meta"
  {
  }

  /** Lowering an already lowered letter leaves it alone. */
  lemma LowerCharIdempotent(c: char)
    ensures LowerChar(LowerChar(c)) == LowerChar(c)
  {
  }

  lemma LowerIdempotent(s: string)
    ensures Lower(Lower(s)) == Lower(s)
  {
    forall i | 0 <= i < |s|
      ensures Lower(Lower(s))[i] == Lower(s)[i]
    {
      LowerCharIdempotent(s[i]);
    }
  }

  /** Dispatch ignores letter case: the logged, lowercased message would take
      the same branch again. */
  lemma DispatchIgnoresCase(message: string)
    ensures Dispatch(Lower(message)) == Dispatch(message)
  {
    LowerIdempotent(message);
  }

  /** The investments offered: the first three of the affordable ones. */
  function Offered(s: Store, balance: real): (r: seq<Investment>)
    ensures |r| <= 3
    ensures forall x :: x in r ==> x in s.investments && x.minInvestment <= balance
    ensures |r| <= |InvestmentSuggestions(s.investments, balance)|
    ensures r == InvestmentSuggestions(s.investments, balance)[..|r|]
    ensures |r| < 3 ==> r == InvestmentSuggestions(s.investments, balance)
  {
    var all := InvestmentSuggestions(s.investments, balance);
    var r := Take(all, 3);
    assert forall x :: x in r ==> x in all;
    r
  }

  /** The investments branch's reply for a balance: none to offer exactly
      when no investment fits it, otherwise the first three that fit. */
  function InvestmentsAnswer(s: Store, balance: real): (reply: ChatReply)
    ensures reply.NoInvestmentsReply? || reply.InvestmentsReply?
    ensures reply == NoInvestmentsReply <==> InvestmentSuggestions(s.investments, balance) == []
    ensures reply.InvestmentsReply? ==> reply.balance == balance && reply.offered == Offered(s, balance)
  {
    if InvestmentSuggestions(s.investments, balance) == [] then NoInvestmentsReply
    else InvestmentsReply(balance, Offered(s, balance))
  }

  /** What a branch other than the alerts branch answers; it reads the store
      and changes nothing. */
  function Answer(s: Store, b: Branch): (reply: ChatReply)
    requires b != AlertsBranch
    ensures b == ExpenseHowTo <==> reply == HowToAddExpense
    ensures b == IncomeHowTo <==> reply == HowToAddIncome
    ensures b == HelpBranch <==> reply == HelpReply
    ensures b == Fallback <==> reply == NotUnderstood
    ensures b == SummaryBranch <==>
              reply == SummaryReply(TotalIncome(s.transactions), TotalExpense(s.transactions),
                                    TotalIncome(s.transactions) - TotalExpense(s.transactions))
    ensures b == AdviceBranch ==>
              var income, expense := TotalIncome(s.transactions), TotalExpense(s.transactions);
              reply == AnalysisReply(AnalyzeSituation(income, expense, income - expense))
    ensures b == GoalBranch ==>
              reply.GoalReply? && reply.income == TotalIncome(s.transactions) && reply.goal * 5.0 == reply.income
    ensures b == InvestmentsBranch ==>
              var balance := TotalIncome(s.transactions) - TotalExpense(s.transactions);
              (reply == NoInvestmentsReply <==> InvestmentSuggestions(s.investments, balance) == [])
              && (reply.InvestmentsReply? ==> reply.balance == balance && reply.offered == Offered(s, balance))
  {
    var income, expense := TotalIncome(s.transactions), TotalExpense(s.transactions);
    match b
    case ExpenseHowTo => HowToAddExpense
    case IncomeHowTo => HowToAddIncome
    case SummaryBranch => SummaryReply(income, expense, income - expense)
    case AdviceBranch => AnalysisReply(AnalyzeSituation(income, expense, income - expense))
    case GoalBranch => GoalReply(income, SavingsGoalFor(income))
    case InvestmentsBranch => InvestmentsAnswer(s, income - expense)
    case HelpBranch => HelpReply
    case Fallback => NotUnderstood
  }

  function ChatLogIds(log: seq<ChatLogEntry>): seq<nat> { seq(|log|, i requires 0 <= i < |log| => log[i].id) }

  /** Appends the exchange to the chat log under a fresh identifier. */
  function LogExchange(s: Store, message: string, reply: ChatReply, now: string): (t: Store)
    ensures t == s.(chatLog := t.chatLog)
    ensures |t.chatLog| == |s.chatLog| + 1 && t.chatLog[..|s.chatLog|] == s.chatLog
    ensures var e := t.chatLog[|s.chatLog|];
            e.userMessage == message && e.reply == reply && e.timestamp == now
            && forall i :: 0 <= i < |s.chatLog| ==> s.chatLog[i].id < e.id
  {
    var ids := ChatLogIds(s.chatLog);
    assert forall i :: 0 <= i < |s.chatLog| ==> s.chatLog[i].id == ids[i];
    var e := ChatLogEntry(FreshId(ids), message, reply, now);
    assert (s.chatLog + [e])[..|s.chatLog|] == s.chatLog;
    s.(chatLog := s.chatLog + [e])
  }

  /** The endpoint's outcome: the store after it, the status, and the reply
      when one is sent. */
  datatype ChatResult = ChatResult(store: Store, code: App.Code, reply: Option<ChatReply>)

  /** `POST /api/chatbot` with the body's `message` (None when absent). */
  function Chat(s: Store, message: Option<string>, month: string, today: string, now: string): (r: ChatResult)
    ensures message.None? <==> r.code == App.BadRequest
    ensures r.code == App.BadRequest ==> r.store == s && r.reply.None?
    ensures r.code == App.ServerError <==>
              message.Some? && Dispatch(message.value) == AlertsBranch
              && CheckCategoryLimits(s, month, today).LimitCheckFailed?
    ensures r.code == App.ServerError ==> r.store == s && r.reply.None?
    ensures r.code in {App.Ok, App.BadRequest, App.ServerError}
    ensures r.code == App.Ok ==>
              && message.Some? && r.reply.Some?
              && var m, before := message.value, if Dispatch(message.value) == AlertsBranch
                                                then CheckCategoryLimits(s, month, today).store else s;
              && r.store == LogExchange(before, Lower(m), r.reply.value, now)
              && (Dispatch(m) != AlertsBranch ==> r.reply.value == Answer(s, Dispatch(m)))
              && (Dispatch(m) == AlertsBranch ==>
                    var raised := CheckCategoryLimits(s, month, today).raised;
                    r.reply.value == (if raised == [] then NoAlertsReply else AlertsReply(raised)))
  {
    if message.None? then ChatResult(s, App.BadRequest, None)
    else
      var m := message.value;
      var b := Dispatch(m);
      if b == AlertsBranch then
        var check := CheckCategoryLimits(s, month, today);
        if check.LimitCheckFailed? then ChatResult(s, App.ServerError, None)
        else
          var reply := if check.raised == [] then NoAlertsReply else AlertsReply(check.raised);
          ChatResult(LogExchange(check.store, Lower(m), reply, now), App.Ok, Some(reply))
      else
        var reply := Answer(s, b);
        ChatResult(LogExchange(s, Lower(m), reply, now), App.Ok, Some(reply))
  }

  /** Every answered message is logged exactly once, lowercased, after the
      earlier entries; only the alerts branch touches another table, and then
      only the alerts. */
  lemma AnsweredExchangeLoggedOnce(s: Store, message: string, month: string, today: string, now: string)
    requires Chat(s, Some(message), month, today, now).code == App.Ok
    ensures var t := Chat(s, Some(message), month, today, now).store;
            && |t.chatLog| == |s.chatLog| + 1
            && t.chatLog[..|s.chatLog|] == s.chatLog
            && t.chatLog[|s.chatLog|].userMessage == Lower(message)
            && t.chatLog[|s.chatLog|].timestamp == now
            && t == s.(chatLog := t.chatLog, alerts := t.alerts)
            && (Dispatch(message) != AlertsBranch ==> t.alerts == s.alerts)
  {
    var b := Dispatch(message);
    if b == AlertsBranch {
      var check := CheckCategoryLimits(s, month, today);
      assert check.store == s.(alerts := check.store.alerts);
    }
  }
}

=== FILE: common.dfy ===
/** Shared vocabulary for the finance model: optional values, sums over
    sequences, substring search on strings, ASCII lower-casing, ordered
    keyword dispatch and a stable descending sort. */
module Common {

  datatype Option<+T> = None | Some(value: T) {
    function GetOr(default: T): T {
      match this
      case Some(v) => v
      case None => default
    }
  }

  function MinR(a: real, b: real): real { if a <= b then a else b }
  function MaxR(a: real, b: real): real { if a >= b then a else b }

  /** Left-to-right sum of a sequence of amounts (Python `sum`, SQL `SUM`). */
  function Sum(xs: seq<real>): real
    decreases |xs|
  {
    if |xs| == 0 then 0.0 else Sum(xs[..|xs| - 1]) + xs[|xs| - 1]
  }

  lemma {:induction false} SumAppend(xs: seq<real>, ys: seq<real>)
    ensures Sum(xs + ys) == Sum(xs) + Sum(ys)
    decreases |ys|
  {
    if |ys| == 0 {
      assert xs + ys == xs;
    } else {
      var ys' := ys[..|ys| - 1];
      assert (xs + ys)[..|xs + ys| - 1] == xs + ys';
      SumAppend(xs, ys');
    }
  }

  lemma {:induction false} SumNonNegative(xs: seq<real>)
    requires forall i :: 0 <= i < |xs| ==> xs[i] >= 0.0
    ensures Sum(xs) >= 0.0
    decreases |xs|
  {
    if |xs| > 0 {
      SumNonNegative(xs[..|xs| - 1]);
    }
  }

  /** Left-to-right sum of `f` over the elements. */
  function SumBy<T>(s: seq<T>, f: T -> real): real
    decreases |s|
  {
    if |s| == 0 then 0.0 else SumBy(s[..|s| - 1], f) + f(s[|s| - 1])
  }

  lemma {:induction false} SumByAppend<T>(a: seq<T>, b: seq<T>, f: T -> real)
    ensures SumBy(a + b, f) == SumBy(a, f) + SumBy(b, f)
    decreases |b|
  {
    if |b| == 0 {
      assert a + b == a;
    } else {
      assert (a + b)[..|a + b| - 1] == a + b[..|b| - 1];
      SumByAppend(a, b[..|b| - 1], f);
    }
  }

  /** A sum does not depend on the order of its terms. */
  lemma {:induction false} SumByPermutation<T>(a: seq<T>, b: seq<T>, f: T -> real)
    requires multiset(a) == multiset(b)
    ensures SumBy(a, f) == SumBy(b, f)
    decreases |a|
  {
    if |a| == 0 {
      assert |b| == |multiset(b)| == 0;
    } else {
      var x := a[|a| - 1];
      var init := a[..|a| - 1];
      assert a == init + [x];
      assert x in multiset(b);
      var j :| 0 <= j < |b| && b[j] == x;
      var rest := b[..j] + b[j + 1..];
      assert b == b[..j] + [x] + b[j + 1..];
      SumByAppend(b[..j] + [x], b[j + 1..], f);
      SumByAppend(b[..j], [x], f);
      SumByAppend(b[..j], b[j + 1..], f);
      assert SumBy([x], f) == f(x) by { assert [x][..0] == []; }
      assert multiset(rest) == multiset(b) - multiset{x};
      assert multiset(init) == multiset(a) - multiset{x};
      SumByPermutation(init, rest, f);
    }
  }

  lemma {:induction false} SumByZero<T>(s: seq<T>, f: T -> real)
    requires forall x :: x in s ==> f(x) == 0.0
    ensures SumBy(s, f) == 0.0
    decreases |s|
  {
    if |s| > 0 {
      assert forall x :: x in s[..|s| - 1] ==> x in s;
      SumByZero(s[..|s| - 1], f);
    }
  }

  /** Sums are linear: a termwise difference sums to the difference. */
  lemma {:induction false} SumByDiff<T>(s: seq<T>, f: T -> real, g: T -> real, h: T -> real)
    requires forall x :: x in s ==> h(x) == f(x) - g(x)
    ensures SumBy(s, h) == SumBy(s, f) - SumBy(s, g)
    decreases |s|
  {
    if |s| > 0 {
      assert forall x :: x in s[..|s| - 1] ==> x in s;
      SumByDiff(s[..|s| - 1], f, g, h);
    }
  }

  /** Sums of functions that agree on every element are equal. */
  lemma {:induction false} SumByAgree<T>(s: seq<T>, f: T -> real, g: T -> real)
    requires forall x :: x in s ==> g(x) == f(x)
    ensures SumBy(s, g) == SumBy(s, f)
    decreases |s|
  {
    if |s| > 0 {
      assert forall x :: x in s[..|s| - 1] ==> x in s;
      SumByAgree(s[..|s| - 1], f, g);
    }
  }

  /** Sums are linear: termwise scaling scales the sum. */
  lemma {:induction false} SumByScale<T>(s: seq<T>, f: T -> real, g: T -> real, c: real)
    requires forall x :: x in s ==> g(x) == f(x) * c
    ensures SumBy(s, g) == SumBy(s, f) * c
    decreases |s|
  {
    if |s| > 0 {
      assert forall x :: x in s[..|s| - 1] ==> x in s;
      SumByScale(s[..|s| - 1], f, g, c);
    }
  }

  /** Splitting a sequence by a predicate splits its sum. */
  lemma {:induction false} SumByFilter<T>(s: seq<T>, p: T -> bool, f: T -> real)
    ensures SumBy(Filter(s, p), f) + SumBy(Reject(s, p), f) == SumBy(s, f)
    decreases |s|
  {
    if |s| > 0 {
      SumByFilter(s[1..], p, f);
      assert s == [s[0]] + s[1..];
      SumByAppend([s[0]], s[1..], f);
      assert SumBy([s[0]], f) == f(s[0]) by { assert [s[0]][..0] == []; }
      if p(s[0]) {
        SumByAppend([s[0]], Filter(s[1..], p), f);
      } else {
        SumByAppend([s[0]], Reject(s[1..], p), f);
      }
    }
  }

  // ---------------------------------------------------------------------------
  // Grouping (SQL GROUP BY)
  // ---------------------------------------------------------------------------

  ghost predicate Distinct<K>(ks: seq<K>)
  {
    forall i, j :: 0 <= i < j < |ks| ==> ks[i] != ks[j]
  }

  lemma DistinctPrefix<K>(ks: seq<K>, n: nat)
    requires Distinct(ks) && n <= |ks|
    ensures Distinct(ks[..n])
  {
    forall i, j | 0 <= i < j < n
      ensures ks[..n][i] != ks[..n][j]
    {
      assert ks[..n][i] == ks[i] && ks[..n][j] == ks[j];
    }
  }

  /** The distinct keys of the elements, in order of first occurrence. */
  function Keys<T, K(==,!new)>(s: seq<T>, key: T -> K): (ks: seq<K>)
    ensures Distinct(ks)
    ensures forall k :: k in ks <==> exists x :: x in s && key(x) == k
    decreases |s|
  {
    if |s| == 0 then []
    else
      var init := s[..|s| - 1];
      var x := s[|s| - 1];
      assert s == init + [x];
      var ks := Keys(init, key);
      if key(x) in ks then ks else ks + [key(x)]
  }

  /** Sum of `f` over the elements whose key is `k`. */
  function SumWhere<T, K(==,!new)>(s: seq<T>, key: T -> K, k: K, f: T -> real): real
    decreases |s|
  {
    if |s| == 0 then 0.0
    else SumWhere(s[..|s| - 1], key, k, f) + (if key(s[|s| - 1]) == k then f(s[|s| - 1]) else 0.0)
  }

  /** Sum of the group totals of the keys `ks`. */
  function GroupTotals<T, K(==,!new)>(s: seq<T>, key: T -> K, f: T -> real, ks: seq<K>): real
    decreases |ks|
  {
    if |ks| == 0 then 0.0
    else GroupTotals(s, key, f, ks[..|ks| - 1]) + SumWhere(s, key, ks[|ks| - 1], f)
  }

  lemma {:induction false} SumWhereAbsent<T, K(!new)>(s: seq<T>, key: T -> K, k: K, f: T -> real)
    requires forall x :: x in s ==> key(x) != k
    ensures SumWhere(s, key, k, f) == 0.0
    decreases |s|
  {
    if |s| > 0 {
      SumWhereAbsent(s[..|s| - 1], key, k, f);
    }
  }

  lemma {:induction false} GroupTotalsStep<T, K(!new)>(s: seq<T>, x: T, key: T -> K, f: T -> real, ks: seq<K>)
    requires Distinct(ks)
    ensures GroupTotals(s + [x], key, f, ks) == GroupTotals(s, key, f, ks) + (if key(x) in ks then f(x) else 0.0)
    decreases |ks|
  {
    if |ks| > 0 {
      var init := ks[..|ks| - 1];
      var last := ks[|ks| - 1];
      assert ks == init + [last];
      GroupTotalsStep(s, x, key, f, init);
      assert (s + [x])[..|s + [x]| - 1] == s;
      assert key(x) in ks <==> key(x) in init || key(x) == last;
      assert key(x) == last ==> key(x) !in init;
    }
  }

  /** The groups of a GROUP BY partition the rows: the group totals add up
      to the total over all rows. */
  lemma {:induction false} GroupTotalsPartition<T, K(!new)>(s: seq<T>, key: T -> K, f: T -> real)
    ensures GroupTotals(s, key, f, Keys(s, key)) == SumBy(s, f)
    decreases |s|
  {
    if |s| > 0 {
      var init := s[..|s| - 1];
      var x := s[|s| - 1];
      assert s == init + [x];
      var ks := Keys(init, key);
      GroupTotalsPartition(init, key, f);
      GroupTotalsStep(init, x, key, f, ks);
      if key(x) !in ks {
        var ks' := ks + [key(x)];
        assert ks'[..|ks'| - 1] == ks;
        SumWhereAbsent(init, key, key(x), f);
      }
    }
  }

  /** `sub` occurs in `s` starting at position `i`. */
  predicate OccursAt(s: string, sub: string, i: int)
  {
    0 <= i && i + |sub| <= |s| && s[i..i + |sub|] == sub
  }

  /** Python `sub in s` / JavaScript `s.includes(sub)`. */
  function Contains(s: string, sub: string): (r: bool)
    ensures r <==> exists i :: OccursAt(s, sub, i)
    decreases |s|
  {
    if |sub| > |s| then
      assert forall i :: !OccursAt(s, sub, i);
      false
    else if s[..|sub|] == sub then
      assert OccursAt(s, sub, 0);
      true
    else
      var rest := Contains(s[1..], sub);
      assert forall i :: OccursAt(s[1..], sub, i) <==> OccursAt(s, sub, i + 1) by {
        forall i
          ensures OccursAt(s[1..], sub, i) <==> OccursAt(s, sub, i + 1)
        {
          if 0 <= i && i + |sub| <= |s[1..]| {
            assert s[1..][i..i + |sub|] == s[i + 1..i + 1 + |sub|];
          }
        }
      }
      assert !OccursAt(s, sub, 0);
      assert forall i :: OccursAt(s, sub, i) && i != 0 ==> OccursAt(s[1..], sub, i - 1);
      rest
  }

  /** A text that lacks the character at position `k` of `sub` does not
      contain `sub`. */
  lemma Lacks(s: string, sub: string, k: nat)
    requires k < |sub| && forall i :: 0 <= i < |s| ==> s[i] != sub[k]
    ensures !Contains(s, sub)
  {
    forall i ensures !OccursAt(s, sub, i) {
      if 0 <= i && i + |sub| <= |s| {
        assert s[i..i + |sub|][k] != sub[k];
      }
    }
  }

  /** JavaScript `s.endsWith(suffix)`. */
  predicate EndsWith(s: string, suffix: string)
  {
    |suffix| <= |s| && s[|s| - |suffix|..] == suffix
  }

  lemma EndsWithAppend(c: string, suffix: string)
    ensures EndsWith(c + suffix, suffix)
  {
    assert (c + suffix)[|c|..] == suffix;
  }

  /** The position of the first occurrence of `sub` in `s` at or after
      `from`, when none occurs before `from`. */
  function FirstOccurrenceFrom(s: string, sub: string, from: nat): (r: Option<nat>)
    requires forall i :: 0 <= i < from ==> !OccursAt(s, sub, i)
    ensures r.None? <==> forall i :: !OccursAt(s, sub, i)
    ensures r.Some? ==> OccursAt(s, sub, r.value) && forall i :: 0 <= i < r.value ==> !OccursAt(s, sub, i)
    decreases |s| + 1 - from
  {
    if from + |sub| > |s| then None
    else if OccursAt(s, sub, from) then Some(from)
    else FirstOccurrenceFrom(s, sub, from + 1)
  }

  /** JavaScript `s.indexOf(sub)`, None for -1. */
  function FirstOccurrence(s: string, sub: string): (r: Option<nat>)
    ensures r.None? <==> forall i :: !OccursAt(s, sub, i)
    ensures r.Some? ==> OccursAt(s, sub, r.value) && forall i :: 0 <= i < r.value ==> !OccursAt(s, sub, i)
  {
    FirstOccurrenceFrom(s, sub, 0)
  }

  /** JavaScript `s.replace(sub, rep)` with a string pattern: only the first
      occurrence is replaced. */
  function ReplaceFirst(s: string, sub: string, rep: string): (r: string)
    ensures FirstOccurrence(s, sub).None? ==> r == s
    ensures FirstOccurrence(s, sub).Some? ==>
              var i := FirstOccurrence(s, sub).value;
              r == s[..i] + rep + s[i + |sub|..]
  {
    match FirstOccurrence(s, sub)
    case None => s
    case Some(i) => s[..i] + rep + s[i + |sub|..]
  }

  /** When `sub` starts with a character that `c` lacks, the first occurrence
      of `sub` in `c + sub` is the appended one. */
  lemma FirstOccurrenceAppended(c: string, sub: string)
    requires |sub| > 0 && forall j :: 0 <= j < |c| ==> c[j] != sub[0]
    ensures FirstOccurrence(c + sub, sub) == Some(|c|)
  {
    var s := c + sub;
    assert s[|c|..|c| + |sub|] == sub;
    forall i | 0 <= i < |c|
      ensures !OccursAt(s, sub, i)
    {
      if i + |sub| <= |s| {
        assert s[i..i + |sub|][0] == c[i];
      }
    }
    assert OccursAt(s, sub, |c|);
    var r := FirstOccurrence(s, sub);
    assert r.Some?;
    assert !(r.value < |c|) && !(r.value > |c|);
  }

  /** The text before a known suffix. */
  function StripSuffix(s: string, suffix: string): (r: string)
    requires EndsWith(s, suffix)
    ensures r + suffix == s
  {
    s[..|s| - |suffix|]
  }

  /** Lower-casing of one character for the ASCII and Latin-1 capitals
      (A-Z and U+00C0-U+00DE except the multiplication sign), which covers the
      accented capitals of Portuguese; every other character is kept. */
  function LowerChar(c: char): char
  {
    if 'A' <= c <= 'Z' || ('\U{00C0}' <= c <= '\U{00DE}' && c != '\U{00D7}') then (c as int + 32) as char else c
  }

  /** `str.lower()` / `toLowerCase()`, restricted to the Latin-1 letters. */
  function Lower(s: string): (r: string)
    ensures |r| == |s|
    ensures forall i :: 0 <= i < |s| ==> r[i] == LowerChar(s[i])
  {
    seq(|s|, i requires 0 <= i < |s| => LowerChar(s[i]))
  }

  /** Some word of `words` occurs in `text` (Python `any(w in text for w in words)`). */
  predicate AnyContained(text: string, words: seq<string>)
  {
    exists k :: 0 <= k < |words| && Contains(text, words[k])
  }

  /** Index of the first group, in table order, one of whose words occurs in
      `text`: the shape of every `if/elif` keyword chain and of every loop
      over a keyword table that stops at its first hit. */
  function FirstGroup(text: string, groups: seq<seq<string>>): (r: Option<nat>)
    ensures r.Some? ==> r.value < |groups| && AnyContained(text, groups[r.value])
    ensures r.Some? ==> forall j :: 0 <= j < r.value ==> !AnyContained(text, groups[j])
    ensures r.None? <==> forall j :: 0 <= j < |groups| ==> !AnyContained(text, groups[j])
    decreases |groups|
  {
    if |groups| == 0 then None
    else if AnyContained(text, groups[0]) then Some(0)
    else
      match FirstGroup(text, groups[1..])
      case None => None
      case Some(k) => Some(k + 1)
  }

  /** Keeps the elements of `s` satisfying `p`, in order (`filter`). */
  function Filter<T>(s: seq<T>, p: T -> bool): (r: seq<T>)
    ensures |r| <= |s|
    ensures forall x :: x in r ==> x in s && p(x)
    ensures forall x :: x in s && p(x) ==> x in r
    ensures forall i :: 0 <= i < |r| ==> p(r[i])
    decreases |s|
  {
    if |s| == 0 then []
    else if p(s[0]) then [s[0]] + Filter(s[1..], p)
    else Filter(s[1..], p)
  }

  /** Keeps the elements of `s` not satisfying `p`, in order. */
  function Reject<T>(s: seq<T>, p: T -> bool): (r: seq<T>)
    ensures |r| <= |s|
    ensures forall x :: x in r ==> x in s && !p(x)
    ensures forall x :: x in s && !p(x) ==> x in r
    decreases |s|
  {
    if |s| == 0 then []
    else if p(s[0]) then Reject(s[1..], p)
    else [s[0]] + Reject(s[1..], p)
  }

  /** The first `n` elements, or all of them when there are fewer
      (Python `xs[:n]`, JavaScript `xs.slice(0, n)`). */
  function Take<T>(s: seq<T>, n: nat): (r: seq<T>)
    ensures |r| == if |s| <= n then |s| else n
    ensures r == s[..|r|]
  {
    if |s| <= n then s else s[..n]
  }

  /** Code-point order on strings, the order SQLite's default collation
      gives to text: a proper prefix comes first. */
  predicate LexLe(a: string, b: string)
    decreases |a|
  {
    |a| == 0 || (|b| > 0 && (a[0] < b[0] || (a[0] == b[0] && LexLe(a[1..], b[1..]))))
  }

  lemma {:induction false} LexLeTotal(a: string, b: string)
    ensures LexLe(a, b) || LexLe(b, a)
    decreases |a|
  {
    if |a| > 0 && |b| > 0 && a[0] == b[0] {
      LexLeTotal(a[1..], b[1..]);
    }
  }

  lemma {:induction false} LexLeTrans(a: string, b: string, c: string)
    requires LexLe(a, b) && LexLe(b, c)
    ensures LexLe(a, c)
    decreases |a|
  {
    if |a| > 0 && a[0] == b[0] && b[0] == c[0] {
      LexLeTrans(a[1..], b[1..], c[1..]);
    }
  }

  lemma {:induction false} LexLeAntisym(a: string, b: string)
    requires LexLe(a, b) && LexLe(b, a)
    ensures a == b
    decreases |a|
  {
    if |a| > 0 {
      LexLeAntisym(a[1..], b[1..]);
      assert a == [a[0]] + a[1..] && b == [b[0]] + b[1..];
    }
  }

  /** Ascending order by a text key. */
  ghost predicate SortedByText<T>(s: seq<T>, key: T -> string)
  {
    forall i, j :: 0 <= i < j < |s| ==> LexLe(key(s[i]), key(s[j]))
  }

  /** Inserts `x` after every element whose key is at most `key(x)`. */
  function InsertByText<T>(x: T, s: seq<T>, key: T -> string): (r: seq<T>)
    requires SortedByText(s, key)
    ensures SortedByText(r, key)
    ensures multiset(r) == multiset(s) + multiset{x}
    ensures |r| == |s| + 1
    decreases |s|
  {
    if |s| == 0 then [x]
    else if LexLe(key(s[0]), key(x)) then
      var tail := InsertByText(x, s[1..], key);
      assert s == [s[0]] + s[1..];
      HeadBoundsInsertByText(x, s, tail, key);
      [s[0]] + tail
    else
      LexLeTotal(key(s[0]), key(x));
      forall j | 0 <= j < |s|
        ensures LexLe(key(x), key(s[j]))
      {
        if j > 0 {
          LexLeTrans(key(x), key(s[0]), key(s[j]));
        }
      }
      [x] + s
  }

  lemma HeadBoundsInsertByText<T>(x: T, s: seq<T>, tail: seq<T>, key: T -> string)
    requires |s| > 0 && SortedByText(s, key) && LexLe(key(s[0]), key(x))
    requires SortedByText(tail, key)
    requires multiset(tail) == multiset(s[1..]) + multiset{x}
    ensures SortedByText([s[0]] + tail, key)
  {
    forall j | 0 <= j < |tail|
      ensures LexLe(key(s[0]), key(tail[j]))
    {
      assert tail[j] in multiset(tail);
      if tail[j] != x {
        assert tail[j] in multiset(s[1..]);
        var k :| 0 <= k < |s[1..]| && s[1..][k] == tail[j];
        assert s[k + 1] == tail[j];
      }
    }
  }

  /** Stable sort by a text key, smallest first (`ORDER BY key ASC`, with
      ties in table order). */
  function SortByText<T>(s: seq<T>, key: T -> string): (r: seq<T>)
    ensures SortedByText(r, key)
    ensures multiset(r) == multiset(s)
    ensures |r| == |s|
    decreases |s|
  {
    if |s| == 0 then []
    else
      var init := s[..|s| - 1];
      assert s == init + [s[|s| - 1]];
      InsertByText(s[|s| - 1], SortByText(init, key), key)
  }

  /** Descending order by `key`. */
  ghost predicate SortedDesc<T>(s: seq<T>, key: T -> real)
  {
    forall i, j :: 0 <= i < j < |s| ==> key(s[i]) >= key(s[j])
  }

  /** Inserts `x` after every element whose key is at least `key(x)`. */
  function InsertDesc<T>(x: T, s: seq<T>, key: T -> real): (r: seq<T>)
    requires SortedDesc(s, key)
    ensures SortedDesc(r, key)
    ensures multiset(r) == multiset(s) + multiset{x}
    ensures |r| == |s| + 1
    decreases |s|
  {
    if |s| == 0 then [x]
    else if key(s[0]) >= key(x) then
      var tail := InsertDesc(x, s[1..], key);
      assert s == [s[0]] + s[1..];
      HeadBoundsInsert(x, s, tail, key);
      [s[0]] + tail
    else
      [x] + s
  }

  lemma HeadBoundsInsert<T>(x: T, s: seq<T>, tail: seq<T>, key: T -> real)
    requires |s| > 0 && SortedDesc(s, key) && key(s[0]) >= key(x)
    requires SortedDesc(tail, key)
    requires multiset(tail) == multiset(s[1..]) + multiset{x}
    ensures SortedDesc([s[0]] + tail, key)
  {
    forall j | 0 <= j < |tail|
      ensures key(s[0]) >= key(tail[j])
    {
      assert tail[j] in multiset(tail);
      if tail[j] != x {
        assert tail[j] in multiset(s[1..]);
        var k :| 0 <= k < |s[1..]| && s[1..][k] == tail[j];
        assert s[k + 1] == tail[j];
      }
    }
  }

  /** Stable sort by `key`, largest first: Python's
      `list.sort(key=..., reverse=True)` and the ES2019 `Array.prototype.sort`
      with a difference comparator. Later elements are inserted after earlier
      ones with an equal key, so ties keep their input order. */
  function SortDesc<T>(s: seq<T>, key: T -> real): (r: seq<T>)
    ensures SortedDesc(r, key)
    ensures multiset(r) == multiset(s)
    ensures |r| == |s|
    decreases |s|
  {
    if |s| == 0 then []
    else
      var init := s[..|s| - 1];
      assert s == init + [s[|s| - 1]];
      InsertDesc(s[|s| - 1], SortDesc(init, key), key)
  }

  /** The elements of `s` whose key is `v`, in their order in `s`. A sort is
      stable when it keeps every such subsequence as it was. */
  ghost function WithKey<T>(s: seq<T>, key: T -> real, v: real): (r: seq<T>)
    ensures |r| <= |s|
  {
    if |s| == 0 then []
    else (if key(s[0]) == v then [s[0]] else []) + WithKey(s[1..], key, v)
  }

  lemma {:induction false} WithKeyAppend<T>(a: seq<T>, b: seq<T>, key: T -> real, v: real)
    ensures WithKey(a + b, key, v) == WithKey(a, key, v) + WithKey(b, key, v)
    decreases |a|
  {
    if |a| > 0 {
      assert (a + b)[1..] == a[1..] + b;
      WithKeyAppend(a[1..], b, key, v);
    } else {
      assert a + b == b;
    }
  }

  lemma {:induction false} WithKeyNone<T>(s: seq<T>, key: T -> real, v: real)
    requires forall i :: 0 <= i < |s| ==> key(s[i]) < v
    ensures WithKey(s, key, v) == []
    decreases |s|
  {
    if |s| > 0 {
      WithKeyNone(s[1..], key, v);
    }
  }

  /** `InsertDesc` puts `x` after every element with the same key. */
  lemma {:induction false} InsertDescStable<T>(x: T, s: seq<T>, key: T -> real, v: real)
    requires SortedDesc(s, key)
    ensures WithKey(InsertDesc(x, s, key), key, v)
         == WithKey(s, key, v) + (if key(x) == v then [x] else [])
    decreases |s|
  {
    if |s| == 0 {
      assert InsertDesc(x, s, key) == [x] + [];
      WithKeyCons(x, [], key, v);
    } else if key(s[0]) >= key(x) {
      InsertDescStable(x, s[1..], key, v);
      InsertBehind(x, s, InsertDesc(x, s[1..], key), key, v);
    } else {
      InsertInFront(x, s, key, v);
    }
  }

  /** `x` goes behind the head `s[0]`, into the tail. */
  lemma InsertBehind<T>(x: T, s: seq<T>, tail: seq<T>, key: T -> real, v: real)
    requires |s| > 0
    requires WithKey(tail, key, v) == WithKey(s[1..], key, v) + (if key(x) == v then [x] else [])
    ensures WithKey([s[0]] + tail, key, v)
         == WithKey(s, key, v) + (if key(x) == v then [x] else [])
  {
    var hx: seq<T> := if key(x) == v then [x] else [];
    var h: seq<T> := if key(s[0]) == v then [s[0]] else [];
    WithKeyCons(s[0], tail, key, v);
    assert s == [s[0]] + s[1..];
    WithKeyCons(s[0], s[1..], key, v);
    assert h + (WithKey(s[1..], key, v) + hx) == (h + WithKey(s[1..], key, v)) + hx;
  }

  /** `x` goes in front of a sorted `s` whose keys are all below its own. */
  lemma InsertInFront<T>(x: T, s: seq<T>, key: T -> real, v: real)
    requires SortedDesc(s, key) && |s| > 0 && key(s[0]) < key(x)
    ensures WithKey(InsertDesc(x, s, key), key, v)
         == WithKey(s, key, v) + (if key(x) == v then [x] else [])
  {
    assert InsertDesc(x, s, key) == [x] + s;
    WithKeyCons(x, s, key, v);
    if key(x) == v {
      forall i | 0 <= i < |s|
        ensures key(s[i]) < v
      {
        assert key(s[0]) >= key(s[i]);
      }
      WithKeyNone(s, key, v);
    }
  }

  lemma WithKeyCons<T>(e: T, t: seq<T>, key: T -> real, v: real)
    ensures WithKey([e] + t, key, v) == (if key(e) == v then [e] else []) + WithKey(t, key, v)
  {
    assert ([e] + t)[0] == e && ([e] + t)[1..] == t;
  }

  /** `SortDesc` is stable: elements with equal keys keep their input order. */
  lemma {:induction false} SortDescStable<T>(s: seq<T>, key: T -> real, v: real)
    ensures WithKey(SortDesc(s, key), key, v) == WithKey(s, key, v)
    decreases |s|
  {
    if |s| > 0 {
      var init := s[..|s| - 1];
      var last := s[|s| - 1];
      var hl: seq<T> := if key(last) == v then [last] else [];
      assert s == init + [last];
      assert SortDesc(s, key) == InsertDesc(last, SortDesc(init, key), key);
      SortDescStable(init, key, v);
      InsertDescStable(last, SortDesc(init, key), key, v);
      WithKeyAppend(init, [last], key, v);
      assert [last][1..] == [];
      assert WithKey([last], key, v) == hl + WithKey([last][1..], key, v);
    }
  }
}

=== FILE: dashboard_view.dfy ===
/** The quick-transaction form of frontend/src/components/Dashboard.js:
    validation, the new transaction put first in the local list, the running
    income, expense and balance, and the reset of the form. The dashboard's
    data is a fixed sample set after a timer; the timer is not modelled, and
    the `parseFloat` of the amount text is a parameter. */
module DashboardView {
  import opened Common

  /** A JavaScript number that may be NaN (None). Arithmetic on NaN gives NaN. */
  type Num = Option<real>

  function AddNum(a: Num, b: Num): (r: Num)
    ensures r.Some? <==> a.Some? && b.Some?
    ensures r.Some? ==> r.value == a.value + b.value
  {
    if a.Some? && b.Some? then Some(a.value + b.value) else None
  }

  function SubNum(a: Num, b: Num): (r: Num)
    ensures r.Some? <==> a.Some? && b.Some?
    ensures r.Some? ==> r.value == a.value - b.value
  {
    if a.Some? && b.Some? then Some(a.value - b.value) else None
  }

  datatype Balance = Balance(income: Num, expense: Num, balance: Num)

  /** The balance agrees with the income and the expense. */
  predicate Consistent(b: Balance)
  {
    b.income.Some? && b.expense.Some? && b.balance.Some?
    && b.balance.value == b.income.value - b.expense.value
  }

  datatype Transaction = Transaction(
    id: nat, description: string, amount: Num, kind: string, category: string, date: string)

  /** The form's fields as typed; the amount is still text. */
  datatype Form = Form(description: string, amountText: string, kind: string, category: string, date: string)

  /** The empty form: an expense without category, dated today. */
  function EmptyForm(today: string): Form { Form("", "", "expense", "", today) }

  datatype Dashboard = Dashboard(balance: Balance, transactions: seq<Transaction>, form: Form, formOpen: bool)

  /** The sample data the dashboard shows. */
  const SampleBalance := Balance(Some(5735.42), Some(2980.15), Some(2755.27))

  const SampleTransactions: seq<Transaction> := [
    Transaction(1, "Salário", Some(5200.00), "income", "Salário", "2025-04-05"),
    Transaction(2, "Freelance", Some(535.42), "income", "Renda Extra", "2025-04-10"),
    Transaction(3, "Mercado", Some(450.85), "expense", "Alimentação", "2025-04-11"),
    Transaction(4, "Internet", Some(129.90), "expense", "Moradia", "2025-04-12"),
    Transaction(5, "Aluguel", Some(1450.00), "expense", "Moradia", "2025-04-15")
  ]

  /** The identifiers of the list are exactly 1 to its length, each once. */
  predicate IdsOneToN(ts: seq<Transaction>)
  {
    (forall i :: 0 <= i < |ts| ==> 1 <= ts[i].id <= |ts|)
    && (forall i, j :: 0 <= i < j < |ts| ==> ts[i].id != ts[j].id)
  }

  lemma SampleWellFormed()
    ensures Consistent(SampleBalance)
    ensures IdsOneToN(SampleTransactions)
  {
  }

  /** The three required fields; the amount is checked as text. */
  predicate Complete(f: Form)
  {
    f.description != "" && f.amountText != "" && f.category != ""
  }

  /** What submitting the form does. */
  datatype Submission = Rejected | Added(dashboard: Dashboard)

  /** The income or expense side takes the amount, and the balance moves
      with it; only the side named by the type changes. */
  function Apply(b: Balance, kind: string, amount: Num): (r: Balance)
    ensures kind == "income" ==> r == b.(income := AddNum(b.income, amount), balance := AddNum(b.balance, amount))
    ensures kind != "income" ==> r == b.(expense := AddNum(b.expense, amount), balance := SubNum(b.balance, amount))
  {
    if kind == "income" then b.(income := AddNum(b.income, amount), balance := AddNum(b.balance, amount))
    else b.(expense := AddNum(b.expense, amount), balance := SubNum(b.balance, amount))
  }

  /** A consistent balance stays consistent under a numeric amount of
      either type; a NaN amount makes the balance NaN. */
  lemma ApplyKeepsConsistent(b: Balance, kind: string, amount: Num)
    requires Consistent(b)
    ensures amount.Some? ==> Consistent(Apply(b, kind, amount))
    ensures amount.None? ==> Apply(b, kind, amount).balance.None?
  {
  }

  /** `handleAddTransaction`, with `parsed` the `parseFloat` of the amount
      text: an incomplete form is refused and nothing changes; otherwise the
      transaction is put first with the next identifier, the balance moves,
      and the form is emptied and closed. */
  function AddTransaction(d: Dashboard, parsed: Num, today: string): (r: Submission)
    ensures r.Rejected? <==> !Complete(d.form)
    ensures r.Added? ==>
              var t := r.dashboard;
              var f := d.form;
              && |t.transactions| == |d.transactions| + 1
              && t.transactions[1..] == d.transactions
              && t.transactions[0] == Transaction(|d.transactions| + 1, f.description, parsed, f.kind, f.category, f.date)
              && t.balance == Apply(d.balance, f.kind, parsed)
              && t.form == EmptyForm(today) && !t.formOpen
  {
    if !Complete(d.form) then Rejected
    else
      var f := d.form;
      var tx := Transaction(|d.transactions| + 1, f.description, parsed, f.kind, f.category, f.date);
      Added(Dashboard(Apply(d.balance, f.kind, parsed), [tx] + d.transactions, EmptyForm(today), false))
  }

  /** Adding keeps the identifiers 1 to n, so the new one is fresh. */
  lemma AddKeepsIds(d: Dashboard, parsed: Num, today: string)
    requires IdsOneToN(d.transactions) && Complete(d.form)
    ensures IdsOneToN(AddTransaction(d, parsed, today).dashboard.transactions)
  {
    var ts := AddTransaction(d, parsed, today).dashboard.transactions;
    forall i, j | 0 <= i < j < |ts|
      ensures ts[i].id != ts[j].id
    {
      if i > 0 {
        assert ts[i] == d.transactions[i - 1] && ts[j] == d.transactions[j - 1];
      } else {
        assert ts[j] == d.transactions[j - 1];
      }
    }
  }

  /** The rows of the recent-transactions table. */
  function Recent(ts: seq<Transaction>): (r: seq<Transaction>)
    ensures |r| <= 5 && |r| <= |ts|
    ensures |ts| >= 5 ==> |r| == 5
    ensures r == ts[..|r|]
  {
    Take(ts, 5)
  }

  /** The transaction just added heads the recent table, and the table is
      the previous one shifted down by one. */
  lemma AddedShownFirst(d: Dashboard, parsed: Num, today: string)
    requires Complete(d.form)
    ensures var t := AddTransaction(d, parsed, today).dashboard;
            && Recent(t.transactions)[0] == t.transactions[0]
            && Recent(t.transactions)[1..] == Recent(d.transactions)[..|Recent(t.transactions)| - 1]
  {
    var t := AddTransaction(d, parsed, today).dashboard;
    var r, old_ := Recent(t.transactions), Recent(d.transactions);
    assert |r| - 1 <= |old_|;
    assert forall i :: 1 <= i < |r| ==> r[i] == d.transactions[i - 1];
  }
}

=== FILE: db.dfy ===
/** The tables of backend/db.py, as sequences of rows in table order, and the
    rules defined beside them: seeding of the default rows, the category
    lookup, the recommended savings goal, the category-limit check that raises
    alerts, the investment filter and the classification of the financial
    situation. Connections, SQL text and commits are not modelled; a failing
    check leaves the store unchanged, as a rolled-back connection does. */
module Db {
  import opened Common

  const IncomeType: string := "income"
  const ExpenseType: string := "expense"
  const ExpenseLimitAlert: string := "expense_limit"

  datatype Category = Category(id: nat, name: string, kind: string)

  /** `categoryId` is None for a transaction stored without a category. */
  datatype Transaction = Transaction(
    id: nat, date: string, description: string, amount: real, kind: string, categoryId: Option<nat>)

  datatype CategoryLimit = CategoryLimit(id: nat, categoryId: nat, limitAmount: real, period: string)

  datatype SavingsGoal = SavingsGoal(
    id: nat, name: string, targetAmount: real, currentAmount: real,
    deadline: Option<string>, createdAt: string, completed: bool)

  /** The text of a limit alert, kept as its two variable parts. */
  datatype AlertMessage = LimitExceeded(category: string, percent: real)

  datatype Alert = Alert(id: nat, kind: string, message: AlertMessage, date: string, isRead: bool)

  datatype Investment = Investment(
    id: nat, name: string, description: string, riskLevel: string, minInvestment: real, expectedReturn: real)

  /** The five statuses of the situation analysis: boa, razoável, atenção,
      ruim and crítica. */
  datatype Status = Good | Fair | Attention | Bad | Critical

  /** The status as the analysis reports it. */
  function StatusText(st: Status): (t: string)
    ensures |t| >= 3
  {
    match st
    case Good => "boa"
    case Fair => "razoável"
    case Attention => "atenção"
    case Bad => "ruim"
    case Critical => "crítica"
  }

  datatype Recommendation = ReviewSpending | BuildReserve | InvestSurplus

  datatype SituationAnalysis = SituationAnalysis(status: Status, recommendations: seq<Recommendation>)

  /** What the chatbot answered, kept as the facts its text reports. */
  datatype ChatReply =
    | HowToAddExpense
    | HowToAddIncome
    | SummaryReply(income: real, expense: real, balance: real)
    | AnalysisReply(analysis: SituationAnalysis)
    | GoalReply(income: real, goal: real)
    | AlertsReply(alerts: seq<AlertMessage>)
    | NoAlertsReply
    | InvestmentsReply(balance: real, offered: seq<Investment>)
    | NoInvestmentsReply
    | HelpReply
    | NotUnderstood

  datatype ChatLogEntry = ChatLogEntry(id: nat, userMessage: string, reply: ChatReply, timestamp: string)

  datatype Store = Store(
    categories: seq<Category>,
    transactions: seq<Transaction>,
    limits: seq<CategoryLimit>,
    goals: seq<SavingsGoal>,
    alerts: seq<Alert>,
    investments: seq<Investment>,
    chatLog: seq<ChatLogEntry>)

  // ---------------------------------------------------------------------------
  // Row identifiers
  // ---------------------------------------------------------------------------

  function MaxOf(ids: seq<nat>): (m: nat)
    ensures forall i :: 0 <= i < |ids| ==> ids[i] <= m
    ensures |ids| == 0 ==> m == 0
    ensures |ids| > 0 ==> exists i :: 0 <= i < |ids| && ids[i] == m
  {
    if |ids| == 0 then 0
    else
      var m := MaxOf(ids[..|ids| - 1]);
      assert forall i :: 0 <= i < |ids| - 1 ==> ids[..|ids| - 1][i] == ids[i];
      if ids[|ids| - 1] >= m then ids[|ids| - 1] else m
  }

  /** The identifier an autoincrement key hands out when no row was ever
      deleted: one more than the largest in use, so positive and unused. */
  function FreshId(ids: seq<nat>): (r: nat)
    ensures r > 0
    ensures forall i :: 0 <= i < |ids| ==> ids[i] < r
  {
    MaxOf(ids) + 1
  }

  function CategoryIds(cs: seq<Category>): seq<nat> { seq(|cs|, i requires 0 <= i < |cs| => cs[i].id) }
  function TransactionIds(ts: seq<Transaction>): seq<nat> { seq(|ts|, i requires 0 <= i < |ts| => ts[i].id) }
  function LimitIds(ls: seq<CategoryLimit>): seq<nat> { seq(|ls|, i requires 0 <= i < |ls| => ls[i].id) }
  function GoalIds(gs: seq<SavingsGoal>): seq<nat> { seq(|gs|, i requires 0 <= i < |gs| => gs[i].id) }
  function AlertIds(as_: seq<Alert>): seq<nat> { seq(|as_|, i requires 0 <= i < |as_| => as_[i].id) }

  lemma FreshIdKeepsDistinct(ids: seq<nat>)
    ensures Distinct(ids) ==> Distinct(ids + [FreshId(ids)])
  {
  }

  // ---------------------------------------------------------------------------
  // Seeding
  // ---------------------------------------------------------------------------

  const DefaultCategoryNames: seq<(string, string)> := [
    ("Alimentação", ExpenseType), ("Transporte", ExpenseType), ("Moradia", ExpenseType),
    ("Lazer", ExpenseType), ("Saúde", ExpenseType), ("Educação", ExpenseType),
    ("Vestuário", ExpenseType), ("Outros", ExpenseType),
    ("Salário", IncomeType), ("Freelance", IncomeType), ("Investimentos", IncomeType),
    ("Presentes", IncomeType), ("Outros", IncomeType)]

  /** The thirteen default categories, numbered from 1 in table order. */
  function DefaultCategories(): (cs: seq<Category>)
    ensures |cs| == 13
    ensures forall i :: 0 <= i < 13 ==> cs[i].id == i + 1
    ensures forall i :: 0 <= i < 8 ==> cs[i].kind == ExpenseType
    ensures forall i :: 8 <= i < 13 ==> cs[i].kind == IncomeType
  {
    seq(13, i requires 0 <= i < 13 => Category(i + 1, DefaultCategoryNames[i].0, DefaultCategoryNames[i].1))
  }

  /** No two default categories share both name and type ("Outros" exists
      once per type), so a lookup by name and type is unambiguous. */
  lemma DefaultCategoriesDistinct()
    ensures forall i, j :: 0 <= i < j < 13 ==>
              (DefaultCategories()[i].name, DefaultCategories()[i].kind) != (DefaultCategories()[j].name, DefaultCategories()[j].kind)
  {
    var cs := DefaultCategories();
    forall i, j | 0 <= i < j < 13
      ensures (cs[i].name, cs[i].kind) != (cs[j].name, cs[j].kind)
    {
      if cs[i].kind == cs[j].kind {
        DefaultNamesDiffer(i, j);
      }
    }
  }

  lemma DefaultNamesDiffer(i: nat, j: nat)
    requires i < j < 13 && DefaultCategoryNames[i].1 == DefaultCategoryNames[j].1
    ensures DefaultCategoryNames[i].0 != DefaultCategoryNames[j].0
  {
    if i < 8 {
      assert j < 8;
    }
  }

  /** Name, description, risk level, minimum and expected return of each
      default investment, cheapest first. */
  const DefaultInvestmentRows: seq<(string, string, string, real, real)> := [
    ("Poupança", "Investimento de baixo risco com rendimento previsível", "baixo", 0.0, 0.03),
    ("Tesouro Selic", "Título público com baixo risco e rendimento vinculado à taxa Selic", "baixo", 100.0, 0.07),
    ("CDB", "Certificado de Depósito Bancário com garantia do FGC", "médio-baixo", 1000.0, 0.09),
    ("Fundos Imobiliários", "Investimento em imóveis através de cotas", "médio", 5000.0, 0.12),
    ("Ações", "Participação em empresas listadas na bolsa de valores", "alto", 10000.0, 0.20)]

  /** The five default investments, numbered from 1, cheapest first. */
  function DefaultInvestments(): (is_: seq<Investment>)
    ensures |is_| == 5
    ensures forall i :: 0 <= i < 5 ==> is_[i].id == i + 1
    ensures forall i, j :: 0 <= i < j < 5 ==> is_[i].minInvestment < is_[j].minInvestment
    ensures is_[0].minInvestment == 0.0
  {
    seq(5, i requires 0 <= i < 5 =>
      var row := DefaultInvestmentRows[i];
      Investment(i + 1, row.0, row.1, row.2, row.3, row.4))
  }

  /** Default rows are written only into an empty table; a table that
      already has rows is left as it is, so seeding twice changes nothing. */
  function Seed(s: Store): (r: Store)
    ensures |r.categories| > 0 && |r.investments| > 0
    ensures |s.categories| > 0 ==> r.categories == s.categories
    ensures |s.investments| > 0 ==> r.investments == s.investments
    ensures |s.categories| == 0 ==> r.categories == DefaultCategories()
    ensures |s.investments| == 0 ==> r.investments == DefaultInvestments()
    ensures r == s.(categories := r.categories, investments := r.investments)
  {
    s.(categories := if |s.categories| == 0 then DefaultCategories() else s.categories,
       investments := if |s.investments| == 0 then DefaultInvestments() else s.investments)
  }

  lemma SeedIdempotent(s: Store)
    ensures Seed(Seed(s)) == Seed(s)
  {
    var once := Seed(s);
    assert |once.categories| > 0 && |once.investments| > 0;
  }

  // ---------------------------------------------------------------------------
  // Lookups and small rules
  // ---------------------------------------------------------------------------

  /** The id of the first category with this name and type (`fetchone`). */
  function CategoryByName(cs: seq<Category>, name: string, kind: string): (r: Option<nat>)
    ensures r.None? <==> forall c :: c in cs ==> !(c.name == name && c.kind == kind)
    ensures r.Some? ==> exists i :: 0 <= i < |cs| && cs[i] == Category(r.value, name, kind)
                          && forall j :: 0 <= j < i ==> !(cs[j].name == name && cs[j].kind == kind)
    decreases |cs|
  {
    if |cs| == 0 then None
    else if cs[0].name == name && cs[0].kind == kind then Some(cs[0].id)
    else
      var r := CategoryByName(cs[1..], name, kind);
      assert forall i :: 1 <= i < |cs| ==> cs[i] == cs[1..][i - 1];
      assert forall c :: c in cs ==> c == cs[0] || c in cs[1..];
      r
  }

  /** The first category with this id (`SELECT ... WHERE id = ?`). */
  function CategoryById(cs: seq<Category>, id: nat): (r: Option<Category>)
    ensures r.None? <==> forall c :: c in cs ==> c.id != id
    ensures r.Some? ==> r.value in cs && r.value.id == id
    decreases |cs|
  {
    if |cs| == 0 then None
    else if cs[0].id == id then Some(cs[0])
    else
      assert forall c :: c in cs ==> c == cs[0] || c in cs[1..];
      CategoryById(cs[1..], id)
  }

  /** The recommended savings goal: a fifth of the income. */
  function SavingsGoalFor(income: real): (goal: real)
    ensures goal * 5.0 == income
    ensures income >= 0.0 ==> 0.0 <= goal <= income
  {
    income * 0.2
  }

  /** A transaction's contribution to the income total. */
  function IncomePart(t: Transaction): real { if t.kind == IncomeType then t.amount else 0.0 }

  /** A transaction's contribution to the expense total. */
  function ExpensePart(t: Transaction): real { if t.kind == ExpenseType then t.amount else 0.0 }

  /** `SUM(amount) ... WHERE type = "income"`, 0 when there is none (`or 0`). */
  function TotalIncome(ts: seq<Transaction>): real { SumBy(ts, IncomePart) }

  /** `SUM(amount) ... WHERE type = "expense"`, 0 when there is none. */
  function TotalExpense(ts: seq<Transaction>): real { SumBy(ts, ExpensePart) }

  /** Recording one more transaction moves the totals by its amount, on the
      side of its type; a transaction of any other type moves neither. */
  lemma TotalsAfterAppend(ts: seq<Transaction>, t: Transaction)
    ensures TotalIncome(ts + [t]) == TotalIncome(ts) + (if t.kind == IncomeType then t.amount else 0.0)
    ensures TotalExpense(ts + [t]) == TotalExpense(ts) + (if t.kind == ExpenseType then t.amount else 0.0)
  {
    assert (ts + [t])[..|ts|] == ts;
  }

  // ---------------------------------------------------------------------------
  // The category-limit check
  // ---------------------------------------------------------------------------

  /** `substr(date, 1, 7)`: the year-month prefix of an ISO date. */
  function MonthPrefix(date: string): (p: string)
    ensures |p| <= 7 && p <= date
  {
    if |date| <= 7 then date else date[..7]
  }

  predicate CountsTowards(t: Transaction, categoryId: nat, month: string)
  {
    t.kind == ExpenseType && t.categoryId == Some(categoryId) && MonthPrefix(t.date) == month
  }

  /** Amounts of the category's expenses dated in `month`, in table order. */
  function MonthExpenses(ts: seq<Transaction>, categoryId: nat, month: string): (amounts: seq<real>)
    ensures |amounts| == 0 <==> forall t :: t in ts ==> !CountsTowards(t, categoryId, month)
  {
    if |ts| == 0 then []
    else
      var t := ts[|ts| - 1];
      assert ts == ts[..|ts| - 1] + [t];
      MonthExpenses(ts[..|ts| - 1], categoryId, month) + (if CountsTowards(t, categoryId, month) then [t.amount] else [])
  }

  /** The spent amount of the limit query: SQL `SUM` is NULL over no rows. */
  function Spent(ts: seq<Transaction>, categoryId: nat, month: string): (r: Option<real>)
    ensures r.None? <==> forall t :: t in ts ==> !CountsTowards(t, categoryId, month)
    ensures r.Some? ==> r.value == Sum(MonthExpenses(ts, categoryId, month))
  {
    var amounts := MonthExpenses(ts, categoryId, month);
    if |amounts| == 0 then None else Some(Sum(amounts))
  }

  /** One row of the limit query: an expense category, one of its limits and
      the category's spending in the month. */
  datatype LimitStatus = LimitStatus(name: string, limitAmount: real, spent: Option<real>)

  function LimitsOf(ls: seq<CategoryLimit>, categoryId: nat): (r: seq<CategoryLimit>)
    ensures forall l :: l in r <==> l in ls && l.categoryId == categoryId
  {
    Filter(ls, (l: CategoryLimit) => l.categoryId == categoryId)
  }

  /** The join of expense categories with their limits, category by category. */
  function LimitStatuses(cs: seq<Category>, ls: seq<CategoryLimit>, ts: seq<Transaction>, month: string): (rows: seq<LimitStatus>)
    ensures forall row :: row in rows ==>
              exists c, l :: c in cs && c.kind == ExpenseType && l in ls && l.categoryId == c.id
                && row == LimitStatus(c.name, l.limitAmount, Spent(ts, c.id, month))
    ensures forall c, l :: c in cs && c.kind == ExpenseType && l in ls && l.categoryId == c.id ==>
              LimitStatus(c.name, l.limitAmount, Spent(ts, c.id, month)) in rows
    decreases |cs|
  {
    if |cs| == 0 then []
    else
      var here := RowsOf(cs[0], ls, ts, month);
      var rest := LimitStatuses(cs[1..], ls, ts, month);
      assert forall x :: x in cs ==> x == cs[0] || x in cs[1..];
      assert forall row :: row in here + rest <==> row in here || row in rest;
      here + rest
  }

  /** The rows one category contributes to the join: one per limit of an
      expense category, none for an income category. */
  function RowsOf(c: Category, ls: seq<CategoryLimit>, ts: seq<Transaction>, month: string): (rows: seq<LimitStatus>)
    ensures forall row :: row in rows ==>
              exists l :: c.kind == ExpenseType && l in ls && l.categoryId == c.id
                && row == LimitStatus(c.name, l.limitAmount, Spent(ts, c.id, month))
    ensures forall l :: c.kind == ExpenseType && l in ls && l.categoryId == c.id ==>
              LimitStatus(c.name, l.limitAmount, Spent(ts, c.id, month)) in rows
  {
    if c.kind != ExpenseType then []
    else
      var mine := LimitsOf(ls, c.id);
      var spent := Spent(ts, c.id, month);
      var rows := seq(|mine|, i requires 0 <= i < |mine| => LimitStatus(c.name, mine[i].limitAmount, spent));
      assert forall l :: l in mine ==> LimitStatus(c.name, l.limitAmount, spent) in rows by {
        forall l | l in mine
          ensures LimitStatus(c.name, l.limitAmount, spent) in rows
        {
          var i :| 0 <= i < |mine| && mine[i] == l;
          assert rows[i] == LimitStatus(c.name, l.limitAmount, spent);
        }
      }
      assert forall row :: row in rows ==> exists i :: 0 <= i < |mine| && row == rows[i];
      rows
  }

  /** The alert condition: a spent amount that is present, non-zero (a falsy
      zero is skipped) and above the limit. */
  predicate Exceeded(row: LimitStatus)
  {
    row.spent.Some? && row.spent.value != 0.0 && row.spent.value > row.limitAmount
  }

  /** `(spent / limit - 1) * 100`. */
  function OveragePercent(spent: real, limit: real): (p: real)
    requires limit != 0.0
    ensures p * limit == (spent - limit) * 100.0
    ensures limit > 0.0 && spent > limit ==> p > 0.0
  {
    var q := spent / limit;
    assert q * limit == spent;
    assert limit > 0.0 && spent > limit ==> q > 1.0 by {
      if limit > 0.0 && spent > limit {
        if q <= 1.0 {
          MulLeOne(q, limit);
        }
      }
    }
    (q - 1.0) * 100.0
  }

  lemma MulLeOne(q: real, limit: real)
    requires q <= 1.0 && limit > 0.0
    ensures q * limit <= limit
  {
    assert limit - q * limit == (1.0 - q) * limit;
  }

  /** The alert an exceeded row with a non-zero limit raises. */
  function AlertFor(row: LimitStatus): (a: AlertMessage)
    requires Exceeded(row) && row.limitAmount != 0.0
    ensures a.category == row.name
    ensures a.percent * row.limitAmount == (row.spent.value - row.limitAmount) * 100.0
    ensures row.limitAmount > 0.0 ==> a.percent > 0.0
  {
    LimitExceeded(row.name, OveragePercent(row.spent.value, row.limitAmount))
  }

  /** An exceeded row whose limit is zero: the percentage divides by zero. */
  predicate ZeroLimitOverrun(row: LimitStatus)
  {
    Exceeded(row) && row.limitAmount == 0.0
  }

  /** The alert messages of one check, one per exceeded row in row order;
      None when an exceeded row has a zero limit, where the percentage
      divides by zero and the whole check fails before committing. */
  function RaiseAlerts(rows: seq<LimitStatus>): (r: Option<seq<AlertMessage>>)
    ensures r.None? <==> exists i :: 0 <= i < |rows| && ZeroLimitOverrun(rows[i])
    ensures r.Some? ==> |r.value| == |Filter(rows, Exceeded)|
    ensures r.Some? ==> forall i :: 0 <= i < |r.value| ==>
              Filter(rows, Exceeded)[i].limitAmount != 0.0 && r.value[i] == AlertFor(Filter(rows, Exceeded)[i])
    decreases |rows|
  {
    if |rows| == 0 then Some([])
    else
      var row := rows[0];
      var rest := RaiseAlerts(rows[1..]);
      assert forall i :: 1 <= i < |rows| ==> rows[i] == rows[1..][i - 1];
      if Exceeded(row) then
        if row.limitAmount == 0.0 then None
        else if rest.None? then None
        else
          assert Filter(rows, Exceeded) == [row] + Filter(rows[1..], Exceeded);
          PrependAlert(row, Filter(rows[1..], Exceeded), rest.value);
          Some([AlertFor(row)] + rest.value)
      else
        assert Filter(rows, Exceeded) == Filter(rows[1..], Exceeded);
        rest
  }

  lemma PrependAlert(row: LimitStatus, tail: seq<LimitStatus>, msgs: seq<AlertMessage>)
    requires Exceeded(row) && row.limitAmount != 0.0 && |msgs| == |tail|
    requires forall i :: 0 <= i < |tail| ==>
               Exceeded(tail[i]) && tail[i].limitAmount != 0.0 && msgs[i] == AlertFor(tail[i])
    ensures forall i :: 0 <= i < |msgs| + 1 ==>
              Exceeded(([row] + tail)[i]) && ([row] + tail)[i].limitAmount != 0.0
              && ([AlertFor(row)] + msgs)[i] == AlertFor(([row] + tail)[i])
  {
    forall i | 0 <= i < |msgs| + 1
      ensures Exceeded(([row] + tail)[i]) && ([row] + tail)[i].limitAmount != 0.0
              && ([AlertFor(row)] + msgs)[i] == AlertFor(([row] + tail)[i])
    {
      if i > 0 {
        assert ([row] + tail)[i] == tail[i - 1];
        assert ([AlertFor(row)] + msgs)[i] == msgs[i - 1];
      }
    }
  }

  /** An unread limit alert with the message, dated `today`. */
  predicate Raised(a: Alert, m: AlertMessage, today: string)
  {
    a.kind == ExpenseLimitAlert && a.message == m && a.date == today && !a.isRead
  }

  /** `after` is `before` followed by one raised alert per message, in order. */
  predicate AlertsAppended(before: seq<Alert>, after: seq<Alert>, msgs: seq<AlertMessage>, today: string)
  {
    && |after| == |before| + |msgs|
    && after[..|before|] == before
    && forall i :: 0 <= i < |msgs| ==> Raised(after[|before| + i], msgs[i], today)
  }

  /** Appends one unread alert per message, each with a fresh id. */
  function AppendAlerts(alerts: seq<Alert>, msgs: seq<AlertMessage>, today: string): (r: seq<Alert>)
    ensures |r| == |alerts| + |msgs|
    ensures r[..|alerts|] == alerts
    ensures forall i :: 0 <= i < |msgs| ==> Raised(r[|alerts| + i], msgs[i], today)
    ensures Distinct(AlertIds(alerts)) ==> Distinct(AlertIds(r))
    decreases |msgs|
  {
    if |msgs| == 0 then alerts
    else
      var ids := AlertIds(alerts);
      var next := alerts + [Alert(FreshId(ids), ExpenseLimitAlert, msgs[0], today, false)];
      assert AlertIds(next) == ids + [FreshId(ids)];
      FreshIdKeepsDistinct(ids);
      var r := AppendAlerts(next, msgs[1..], today);
      AppendStep(alerts, next, msgs, today, r);
      r
  }

  /** One step of the appending: the alert for the first message followed
      by those for the rest. */
  lemma AppendStep(alerts: seq<Alert>, next: seq<Alert>, msgs: seq<AlertMessage>, today: string, r: seq<Alert>)
    requires |msgs| > 0 && |next| == |alerts| + 1 && next[..|alerts|] == alerts
    requires Raised(next[|alerts|], msgs[0], today)
    requires |r| == |next| + |msgs| - 1 && r[..|next|] == next
    requires forall j :: 0 <= j < |msgs| - 1 ==> Raised(r[|next| + j], msgs[1..][j], today)
    ensures r[..|alerts|] == alerts
    ensures forall i :: 0 <= i < |msgs| ==> Raised(r[|alerts| + i], msgs[i], today)
  {
    assert r[..|alerts|] == next[..|alerts|];
    assert r[|alerts|] == next[|alerts|];
    forall i | 0 <= i < |msgs|
      ensures Raised(r[|alerts| + i], msgs[i], today)
    {
      if i > 0 {
        var j := i - 1;
        assert r[|next| + j] == r[|alerts| + i] && msgs[1..][j] == msgs[i];
      }
    }
  }

  /** Some joined row exceeds a zero limit. */
  predicate SomeZeroLimitOverrun(rows: seq<LimitStatus>)
  {
    exists i :: 0 <= i < |rows| && ZeroLimitOverrun(rows[i])
  }

  datatype LimitCheck = LimitsChecked(store: Store, raised: seq<AlertMessage>) | LimitCheckFailed

  /** Raises the alerts of the joined rows on day `today`: one unread alert
      per exceeded limit, appended to the alerts and nothing else changed; the
      check fails as a whole on a zero limit that is exceeded. */
  function RecordAlerts(s: Store, rows: seq<LimitStatus>, today: string): (r: LimitCheck)
    ensures r.LimitCheckFailed? <==> exists i :: 0 <= i < |rows| && ZeroLimitOverrun(rows[i])
    ensures var ex := Filter(rows, Exceeded);
            r.LimitsChecked? ==>
              && |r.raised| == |ex|
              && (forall i :: 0 <= i < |ex| ==> ex[i].limitAmount != 0.0 && r.raised[i] == AlertFor(ex[i]))
    ensures r.LimitsChecked? ==>
              && r.store == s.(alerts := r.store.alerts)
              && |r.store.alerts| == |s.alerts| + |r.raised|
              && r.store.alerts[..|s.alerts|] == s.alerts
              && (forall i :: 0 <= i < |r.raised| ==>
                    && r.store.alerts[|s.alerts| + i].message == r.raised[i]
                    && r.store.alerts[|s.alerts| + i].kind == ExpenseLimitAlert
                    && r.store.alerts[|s.alerts| + i].date == today
                    && !r.store.alerts[|s.alerts| + i].isRead)
  {
    var msgs := RaiseAlerts(rows);
    if msgs.None? then LimitCheckFailed
    else LimitsChecked(s.(alerts := AppendAlerts(s.alerts, msgs.value, today)), msgs.value)
  }

  /** `check_category_limits` for the month `month` (YYYY-MM) on day `today`:
      it fails exactly when some joined row overruns a zero limit; otherwise
      it raises one alert per exceeded limit, in row order, and appends them
      unread to the stored alerts, changing nothing else. */
  function CheckCategoryLimits(s: Store, month: string, today: string): (r: LimitCheck)
    ensures r.LimitCheckFailed? <==> SomeZeroLimitOverrun(LimitStatuses(s.categories, s.limits, s.transactions, month))
    ensures var ex := Filter(LimitStatuses(s.categories, s.limits, s.transactions, month), Exceeded);
            r.LimitsChecked? ==>
              && |r.raised| == |ex|
              && (forall i :: 0 <= i < |ex| ==> ex[i].limitAmount != 0.0 && r.raised[i] == AlertFor(ex[i]))
    ensures r.LimitsChecked? ==> r.store == s.(alerts := r.store.alerts)
    ensures r.LimitsChecked? ==> AlertsAppended(s.alerts, r.store.alerts, r.raised, today)
  {
    var rows := LimitStatuses(s.categories, s.limits, s.transactions, month);
    var r := RecordAlerts(s, rows, today);
    assert r.LimitCheckFailed? <==> SomeZeroLimitOverrun(rows);
    assert r.LimitsChecked? ==> AlertsAppended(s.alerts, r.store.alerts, r.raised, today);
    r
  }

  /** Every limit of an expense category that the month's spending exceeds
      raises an alert naming the category, with the overage percentage of
      that limit. */
  lemma AlertsMatchExceededLimits(s: Store, month: string, today: string, c: Category, l: CategoryLimit)
    requires c in s.categories && c.kind == ExpenseType && l in s.limits && l.categoryId == c.id
    requires CheckCategoryLimits(s, month, today).LimitsChecked?
    ensures var row := LimitStatus(c.name, l.limitAmount, Spent(s.transactions, c.id, month));
            Exceeded(row) ==> row.limitAmount != 0.0 && AlertFor(row) in CheckCategoryLimits(s, month, today).raised
  {
    var rows := LimitStatuses(s.categories, s.limits, s.transactions, month);
    var row := LimitStatus(c.name, l.limitAmount, Spent(s.transactions, c.id, month));
    assert row in rows;
    if Exceeded(row) {
      ExceededRowAlerted(s, rows, today, row);
    }
  }

  lemma ExceededRowAlerted(s: Store, rows: seq<LimitStatus>, today: string, row: LimitStatus)
    requires row in rows && Exceeded(row)
    requires RecordAlerts(s, rows, today).LimitsChecked?
    ensures row.limitAmount != 0.0 && AlertFor(row) in RecordAlerts(s, rows, today).raised
  {
    var ex := Filter(rows, Exceeded);
    assert row in ex;
    var i :| 0 <= i < |ex| && ex[i] == row;
    assert RecordAlerts(s, rows, today).raised[i] == AlertFor(row);
  }

  /** Conversely, every alert raised names an expense category with a limit
      that the month's spending exceeds, and a positive limit gives a
      positive percentage. */
  lemma RaisedAlertsAreExceeded(s: Store, month: string, today: string, a: AlertMessage)
    requires CheckCategoryLimits(s, month, today).LimitsChecked?
    requires a in CheckCategoryLimits(s, month, today).raised
    ensures exists c, l :: c in s.categories && c.kind == ExpenseType && l in s.limits && l.categoryId == c.id
              && c.name == a.category
              && var spent := Spent(s.transactions, c.id, month);
                 spent.Some? && spent.value != 0.0 && spent.value > l.limitAmount
                 && (l.limitAmount > 0.0 ==> a.percent > 0.0)
  {
    var rows := LimitStatuses(s.categories, s.limits, s.transactions, month);
    var ex := Filter(rows, Exceeded);
    var raised := CheckCategoryLimits(s, month, today).raised;
    var i :| 0 <= i < |raised| && raised[i] == a;
    var row := ex[i];
    assert row in rows && Exceeded(row);
    assert a == AlertFor(row);
  }

  // ---------------------------------------------------------------------------
  // Investment suggestions
  // ---------------------------------------------------------------------------

  function RiskOf(x: Investment): string { x.riskLevel }

  /** An investment whose minimum the balance covers (`min_investment <= ?`). */
  predicate Affordable(balance: real, x: Investment)
  {
    x.minInvestment <= balance
  }

  /** The investments whose minimum fits the balance, each as often as it is
      stored, ordered by risk level text. */
  function InvestmentSuggestions(invs: seq<Investment>, balance: real): (r: seq<Investment>)
    ensures multiset(r) == multiset(Filter(invs, x => Affordable(balance, x)))
    ensures forall x :: x in r <==> x in invs && x.minInvestment <= balance
    ensures SortedByText(r, RiskOf)
    ensures |r| <= |invs|
  {
    var affordable := Filter(invs, x => Affordable(balance, x));
    var sorted := SortByText(affordable, RiskOf);
    assert forall x :: x in sorted <==> x in multiset(affordable);
    sorted
  }

  // ---------------------------------------------------------------------------
  // The financial situation
  // ---------------------------------------------------------------------------

  /** Position of a status from best to worst. */
  function Severity(st: Status): nat
  {
    match st
    case Good => 0
    case Fair => 1
    case Attention => 2
    case Bad => 3
    case Critical => 4
  }

  /** The first test that holds, in the order: no income, expenses above
      income, above 90%, above 70%; otherwise good. */
  function Classify(income: real, expenses: real): (st: Status)
    ensures st == Critical <==> income == 0.0
    ensures st == Bad <==> income != 0.0 && expenses > income
    ensures st == Attention <==> income != 0.0 && expenses <= income && expenses > income * 0.9
    ensures st == Fair <==> income != 0.0 && expenses <= income && expenses <= income * 0.9 && expenses > income * 0.7
    ensures st == Good <==> income != 0.0 && expenses <= income && expenses <= income * 0.9 && expenses <= income * 0.7
  {
    if income == 0.0 then Critical
    else if expenses > income then Bad
    else if expenses > income * 0.9 then Attention
    else if expenses > income * 0.7 then Fair
    else Good
  }

  /** With a positive income, spending more never improves the status. */
  lemma {:induction false} ClassifyMonotone(income: real, e1: real, e2: real)
    requires income > 0.0 && e1 <= e2
    ensures Severity(Classify(income, e1)) <= Severity(Classify(income, e2))
  {
  }

  /** Each recommendation is added by its own test, in a fixed order. */
  function Recommendations(income: real, expenses: real, balance: real): (recs: seq<Recommendation>)
    ensures ReviewSpending in recs <==> expenses > income * 0.5
    ensures BuildReserve in recs <==> balance < income * 3.0
    ensures InvestSurplus in recs <==> balance > income * 6.0
    ensures forall i, j :: 0 <= i < j < |recs| ==> recs[i] != recs[j]
  {
    (if expenses > income * 0.5 then [ReviewSpending] else [])
    + (if balance < income * 3.0 then [BuildReserve] else [])
    + (if balance > income * 6.0 then [InvestSurplus] else [])
  }

  /** With a non-negative income, the reserve and invest advice exclude each
      other. */
  lemma ReserveAndInvestExclusive(income: real, expenses: real, balance: real)
    requires income >= 0.0
    ensures !(BuildReserve in Recommendations(income, expenses, balance)
              && InvestSurplus in Recommendations(income, expenses, balance))
  {
  }

  /** `analyze_financial_situation`. */
  function AnalyzeSituation(income: real, expenses: real, balance: real): (a: SituationAnalysis)
    ensures a.status == Classify(income, expenses)
    ensures a.recommendations == Recommendations(income, expenses, balance)
  {
    SituationAnalysis(Classify(income, expenses), Recommendations(income, expenses, balance))
  }
}

=== FILE: expense_cuts_view.dfy ===
/** The state logic of frontend/src/components/ExpenseCutsAnalyzer.js: the
    savings-target field, its default and preset values, the guard before a
    plan is requested, and what the two requests do to the page. The target
    field holds text; here it is kept as the number it parses to, and the
    two-decimal rounding of `toFixed(2)` is not modelled. */
module ExpenseCutsView {
  import opened Common

  /** The target field: empty, or text that parses to a number or not
      (`parseFloat` gives NaN). */
  datatype Target = Empty | Typed(value: Option<real>)

  /** The analysis summary's monthly expenses; None when the key is absent. */
  datatype Summary = Summary(totalMonthlyExpenses: Option<real>)

  /** The response of `/api/expense-analysis`; its summary may be absent. */
  datatype Analysis = Analysis(summary: Option<Summary>)

  /** The plan of `/api/finance-agent/expense-cuts`, with absent numbers as None. */
  datatype Plan = Plan(achievable: bool, estimatedSavings: Option<real>, percentOfExpenses: Option<real>)

  datatype Failure = AnalysisFailed | PlanFailed

  datatype Page = Page(
    loading: bool, error: Option<Failure>, analysis: Option<Analysis>,
    target: Target, plan: Option<Plan>, generating: bool)

  const Initial := Page(true, None, None, Empty, None, false)

  /** The guard of `fetchSavingsPlan`: a plan is requested only for a
      non-empty target that parses to a positive number. */
  predicate CanRequestPlan(t: Target)
  {
    t.Typed? && t.value.Some? && t.value.value > 0.0
  }

  /** Submitting the form: the guard, then the request starts; None when
      nothing is requested and the page stays as it was. */
  function SubmitTarget(p: Page): (r: Option<Page>)
    ensures r.None? <==> !CanRequestPlan(p.target)
    ensures r.Some? ==> r.value == p.(generating := true, error := None)
    ensures r.Some? ==> r.value.target == p.target && r.value.plan == p.plan
  {
    if !CanRequestPlan(p.target) then None
    else Some(p.(generating := true, error := None))
  }

  /** The amount sent with the request. */
  function RequestedTarget(t: Target): (amount: real)
    requires CanRequestPlan(t)
    ensures amount > 0.0 && t == Typed(Some(amount))
  {
    t.value.value
  }

  /** The plan request's outcome (None when it failed): a plan replaces the
      old one; a failure records the error and drops the plan. Either way the
      request is over. */
  function PlanArrived(p: Page, response: Option<Plan>): (r: Page)
    ensures !r.generating
    ensures response.Some? ==> r.plan == response && r.error == p.error
    ensures response.None? ==> r.plan.None? && r.error == Some(PlanFailed)
    ensures r.analysis == p.analysis && r.target == p.target && r.loading == p.loading
  {
    match response
    case Some(plan) => p.(plan := Some(plan), generating := false)
    case None => p.(plan := None, error := Some(PlanFailed), generating := false)
  }

  /** A JavaScript number's truthiness: 0 and NaN are false. */
  predicate Truthy(x: Option<real>) { x.Some? && x.value != 0.0 }

  /** The start of `fetchExpenseAnalysis`, also the retry button's action:
      only the loading flag and the error change. */
  function StartAnalysis(p: Page): (r: Page)
    ensures r.loading && r.error.None?
    ensures r == p.(loading := true, error := None)
  {
    p.(loading := true, error := None)
  }

  function MonthlyExpenses(a: Analysis): Option<real>
  {
    if a.summary.Some? then a.summary.value.totalMonthlyExpenses else None
  }

  /** The analysis request's outcome (None when it failed). A response
      replaces the analysis and, when its monthly expenses are truthy, sets
      the target to 15% of them; a failure records the error. */
  function AnalysisArrived(p: Page, response: Option<Analysis>): (r: Page)
    ensures !r.loading
    ensures r.plan == p.plan && r.generating == p.generating
    ensures response.None? ==> r == p.(loading := false, error := Some(AnalysisFailed))
    ensures response.Some? ==> r.analysis == response && r.error == p.error
    ensures response.Some? && Truthy(MonthlyExpenses(response.value)) ==>
              r.target == Typed(Some(MonthlyExpenses(response.value).value * 0.15))
    ensures response.Some? && !Truthy(MonthlyExpenses(response.value)) ==> r.target == p.target
  {
    match response
    case None => p.(loading := false, error := Some(AnalysisFailed))
    case Some(a) =>
      var total := MonthlyExpenses(a);
      var target := if Truthy(total) then Typed(Some(total.value * 0.15)) else p.target;
      p.(analysis := Some(a), target := target, loading := false)
  }

  /** The default target can be submitted exactly when the monthly expenses
      are positive; a negative total sets a default the guard refuses. */
  lemma DefaultTargetSubmittable(p: Page, a: Analysis)
    requires Truthy(MonthlyExpenses(a))
    ensures CanRequestPlan(AnalysisArrived(p, Some(a)).target) <==> MonthlyExpenses(a).value > 0.0
  {
  }

  /** The three preset buttons: 10, 20 and 30%. */
  datatype Preset = Economical | Moderate | Ambitious

  function PresetShare(pr: Preset): (share: real)
    ensures share in {0.1, 0.2, 0.3}
  {
    match pr
    case Economical => 0.1
    case Moderate => 0.2
    case Ambitious => 0.3
  }

  /** The presets are shown only with a summary; pressing one sets the target
      to its share of the monthly expenses, NaN when they are absent. */
  function PressPreset(p: Page, pr: Preset): (r: Option<Page>)
    ensures r.None? <==> p.analysis.None? || p.analysis.value.summary.None?
    ensures r.Some? ==> r.value == p.(target := r.value.target)
    ensures r.Some? ==>
              var total := p.analysis.value.summary.value.totalMonthlyExpenses;
              (total.None? ==> r.value.target == Typed(None))
              && (total.Some? ==> r.value.target == Typed(Some(total.value * PresetShare(pr))))
  {
    if p.analysis.None? || p.analysis.value.summary.None? then None
    else
      var total := p.analysis.value.summary.value.totalMonthlyExpenses;
      var target := if total.None? then Typed(None) else Typed(Some(total.value * PresetShare(pr)));
      Some(p.(target := target))
  }

  /** A preset can be submitted exactly when the monthly expenses are
      present and positive. */
  lemma PresetSubmittable(p: Page, pr: Preset)
    requires PressPreset(p, pr).Some?
    ensures var total := p.analysis.value.summary.value.totalMonthlyExpenses;
            CanRequestPlan(PressPreset(p, pr).value.target) <==> total.Some? && total.value > 0.0
  {
    var total := p.analysis.value.summary.value.totalMonthlyExpenses;
    if total.Some? {
      var share := PresetShare(pr);
      assert total.value * share > 0.0 <==> total.value > 0.0 by {
        if total.value > 0.0 { assert total.value * share > 0.0; }
        else { assert total.value * share <= 0.0; }
      }
    }
  }

  /** The status badge of a plan. */
  datatype PlanStatus = Achievable | Challenging

  /** The figures the plan section shows: the badge from `achievable` alone,
      and an absent estimate or percentage shown as 0. */
  datatype PlanFigures = PlanFigures(status: PlanStatus, savings: real, percent: real)

  function Figures(plan: Plan): (f: PlanFigures)
    ensures f.status == Achievable <==> plan.achievable
    ensures plan.estimatedSavings.Some? && plan.estimatedSavings.value != 0.0 ==> f.savings == plan.estimatedSavings.value
    ensures !Truthy(plan.estimatedSavings) ==> f.savings == 0.0
    ensures !Truthy(plan.percentOfExpenses) ==> f.percent == 0.0
    ensures Truthy(plan.percentOfExpenses) ==> f.percent == plan.percentOfExpenses.value
  {
    PlanFigures(if plan.achievable then Achievable else Challenging,
                if Truthy(plan.estimatedSavings) then plan.estimatedSavings.value else 0.0,
                if Truthy(plan.percentOfExpenses) then plan.percentOfExpenses.value else 0.0)
  }

  /** The badge ignores the numbers: it reads the flag alone, so plans with
      the same flag show the same status whatever their figures. */
  lemma StatusIgnoresNumbers(a: Plan, b: Plan)
    ensures Figures(a).status == (if a.achievable then Achievable else Challenging)
    ensures a.achievable == b.achievable ==> Figures(a).status == Figures(b).status
  {
  }

  /** The whole page is replaced by the loading view only while loading with
      no analysis yet; a reload with an analysis keeps the page. */
  predicate FullPageLoading(p: Page) { p.loading && p.analysis.None? }

  /** Retrying after a failure re-fetches only the analysis: the target and
      the plan survive it, and the full-page loading view shows only when
      there was no analysis. */
  lemma RetryKeepsPlan(p: Page, response: Option<Analysis>)
    ensures var r := AnalysisArrived(StartAnalysis(p), response);
            r.plan == p.plan && r.generating == p.generating
            && (response.Some? && !Truthy(MonthlyExpenses(response.value)) ==> r.target == p.target)
            && (response.None? ==> r.target == p.target && r.analysis == p.analysis)
    ensures FullPageLoading(StartAnalysis(p)) <==> p.analysis.None?
  {
  }
}

=== FILE: finance_agent.dfy ===
/** The keyword rules of the financial assistant in backend/finance_agent.py:
    the intent detected in a query (question, action, sentiment), the choice
    of the offline fallback reply, and the personalised suggestions. The
    random choices are parameters; the preference file, logging and the
    language-model client are not modelled. */
module FinanceAgent {
  import opened Common

  const QuestionWords: seq<string> := ["como", "qual", "quanto", "onde", "quando", "por que"]

  datatype Action = Show | Analyze | Compare | Add | Create | Help | Need

  /** The action keywords in the order they are tried. */
  const ActionKeywords: seq<(string, Action)> := [
    ("mostrar", Show), ("exibir", Show), ("analisar", Analyze), ("comparar", Compare),
    ("adicionar", Add), ("criar", Create), ("ajuda", Help), ("preciso", Need)
  ]

  datatype Sentiment = Positive | Negative | Confused | Neutral

  /** The sentiment classes in the order they are tried, with their words. */
  const SentimentWords: seq<seq<string>> := [
    ["feliz", "satisfeito", "ótimo", "excelente", "gosto", "animado"],
    ["triste", "frustrado", "difícil", "preocupado", "problema", "dívida", "não consigo"],
    ["confuso", "dúvida", "não entendo", "complicado", "como assim"]
  ]

  function SentimentAt(i: nat): Sentiment
  {
    if i == 0 then Positive else if i == 1 then Negative else Confused
  }

  /** Each action keyword as a group of its own, for ordered dispatch. */
  function ActionGroups(): (gs: seq<seq<string>>)
    ensures |gs| == |ActionKeywords|
    ensures forall k :: 0 <= k < |gs| ==> gs[k] == [ActionKeywords[k].0]
  {
    seq(|ActionKeywords|, k requires 0 <= k < |ActionKeywords| => [ActionKeywords[k].0])
  }

  lemma ContainedAlone(text: string, w: string)
    ensures AnyContained(text, [w]) <==> Contains(text, w)
  {
    if Contains(text, w) {
      assert [w][0] == w;
    }
  }

  /** The detected intent; the source's `topic` is never set and is left out. */
  datatype Intent = Intent(action: Option<Action>, sentiment: Sentiment, isQuestion: bool)

  /** The first action in table order whose keyword the text contains. */
  function ActionOf(text: string): (a: Option<Action>)
    ensures a.None? <==> forall k :: 0 <= k < |ActionKeywords| ==> !Contains(text, ActionKeywords[k].0)
    ensures a.Some? ==>
              exists k :: 0 <= k < |ActionKeywords|
                && Contains(text, ActionKeywords[k].0)
                && a.value == ActionKeywords[k].1
                && forall j :: 0 <= j < k ==> !Contains(text, ActionKeywords[j].0)
  {
    var gs := ActionGroups();
    forall k | 0 <= k < |gs|
      ensures AnyContained(text, gs[k]) <==> Contains(text, ActionKeywords[k].0)
    {
      ContainedAlone(text, ActionKeywords[k].0);
    }
    var g := FirstGroup(text, gs);
    if g.None? then None else Some(ActionKeywords[g.value].1)
  }

  /** The first sentiment class with a word in the text, else neutral. */
  function SentimentOf(text: string): (s: Sentiment)
    ensures s == Neutral <==> forall k :: 0 <= k < |SentimentWords| ==> !AnyContained(text, SentimentWords[k])
    ensures s != Neutral ==>
              exists k :: 0 <= k < |SentimentWords|
                && AnyContained(text, SentimentWords[k])
                && s == SentimentAt(k)
                && forall j :: 0 <= j < k ==> !AnyContained(text, SentimentWords[j])
  {
    var g := FirstGroup(text, SentimentWords);
    if g.None? then Neutral else SentimentAt(g.value)
  }

  /** `detect_user_intent`: the question test looks for '?' in the query
      itself and for the question words in its lowered text; the action and
      the sentiment are read from the lowered text. */
  function DetectIntent(query: string): (intent: Intent)
    ensures intent.isQuestion <==> Contains(query, "?") || AnyContained(Lower(query), QuestionWords)
    ensures intent.action == ActionOf(Lower(query))
    ensures intent.sentiment == SentimentOf(Lower(query))
  {
    var text := Lower(query);
    Intent(ActionOf(text), SentimentOf(text), Contains(query, "?") || AnyContained(text, QuestionWords))
  }

  /** A query containing "mostrar" asks to show, whatever other action
      words it has and wherever they stand: the table order decides, not the
      order of the words in the query. */
  lemma TableOrderDecidesAction(query: string)
    requires Contains(Lower(query), "mostrar")
    ensures DetectIntent(query).action == Some(Show)
  {
    FirstActionWins(Lower(query), 0);
  }

  /** "preciso mostrar" asks to show, though "preciso" comes first. */
  lemma TableOrderDecidesActionExample()
    ensures DetectIntent("preciso mostrar").action == Some(Show)
  {
    var q := "preciso mostrar";
    LowerPlain();
    assert OccursAt(q, ActionKeywords[0].0, 8);
    TableOrderDecidesAction(q);
  }

  /** A text containing the `k`-th keyword gets that keyword's action or
      an earlier one's. */
  lemma FirstActionWins(text: string, k: nat)
    requires k < |ActionKeywords| && Contains(text, ActionKeywords[k].0)
    ensures ActionOf(text).Some?
    ensures exists i :: 0 <= i <= k && ActionOf(text).value == ActionKeywords[i].1
  {
    var a := ActionOf(text);
    var i :| 0 <= i < |ActionKeywords|
      && Contains(text, ActionKeywords[i].0)
      && a.value == ActionKeywords[i].1
      && forall j :: 0 <= j < i ==> !Contains(text, ActionKeywords[j].0);
    assert i <= k;
  }

  lemma LowerPlain()
    ensures Lower("preciso mostrar") == "preciso mostrar"
  {
  }

  /** The keywords of the offline reply, in the order they are tried. */
  const FallbackKeywords: seq<seq<string>> := [["investi"], ["economi"], ["orçamento"], ["gasto"], ["dívida"]]

  const GenericReplyCount: nat := 5

  /** Topics with a follow-up tip in the offline reply. */
  const TippedTopics: seq<string> := [
    "orçamento pessoal", "análise de gastos", "investimentos", "poupança", "economia", "dívidas"
  ]

  /** The offline reply: the keyword's canned answer, a generic reply with a
      tip on a recent topic, or a generic reply alone. */
  datatype FallbackReply =
    | KeywordReply(keyword: nat)
    | TopicTipReply(generic: nat, topic: string)
    | GenericReply(generic: nat)

  /** The topics looked at: the last two in iteration order, or the only one. */
  function LastTopics(topics: seq<string>): (r: seq<string>)
    ensures |topics| > 1 ==> r == topics[|topics| - 2..]
    ensures |topics| <= 1 ==> r == topics
  {
    if |topics| > 1 then topics[|topics| - 2..] else topics
  }

  /** The first of `topics` that has a tip. */
  function FirstTipped(topics: seq<string>): (r: Option<string>)
    ensures r.None? <==> forall i :: 0 <= i < |topics| ==> topics[i] !in TippedTopics
    ensures r.Some? ==> r.value in TippedTopics
    ensures r.Some? ==>
              exists i :: 0 <= i < |topics| && topics[i] == r.value
                && forall j :: 0 <= j < i ==> topics[j] !in TippedTopics
  {
    if |topics| == 0 then None
    else if topics[0] in TippedTopics then Some(topics[0])
    else
      var r := FirstTipped(topics[1..]);
      assert forall j :: 0 <= j < |topics| - 1 ==> topics[1..][j] == topics[j + 1];
      r
  }

  /** `_get_fallback_response` for the conversation's topics (in iteration
      order) and the random pick `pick` among the generic replies. */
  function FallbackResponse(query: string, topics: seq<string>, pick: nat): (r: FallbackReply)
    requires pick < GenericReplyCount
    ensures r.KeywordReply? <==> exists k :: 0 <= k < |FallbackKeywords| && AnyContained(Lower(query), FallbackKeywords[k])
    ensures r.KeywordReply? ==>
              r.keyword < |FallbackKeywords|
              && AnyContained(Lower(query), FallbackKeywords[r.keyword])
              && forall j :: 0 <= j < r.keyword ==> !AnyContained(Lower(query), FallbackKeywords[j])
    ensures r.TopicTipReply? ==> r.generic == pick && r.topic in TippedTopics && r.topic in LastTopics(topics)
    ensures r.TopicTipReply? ==> FirstTipped(LastTopics(topics)) == Some(r.topic)
    ensures r.GenericReply? <==>
              !r.KeywordReply? && forall t :: t in LastTopics(topics) ==> t !in TippedTopics
    ensures r.GenericReply? ==> r.generic == pick
  {
    var k := FirstGroup(Lower(query), FallbackKeywords);
    if k.Some? then KeywordReply(k.value)
    else
      var tip := FirstTipped(LastTopics(topics));
      if tip.Some? then TopicTipReply(pick, tip.value) else GenericReply(pick)
  }

  /** "economizar ou investir" gets the investment answer: "investi" is
      tried before "economi", whatever the order in the query. */
  lemma InvestmentKeywordFirst(topics: seq<string>, pick: nat)
    requires pick < GenericReplyCount
    ensures FallbackResponse("economizar ou investir", topics, pick) == KeywordReply(0)
  {
    var q := "economizar ou investir";
    assert Lower(q) == q;
    assert OccursAt(q, "investi", 14);
    assert FallbackKeywords[0][0] == "investi";
    assert AnyContained(Lower(q), FallbackKeywords[0]);
  }

  const BasicSuggestions: seq<string> := [
    "Como posso economizar mais este mês?",
    "Dicas para investimentos iniciantes",
    "Analisar meus gastos recentes",
    "Como criar um orçamento eficiente?",
    "Devo começar a investir em ações?"
  ]

  /** The two follow-up questions of a topic, none for other topics. */
  function TopicSuggestions(topic: string): (r: seq<string>)
    ensures |r| == 0 || |r| == 2
  {
    if topic == "orçamento pessoal" then
      ["Como automatizar meu orçamento?", "Métodos para acompanhar despesas diárias"]
    else if topic == "investimentos" then
      ["Qual a diferença entre CDB e Tesouro Direto?", "Como montar uma carteira diversificada?"]
    else if topic == "economia" then
      ["Estratégias para economizar nas compras do mês", "Como negociar dívidas com melhores condições?"]
    else if topic == "metas financeiras" then
      ["Planejamento para compra de imóvel", "Como guardar dinheiro para aposentadoria?"]
    else []
  }

  /** Some topic offers `s` as a follow-up. */
  ghost predicate IsTopicSuggestion(s: string)
  {
    exists t :: s in TopicSuggestions(t)
  }

  /** The random draws for one topic: whether the 70% chance came up, and
      which of the two follow-ups was chosen. */
  datatype Draw = Draw(taken: bool, pick: nat)

  /** The draw for `topic` came up: the topic has follow-ups and the 70%
      chance was taken. */
  predicate Taken(topic: string, d: Draw)
  {
    |TopicSuggestions(topic)| > 0 && d.taken && d.pick < 2
  }

  /** The follow-up a taken draw chose. */
  function DrawnOf(topic: string, d: Draw): (s: string)
    requires Taken(topic, d)
    ensures s in TopicSuggestions(topic)
  {
    TopicSuggestions(topic)[d.pick]
  }

  /** One topic's turn: the drawn follow-up is appended when the chance came
      up and it is not in the list yet; otherwise the list is unchanged. */
  function TopicStep(acc: seq<string>, topic: string, d: Draw): (r: seq<string>)
    requires d.pick < 2
    ensures r == acc || (|r| == |acc| + 1 && r[..|acc|] == acc && r[|acc|] !in acc && IsTopicSuggestion(r[|acc|]))
    ensures Distinct(acc) ==> Distinct(r)
    ensures Taken(topic, d) && DrawnOf(topic, d) !in acc ==> r == acc + [DrawnOf(topic, d)]
    ensures !(Taken(topic, d) && DrawnOf(topic, d) !in acc) ==> r == acc
    ensures Taken(topic, d) ==> DrawnOf(topic, d) in r
  {
    var opts := TopicSuggestions(topic);
    if |opts| > 0 && d.taken && opts[d.pick] !in acc then
      var x := opts[d.pick];
      assert x in TopicSuggestions(topic);
      assert (acc + [x])[..|acc|] == acc;
      acc + [x]
    else acc
  }

  /** Some taken draw among the first `|topics|` chose `s`. */
  predicate DrawnSome(topics: seq<string>, draws: seq<Draw>, s: string)
    requires |draws| == |topics|
  {
    exists i :: 0 <= i < |topics| && Taken(topics[i], draws[i]) && s == DrawnOf(topics[i], draws[i])
  }

  /** Every taken draw's follow-up is in `xs`. */
  predicate AllDrawsIn(topics: seq<string>, draws: seq<Draw>, xs: seq<string>)
    requires |draws| == |topics|
  {
    forall i :: 0 <= i < |topics| && Taken(topics[i], draws[i]) ==> DrawnOf(topics[i], draws[i]) in xs
  }

  /** From position `from` on, every element of `xs` is a taken draw's
      follow-up. */
  predicate OnlyDrawsFrom(topics: seq<string>, draws: seq<Draw>, xs: seq<string>, from: nat)
    requires |draws| == |topics|
  {
    forall k :: from <= k < |xs| ==> DrawnSome(topics, draws, xs[k])
  }

  /** The loop over the conversation's topics: without topics nothing is
      added; otherwise every taken draw's follow-up ends up in the list, and
      every suggestion added is the follow-up of a taken draw. */
  function AddTopicSuggestions(acc: seq<string>, topics: seq<string>, draws: seq<Draw>): (r: seq<string>)
    requires |draws| == |topics|
    requires forall i :: 0 <= i < |draws| ==> draws[i].pick < 2
    ensures |acc| <= |r| <= |acc| + |topics| && r[..|acc|] == acc
    ensures Distinct(acc) ==> Distinct(r)
    ensures forall i :: |acc| <= i < |r| ==> IsTopicSuggestion(r[i])
    ensures |topics| == 0 ==> r == acc
    ensures AllDrawsIn(topics, draws, r)
    ensures OnlyDrawsFrom(topics, draws, r, |acc|)
    decreases |topics|
  {
    if |topics| == 0 then acc
    else
      var acc' := TopicStep(acc, topics[0], draws[0]);
      var r := AddTopicSuggestions(acc', topics[1..], draws[1..]);
      KeepsTopicSuggestions(acc, acc', r);
      DrawsReachResult(acc, topics, draws, acc', r);
      r
  }

  /** The draw facts of one step and of the rest of the loop combine into
      those of the whole loop. */
  lemma DrawsReachResult(acc: seq<string>, topics: seq<string>, draws: seq<Draw>, acc': seq<string>, r: seq<string>)
    requires |draws| == |topics| > 0 && draws[0].pick < 2
    requires acc' == TopicStep(acc, topics[0], draws[0])
    requires |acc'| <= |r| && r[..|acc'|] == acc'
    requires AllDrawsIn(topics[1..], draws[1..], r)
    requires OnlyDrawsFrom(topics[1..], draws[1..], r, |acc'|)
    ensures AllDrawsIn(topics, draws, r)
    ensures OnlyDrawsFrom(topics, draws, r, |acc|)
  {
    var ts, ds := topics[1..], draws[1..];
    forall i | 0 <= i < |topics| && Taken(topics[i], draws[i])
      ensures DrawnOf(topics[i], draws[i]) in r
    {
      if i == 0 {
        var x := DrawnOf(topics[0], draws[0]);
        assert x in acc';
        var j :| 0 <= j < |acc'| && acc'[j] == x;
        assert r[..|acc'|][j] == x;
      } else {
        assert ts[i - 1] == topics[i] && ds[i - 1] == draws[i];
      }
    }
    forall k | |acc| <= k < |r|
      ensures DrawnSome(topics, draws, r[k])
    {
      if k < |acc'| {
        assert Taken(topics[0], draws[0]) && acc' == acc + [DrawnOf(topics[0], draws[0])];
        assert r[k] == r[..|acc'|][k] == DrawnOf(topics[0], draws[0]);
      } else {
        assert DrawnSome(ts, ds, r[k]);
        var i :| 0 <= i < |ts| && Taken(ts[i], ds[i]) && r[k] == DrawnOf(ts[i], ds[i]);
        assert ts[i] == topics[i + 1] && ds[i] == draws[i + 1];
      }
    }
  }

  /** What one step appended stays in place, behind the list it started
      from, when later steps append more follow-ups. */
  lemma KeepsTopicSuggestions(acc: seq<string>, acc': seq<string>, r: seq<string>)
    requires acc' == acc || (|acc'| == |acc| + 1 && acc'[..|acc|] == acc && IsTopicSuggestion(acc'[|acc|]))
    requires |acc'| <= |r| && r[..|acc'|] == acc'
    requires forall i :: |acc'| <= i < |r| ==> IsTopicSuggestion(r[i])
    ensures r[..|acc|] == acc
    ensures forall i :: |acc| <= i < |r| ==> IsTopicSuggestion(r[i])
  {
    assert r[..|acc|] == r[..|acc'|][..|acc|];
    forall i | |acc| <= i < |r|
      ensures IsTopicSuggestion(r[i])
    {
      if i < |acc'| {
        assert i == |acc| && r[i] == acc'[|acc|];
      }
    }
  }

  /** The basic suggestions have distinct lengths, so no two are equal. */
  lemma BasicSuggestionsDiffer(p0: nat, p1: nat)
    requires p0 < |BasicSuggestions| && p1 < |BasicSuggestions| && p0 != p1
    ensures BasicSuggestions[p0] != BasicSuggestions[p1]
  {
    assert |BasicSuggestions[p0]| != |BasicSuggestions[p1]|;
  }

  /** `get_personalized_suggestions`, where the shuffle put the basic
      suggestions at positions `p0` and `p1` first: those two, then the
      follow-ups of the taken draws, cut at five. Without topics the result
      is exactly the two basic suggestions. */
  function PersonalizedSuggestions(p0: nat, p1: nat, topics: seq<string>, draws: seq<Draw>): (r: seq<string>)
    requires p0 < |BasicSuggestions| && p1 < |BasicSuggestions| && p0 != p1
    requires |draws| == |topics|
    requires forall i :: 0 <= i < |draws| ==> draws[i].pick < 2
    ensures 2 <= |r| <= 5
    ensures r[0] == BasicSuggestions[p0] && r[1] == BasicSuggestions[p1]
    ensures Distinct(r)
    ensures forall i :: 2 <= i < |r| ==> IsTopicSuggestion(r[i])
    ensures |topics| == 0 ==> r == [BasicSuggestions[p0], BasicSuggestions[p1]]
    ensures |r| < 5 ==> AllDrawsIn(topics, draws, r)
    ensures OnlyDrawsFrom(topics, draws, r, 2)
  {
    BasicSuggestionsDiffer(p0, p1);
    FirstTwoThenTopics(BasicSuggestions[p0], BasicSuggestions[p1], topics, draws)
  }

  /** Two distinct opening suggestions, then the topics' follow-ups, at most
      five in all. */
  function FirstTwoThenTopics(first: string, second: string, topics: seq<string>, draws: seq<Draw>): (r: seq<string>)
    requires first != second
    requires |draws| == |topics|
    requires forall i :: 0 <= i < |draws| ==> draws[i].pick < 2
    ensures 2 <= |r| <= 5
    ensures r[0] == first && r[1] == second
    ensures Distinct(r)
    ensures forall i :: 2 <= i < |r| ==> IsTopicSuggestion(r[i])
    ensures |topics| == 0 ==> r == [first, second]
    ensures |r| < 5 ==> AllDrawsIn(topics, draws, r)
    ensures OnlyDrawsFrom(topics, draws, r, 2)
  {
    TakeKeepsShape(first, second, topics, draws);
    TakeKeepsDraws(first, second, topics, draws);
    TakeKeepsOnlyDraws(first, second, topics, draws);
    Take(AddTopicSuggestions([first, second], topics, draws), 5)
  }

  /** The first five of the loop's result open with the pair, have no
      repeats, and follow the pair with topic follow-ups only. */
  lemma TakeKeepsShape(first: string, second: string, topics: seq<string>, draws: seq<Draw>)
    requires first != second
    requires |draws| == |topics|
    requires forall i :: 0 <= i < |draws| ==> draws[i].pick < 2
    ensures var r := Take(AddTopicSuggestions([first, second], topics, draws), 5);
            && 2 <= |r| <= 5 && r[0] == first && r[1] == second
            && Distinct(r) && (forall i :: 2 <= i < |r| ==> IsTopicSuggestion(r[i]))
  {
    var all := AddTopicSuggestions([first, second], topics, draws);
    var r := Take(all, 5);
    assert all[..2] == [first, second];
    DistinctPrefix(all, |r|);
    forall k | 2 <= k < |r|
      ensures IsTopicSuggestion(r[k])
    {
      assert r[k] == all[k];
    }
  }

  /** Without topics the first five are the pair; with fewer than five,
      every taken draw's follow-up is among them. */
  lemma TakeKeepsDraws(first: string, second: string, topics: seq<string>, draws: seq<Draw>)
    requires |draws| == |topics|
    requires forall i :: 0 <= i < |draws| ==> draws[i].pick < 2
    ensures var r := Take(AddTopicSuggestions([first, second], topics, draws), 5);
            && (|topics| == 0 ==> r == [first, second])
            && (|r| < 5 ==> AllDrawsIn(topics, draws, r))
  {
    var all := AddTopicSuggestions([first, second], topics, draws);
    if |Take(all, 5)| < 5 {
      assert Take(all, 5) == all;
    }
  }

  /** After the pair, the first five hold only taken draws' follow-ups. */
  lemma TakeKeepsOnlyDraws(first: string, second: string, topics: seq<string>, draws: seq<Draw>)
    requires |draws| == |topics|
    requires forall i :: 0 <= i < |draws| ==> draws[i].pick < 2
    ensures OnlyDrawsFrom(topics, draws, Take(AddTopicSuggestions([first, second], topics, draws), 5), 2)
  {
    var all := AddTopicSuggestions([first, second], topics, draws);
    var r := Take(all, 5);
    forall k | 2 <= k < |r|
      ensures DrawnSome(topics, draws, r[k])
    {
      assert r[k] == all[k];
    }
  }
}

=== FILE: financial_analysis_view.dfy ===
/** The projections of frontend/src/components/FinancialAnalysis.js: the
    class of the situation status, and the two chart series built from the
    prediction endpoint's history and prediction. Chart styling is not
    modelled. */
module FinancialAnalysisView {
  import opened Common
  import Db
  import PredictionsView

  // ---------------------------------------------------------------------------
  // Status class
  // ---------------------------------------------------------------------------

  /** The lowercased statuses the switch knows, and their classes. */
  const StatusTexts: seq<string> := ["boa", "razoável", "atenção", "ruim", "crítica"]
  const StatusClasses: seq<string> := ["status-good", "status-fair", "status-warning", "status-bad", "status-critical"]

  /** The first known status equal to `t`. */
  function StatusIndex(t: string): (k: Option<nat>)
    ensures k.None? <==> t !in StatusTexts
    ensures k.Some? ==> k.value < |StatusTexts| && StatusTexts[k.value] == t
  {
    if t == StatusTexts[0] then Some(0)
    else if t == StatusTexts[1] then Some(1)
    else if t == StatusTexts[2] then Some(2)
    else if t == StatusTexts[3] then Some(3)
    else if t == StatusTexts[4] then Some(4)
    else None
  }

  /** `getStatusClass`: the class of the lowercased status, '' for any other
      text. */
  function StatusClass(status: string): (c: string)
    ensures Lower(status) !in StatusTexts <==> c == ""
    ensures Lower(status) in StatusTexts ==>
              exists k :: 0 <= k < |StatusTexts| && StatusTexts[k] == Lower(status) && c == StatusClasses[k]
  {
    var k := StatusIndex(Lower(status));
    if k.None? then "" else StatusClasses[k.value]
  }

  /** The position of a status of the analysis in the switch. */
  function StatusPosition(st: Db.Status): (k: nat)
    ensures k < |StatusTexts| && StatusTexts[k] == Db.StatusText(st)
  {
    match st
    case Good => 0
    case Fair => 1
    case Attention => 2
    case Bad => 3
    case Critical => 4
  }

  lemma StatusTextsLowered()
    ensures forall k :: 0 <= k < |StatusTexts| ==> Lower(StatusTexts[k]) == StatusTexts[k]
  {
    assert Lower("boa") == "boa";
    assert Lower("razoável") == "razoável";
    assert Lower("atenção") == "atenção";
    assert Lower("ruim") == "ruim";
    assert Lower("crítica") == "crítica";
  }

  /** Every status the backend reports gets its own class: none is left
      unstyled and no two share one. */
  lemma BackendStatusesStyled(st: Db.Status, other: Db.Status)
    ensures StatusClass(Db.StatusText(st)) == StatusClasses[StatusPosition(st)] != ""
    ensures st != other ==> StatusClass(Db.StatusText(st)) != StatusClass(Db.StatusText(other))
  {
    StatusTextsLowered();
    var k, j := StatusPosition(st), StatusPosition(other);
    ClassAt(k);
    ClassAt(j);
    if st != other {
      assert StatusClasses[k][7] != StatusClasses[j][7];
    }
  }

  lemma ClassAt(k: nat)
    requires k < |StatusTexts|
    ensures StatusClass(StatusTexts[k]) == StatusClasses[k]
    ensures |StatusClasses[k]| > 7 && StatusClasses[k][7] == "gfwbc"[k]
  {
    StatusTextsLowered();
    assert StatusIndex(StatusTexts[k]) == Some(k) by {
      assert forall j :: 0 <= j < k ==> |StatusTexts[j]| != |StatusTexts[k]| || StatusTexts[j][0] != StatusTexts[k][0];
    }
  }

  /** Letter case does not matter to the class. */
  lemma StatusClassIgnoresCase(status: string)
    ensures StatusClass(Lower(status)) == StatusClass(status)
  {
    forall i | 0 <= i < |status|
      ensures Lower(Lower(status))[i] == Lower(status)[i]
    {
      var c := status[i];
      assert LowerChar(LowerChar(c)) == LowerChar(c);
    }
    assert Lower(Lower(status)) == Lower(status);
  }

  // ---------------------------------------------------------------------------
  // Chart series
  // ---------------------------------------------------------------------------

  /** A month of the prediction endpoint's data: its month text ("" when
      absent) and its fields. */
  datatype Record = Record(month: string, fields: seq<(string, real)>)

  /** The total of a record, None (`undefined`) when the field is absent. */
  function TotalOf(r: Record): Option<real> { PredictionsView.Lookup(r.fields, PredictionsView.TotalKey) }

  /** A chart's labels and its two datasets, None standing for `null`. */
  datatype ExpenseChart = ExpenseChart(labels: seq<string>, historical: seq<Option<real>>, predicted: seq<Option<real>>)

  predicate NonEmpty(s: string) { s != "" }

  /** The month of every history record, then the prediction's month (JS
      `null`, dropped here, when there is no prediction). */
  function MonthsOf(history: seq<Record>, prediction: Option<Record>): (m: seq<string>)
    ensures |m| == |history| + (if prediction.Some? then 1 else 0)
    ensures forall i :: 0 <= i < |history| ==> m[i] == history[i].month
    ensures prediction.Some? ==> m[|history|] == prediction.value.month
  {
    seq(|history|, i requires 0 <= i < |history| => history[i].month)
    + (if prediction.Some? then [prediction.value.month] else [])
  }

  /** `prepareChartData`: null with neither history nor prediction; otherwise
      the non-empty month labels, the history's totals followed by a gap, and
      gaps followed by the prediction's total. */
  function ChartData(history: seq<Record>, prediction: Option<Record>): (c: Option<ExpenseChart>)
    ensures c.None? <==> |history| == 0 && prediction.None?
    ensures c.Some? ==> |c.value.historical| == |history| + 1 && |c.value.predicted| == |history| + 1
    ensures c.Some? ==>
              && (forall i :: 0 <= i < |history| ==> c.value.historical[i] == TotalOf(history[i]) && c.value.predicted[i].None?)
              && c.value.historical[|history|].None?
              && (c.value.predicted[|history|].Some? ==> prediction.Some?)
              && (prediction.Some? ==> c.value.predicted[|history|] == TotalOf(prediction.value))
    ensures c.Some? ==> c.value.labels == Filter(MonthsOf(history, prediction), NonEmpty)
    ensures c.Some? ==> forall l :: l in c.value.labels ==> l != ""
    ensures c.Some? ==> |c.value.labels| <= |history| + 1
  {
    if |history| == 0 && prediction.None? then None
    else
      var months := MonthsOf(history, prediction);
      var hist := seq(|history|, i requires 0 <= i < |history| => TotalOf(history[i]));
      var gaps := seq(|history|, i requires 0 <= i < |history| => None);
      Some(ExpenseChart(
        Filter(months, NonEmpty),
        hist + [None],
        gaps + [if prediction.Some? then TotalOf(prediction.value) else None]))
  }

  /** With every month named and a prediction present, the labels are the
      history's months followed by the prediction's month. */
  lemma LabelsComplete(history: seq<Record>, prediction: Record)
    requires forall i :: 0 <= i < |history| ==> history[i].month != ""
    requires prediction.month != ""
    ensures ChartData(history, Some(prediction)).value.labels ==
              seq(|history|, i requires 0 <= i < |history| => history[i].month) + [prediction.month]
  {
    var months := seq(|history|, i requires 0 <= i < |history| => history[i].month) + [prediction.month];
    FilterKeepsAll(months);
  }

  lemma {:induction false} FilterKeepsAll(s: seq<string>)
    requires forall i :: 0 <= i < |s| ==> s[i] != ""
    ensures Filter(s, NonEmpty) == s
    decreases |s|
  {
    if |s| > 0 {
      FilterKeepsAll(s[1..]);
      assert s == [s[0]] + s[1..];
    }
  }

  /** The category chart: one label and one value per category. */
  datatype CategoryChart = CategoryChart(month: string, labels: seq<string>, values: seq<real>)

  /** `prepareCategoryChartData` as written: the labels come from every key
      ending in `_expense` with its first `_expense` removed, and each value
      is looked up again under the label plus `_expense`, 0 when absent. */
  function CategoryChartDataAsWritten(prediction: Option<Record>): (c: Option<CategoryChart>)
    ensures c.None? <==>
              prediction.None? || prediction.value.month == ""
              || |Filter(prediction.value.fields, PredictionsView.IsExpenseKey)| == 0
    ensures c.Some? ==>
              var fields := prediction.value.fields;
              var keys := Filter(fields, PredictionsView.IsExpenseKey);
              && c.value.month == prediction.value.month
              && |c.value.labels| == |c.value.values| == |keys|
              && forall i :: 0 <= i < |keys| ==>
                   && c.value.labels[i] == ReplaceFirst(keys[i].0, PredictionsView.ExpenseSuffix, "")
                   && c.value.values[i]
                      == PredictionsView.Lookup(fields, c.value.labels[i] + PredictionsView.ExpenseSuffix).GetOr(0.0)
  {
    if prediction.None? || prediction.value.month == "" then None
    else
      var labels := PredictionsView.CategoryNamesAsWritten(prediction.value.fields);
      if |labels| == 0 then None
      else
        Some(CategoryChart(prediction.value.month, labels,
          seq(|labels|, i requires 0 <= i < |labels| =>
            PredictionsView.Lookup(prediction.value.fields, labels[i] + PredictionsView.ExpenseSuffix).GetOr(0.0))))
  }

  /** Keys are unique, as in a JavaScript object. */
  predicate UniqueKeys(fields: seq<(string, real)>)
  {
    forall i, j :: 0 <= i < j < |fields| ==> fields[i].0 != fields[j].0
  }

  lemma LookupUnique(fields: seq<(string, real)>, i: nat)
    requires UniqueKeys(fields) && i < |fields|
    ensures PredictionsView.Lookup(fields, fields[i].0) == Some(fields[i].1)
  {
    var r := PredictionsView.Lookup(fields, fields[i].0);
    var k :| 0 <= k < |fields| && fields[k] == (fields[i].0, r.value);
    assert k == i;
  }

  /** The category chart: null without a prediction, without its month or
      without a category key; otherwise one bar per category key (the total
      left out), each with that key's value. */
  function CategoryChartData(prediction: Option<Record>): (c: Option<CategoryChart>)
    requires prediction.Some? ==> UniqueKeys(prediction.value.fields)
    ensures c.None? <==>
              prediction.None? || prediction.value.month == ""
              || |Filter(prediction.value.fields, PredictionsView.IsCategoryKey)| == 0
    ensures c.Some? ==>
              var keys := Filter(prediction.value.fields, PredictionsView.IsCategoryKey);
              && c.value.month == prediction.value.month
              && c.value.labels == PredictionsView.CategoryNames(prediction.value.fields)
              && |c.value.labels| == |c.value.values| == |keys|
              && forall i :: 0 <= i < |keys| ==>
                   c.value.labels[i] + PredictionsView.ExpenseSuffix == keys[i].0 && c.value.values[i] == keys[i].1
  {
    if prediction.None? || prediction.value.month == "" then None
    else
      var fields := prediction.value.fields;
      var keys := Filter(fields, PredictionsView.IsCategoryKey);
      var labels := PredictionsView.CategoryNames(fields);
      if |labels| == 0 then None
      else
        var values := seq(|keys|, i requires 0 <= i < |keys| => keys[i].1);
        Some(CategoryChart(prediction.value.month, labels, values))
  }

  /** The bar of the category "a_expense_b" as written is labelled
      "a_b_expense" and drawn at 0, losing its value. */
  lemma MangledCategoryDrawnAtZero()
    ensures var p := Record("2025-05", [("a_expense_b_expense", 120.0)]);
            && CategoryChartDataAsWritten(Some(p)) == Some(CategoryChart("2025-05", ["a_b_expense"], [0.0]))
            && CategoryChartData(Some(p)) == Some(CategoryChart("2025-05", ["a_expense_b"], [120.0]))
  {
    var fields := [("a_expense_b_expense", 120.0)];
    PredictionsView.ReplaceFirstMangles(120.0);
    MangledChartAsWritten(fields, "2025-05");
    CategoryChartKeepsValue(fields);
  }

  lemma MangledChartAsWritten(fields: seq<(string, real)>, month: string)
    requires fields == [("a_expense_b_expense", 120.0)] && month != ""
    requires PredictionsView.CategoryNamesAsWritten(fields) == ["a_b_expense"]
    ensures CategoryChartDataAsWritten(Some(Record(month, fields))) == Some(CategoryChart(month, ["a_b_expense"], [0.0]))
  {
    MangledKeyMissing(fields);
    var labels := PredictionsView.CategoryNamesAsWritten(fields);
    var values := seq(|labels|, i requires 0 <= i < |labels| =>
      PredictionsView.Lookup(fields, labels[i] + PredictionsView.ExpenseSuffix).GetOr(0.0));
    assert values == [0.0];
  }

  lemma MangledKeyMissing(fields: seq<(string, real)>)
    requires fields == [("a_expense_b_expense", 120.0)]
    ensures PredictionsView.Lookup(fields, "a_b_expense" + PredictionsView.ExpenseSuffix).None?
  {
    var key := "a_b_expense" + PredictionsView.ExpenseSuffix;
    assert key[2] == 'b' && fields[0].0[2] == 'e';
  }

  lemma CategoryChartKeepsValue(fields: seq<(string, real)>)
    requires fields == [("a_expense_b_expense", 120.0)]
    requires PredictionsView.CategoryNames(fields) == ["a_expense_b"]
    ensures CategoryChartData(Some(Record("2025-05", fields))) == Some(CategoryChart("2025-05", ["a_expense_b"], [120.0]))
  {
    var keys := Filter(fields, PredictionsView.IsCategoryKey);
    var c := CategoryChartData(Some(Record("2025-05", fields))).value;
    assert |keys| == 1;
    assert keys[0] in fields;
    assert c.values == [120.0];
  }
}

=== FILE: ml_prediction.dfy ===
/** The calendar arithmetic and the small rules of backend/ml_prediction.py
    that surround the trained models: the month after a given month, the
    number of lagged months used as features, the synthetic month added when
    only one month of data exists, the non-negativity of model predictions,
    the trend-accuracy score, and the demonstration and fallback predictions.
    The models, the scalers and their files are not modelled: their outputs
    are parameters, and so are the clock and the random draws. */
module MlPrediction {
  import opened Common

  /** A calendar month, the `%Y-%m` text of the source. */
  datatype YearMonth = YearMonth(year: int, month: int)

  predicate ValidMonth(ym: YearMonth) { 1 <= ym.month <= 12 }

  /** Months counted from year 0, so that consecutive months differ by one. */
  function MonthIndex(ym: YearMonth): int { ym.year * 12 + ym.month - 1 }

  /** The first day of the following month, built by hand in the source:
      December rolls over to January of the next year. */
  function NextMonth(ym: YearMonth): (r: YearMonth)
    requires ValidMonth(ym)
    ensures ValidMonth(r)
    ensures MonthIndex(r) == MonthIndex(ym) + 1
    ensures ym.month == 12 ==> r == YearMonth(ym.year + 1, 1)
    ensures ym.month < 12 ==> r == YearMonth(ym.year, ym.month + 1)
  {
    if ym.month == 12 then YearMonth(ym.year + 1, 1) else YearMonth(ym.year, ym.month + 1)
  }

  /** `pd.DateOffset(months=1)` subtracted from the first of a month. */
  function PrevMonth(ym: YearMonth): (r: YearMonth)
    requires ValidMonth(ym)
    ensures ValidMonth(r)
    ensures MonthIndex(r) == MonthIndex(ym) - 1
  {
    if ym.month == 1 then YearMonth(ym.year - 1, 12) else YearMonth(ym.year, ym.month - 1)
  }

  /** A valid month is determined by its index. */
  lemma MonthIndexInjective(a: YearMonth, b: YearMonth)
    requires ValidMonth(a) && ValidMonth(b) && MonthIndex(a) == MonthIndex(b)
    ensures a == b
  {
  }

  /** Stepping back a month and then forward returns the month, and so does
      the converse. */
  lemma NextPrevRoundTrip(ym: YearMonth)
    requires ValidMonth(ym)
    ensures NextMonth(PrevMonth(ym)) == ym
    ensures PrevMonth(NextMonth(ym)) == ym
  {
    MonthIndexInjective(NextMonth(PrevMonth(ym)), ym);
    MonthIndexInjective(PrevMonth(NextMonth(ym)), ym);
  }

  /** `max_lags`: up to three months of history as features, one fewer than
      the months available, and never fewer than one. */
  function MaxLags(uniqueMonths: nat): (lags: nat)
    ensures 1 <= lags <= 3
    ensures uniqueMonths >= 2 ==> lags == if uniqueMonths - 1 < 3 then uniqueMonths - 1 else 3
    ensures uniqueMonths <= 2 ==> lags == 1
    ensures lags < uniqueMonths || uniqueMonths <= 1
  {
    var lags: int := if 3 < uniqueMonths - 1 then 3 else uniqueMonths - 1;
    if lags < 1 then 1 else lags
  }

  /** The monthly total of one category, a row of `monthly_expenses`. */
  datatype MonthlyAmount = MonthlyAmount(month: YearMonth, category: string, amount: real)

  /** The copy of a row placed in the month before, at 90% of its amount. */
  function EarlierCopy(row: MonthlyAmount): (c: MonthlyAmount)
    requires ValidMonth(row.month)
    ensures c.category == row.category
    ensures MonthIndex(c.month) + 1 == MonthIndex(row.month)
    ensures c.amount * 10.0 == row.amount * 9.0
  {
    MonthlyAmount(PrevMonth(row.month), row.category, row.amount * 0.9)
  }

  /** All rows fall in the single month `m`. */
  predicate SingleMonth(rows: seq<MonthlyAmount>, m: YearMonth)
  {
    |rows| > 0 && forall i :: 0 <= i < |rows| ==> rows[i].month == m
  }

  /** With exactly one month of data the rows are followed by copies of
      themselves in the month before, each reduced by 10%, so that one lag can
      be built; otherwise the rows are kept as they are. */
  function WithSyntheticMonth(rows: seq<MonthlyAmount>): (r: seq<MonthlyAmount>)
    requires forall i :: 0 <= i < |rows| ==> ValidMonth(rows[i].month)
    ensures |rows| > 0 && SingleMonth(rows, rows[0].month) ==>
              && |r| == 2 * |rows|
              && r[..|rows|] == rows
              && forall i :: 0 <= i < |rows| ==>
                   r[|rows| + i].category == rows[i].category
                   && ValidMonth(r[|rows| + i].month)
                   && NextMonth(r[|rows| + i].month) == rows[0].month
                   && r[|rows| + i].amount * 10.0 == rows[i].amount * 9.0
    ensures !(|rows| > 0 && SingleMonth(rows, rows[0].month)) ==> r == rows
  {
    if |rows| > 0 && SingleMonth(rows, rows[0].month) then
      var copies := seq(|rows|, i requires 0 <= i < |rows| => EarlierCopy(rows[i]));
      assert forall i :: 0 <= i < |rows| ==> NextMonth(copies[i].month) == rows[0].month by {
        forall i | 0 <= i < |rows|
          ensures NextMonth(copies[i].month) == rows[0].month
        {
          NextPrevRoundTrip(rows[0].month);
        }
      }
      rows + copies
    else
      rows
  }

  /** A category's model prediction as stored: never below zero. Rounding to
      cents is not modelled. */
  function Clamp(prediction: real): (p: real)
    ensures p >= 0.0 && p >= prediction
    ensures prediction >= 0.0 ==> p == prediction
  {
    MaxR(0.0, prediction)
  }

  /** `total_predicted` of the model path: the sum of the clamped predictions. */
  function ClampedTotal(predictions: seq<real>): (total: real)
    decreases |predictions|
  {
    if |predictions| == 0 then 0.0
    else ClampedTotal(predictions[..|predictions| - 1]) + Clamp(predictions[|predictions| - 1])
  }

  /** The model total is never negative, is at least the raw sum, and equals
      it when no model predicted a negative amount. */
  lemma {:induction false} ClampedTotalBounds(predictions: seq<real>)
    ensures ClampedTotal(predictions) >= 0.0
    ensures ClampedTotal(predictions) >= Sum(predictions)
    ensures (forall i :: 0 <= i < |predictions| ==> predictions[i] >= 0.0) ==>
              ClampedTotal(predictions) == Sum(predictions)
    decreases |predictions|
  {
    if |predictions| > 0 {
      ClampedTotalBounds(predictions[..|predictions| - 1]);
    }
  }

  /** The direction of a change; a tie counts as down. */
  predicate Up(from: real, to: real) { to > from }

  /** `accuracy_score`: with at least two historical months, 1 when the
      predicted total moves from the last month in the same direction as the
      last month moved from the one before, else 0; none with fewer months. */
  function AccuracyScore(history: seq<real>, predicted: real): (score: Option<nat>)
    ensures |history| < 2 <==> score.None?
    ensures score.Some? ==> score.value <= 1
    ensures score.Some? ==>
              var last, prev := history[|history| - 1], history[|history| - 2];
              (score.value == 1 <==> (Up(last, predicted) <==> Up(prev, last)))
  {
    if |history| < 2 then None
    else
      var last, prev := history[|history| - 1], history[|history| - 2];
      var actualUp := last > prev;
      var predictedUp := predicted > last;
      Some(if predictedUp == actualUp then 1 else 0)
  }

  /** A steady history predicted to stay steady scores 1: both trends are
      "down". */
  lemma FlatTrendScoresOne(history: seq<real>)
    requires |history| >= 2 && history[|history| - 1] == history[|history| - 2]
    ensures AccuracyScore(history, history[|history| - 1]) == Some(1)
  {
  }

  /** The month `i` months before `now`, computed as the demo does: by
      borrowing one year when the month number would not be positive. */
  function MonthsBefore(now: YearMonth, i: nat): (r: YearMonth)
    requires ValidMonth(now) && i <= 5
    ensures ValidMonth(r)
    ensures MonthIndex(r) == MonthIndex(now) - i
  {
    if now.month - i <= 0 then YearMonth(now.year - 1, now.month - i + 12)
    else YearMonth(now.year, now.month - i)
  }

  /** The six demo months: from five months before `now` up to `now`. */
  function DemoMonths(now: YearMonth): (ms: seq<YearMonth>)
    requires ValidMonth(now)
    ensures |ms| == 6 && ms[5] == now
    ensures forall k :: 0 <= k < 6 ==> ValidMonth(ms[k])
    ensures forall k :: 0 <= k < 6 ==> MonthIndex(ms[k]) == MonthIndex(now) - (5 - k)
  {
    seq(6, k requires 0 <= k < 6 => MonthsBefore(now, 5 - k))
  }

  /** The demo months are consecutive: each is the month after the one
      before it. */
  lemma DemoMonthsConsecutive(now: YearMonth, k: nat)
    requires ValidMonth(now) && k < 5
    ensures NextMonth(DemoMonths(now)[k]) == DemoMonths(now)[k + 1]
  {
    var ms := DemoMonths(now);
    MonthIndexInjective(NextMonth(ms[k]), ms[k + 1]);
  }

  /** A monthly expense figure split over the seven demo categories. */
  datatype DemoRecord = DemoRecord(
    month: YearMonth, total: real,
    food: real, housing: real, transport: real, leisure: real, health: real, education: real, other: real)

  /** The fixed shares of the demo categories: 30, 25, 15, 10, 8, 7 and 5%. */
  function SplitTotal(month: YearMonth, total: real): (d: DemoRecord)
    ensures d.month == month && d.total == total
    ensures d.food + d.housing + d.transport + d.leisure + d.health + d.education + d.other == total
  {
    DemoRecord(month, total, total * 0.3, total * 0.25, total * 0.15, total * 0.1,
               total * 0.08, total * 0.07, total * 0.05)
  }

  datatype DemoData = DemoData(historical: seq<DemoRecord>, prediction: DemoRecord)

  /** `generate_demo_predictions` on the month `now` with the six random
      draws of `np.random.rand()`, oldest month first. */
  function DemoPredictions(now: YearMonth, draws: seq<real>): (d: DemoData)
    requires ValidMonth(now) && |draws| == 6
    requires forall k :: 0 <= k < 6 ==> 0.0 <= draws[k] < 1.0
    ensures |d.historical| == 6
    ensures forall k :: 0 <= k < 6 ==> d.historical[k].month == DemoMonths(now)[k]
    ensures forall k :: 0 <= k < 6 ==> 3000.0 <= d.historical[k].total < 4000.0
    ensures d.prediction.month == NextMonth(now)
    ensures d.prediction.total == d.historical[5].total * 1.05
  {
    var ms := DemoMonths(now);
    var hist := seq(6, k requires 0 <= k < 6 =>
      SplitTotal(ms[k], 3000.0 + ((5 - k) as real) * 100.0 + draws[k] * 500.0));
    DemoData(hist, SplitTotal(NextMonth(now), hist[5].total * 1.05))
  }

  /** A historical month's total expense. */
  datatype MonthTotal = MonthTotal(month: YearMonth, total: real)

  /** The estimate used when the models give no prediction: 5% above the last
      historical month, for the month after it; none without history (the
      demo data is used then). */
  function EstimatedPrediction(history: seq<MonthTotal>): (p: Option<MonthTotal>)
    requires forall i :: 0 <= i < |history| ==> ValidMonth(history[i].month)
    ensures p.None? <==> |history| == 0
    ensures p.Some? ==>
              var last := history[|history| - 1];
              MonthIndex(p.value.month) == MonthIndex(last.month) + 1
              && p.value.total * 20.0 == last.total * 21.0
  {
    if |history| == 0 then None
    else
      var last := history[|history| - 1];
      Some(MonthTotal(NextMonth(last.month), last.total * 1.05))
  }
}

=== FILE: predictions_view.dfy ===
/** The state logic of frontend/src/components/Predictions.js: the demo data
    the page builds itself with JavaScript dates, the category rows read off
    the prediction's keys, the trend recommendation and the top category,
    the bar scaling, and what the fetch outcome shows. Rendering, formatting
    and the network call are not modelled; the clock and `Math.random` are
    parameters. */
module PredictionsView {
  import opened Common
  import MlPrediction

  // ---------------------------------------------------------------------------
  // JavaScript dates
  // ---------------------------------------------------------------------------

  /** A local date as `Date` keeps it, with the month counted from 0 as
      `getMonth()` returns it. */
  datatype JsDate = JsDate(year: int, month: int, day: int)

  predicate LeapYear(y: int) { y % 4 == 0 && (y % 100 != 0 || y % 400 == 0) }

  function DaysInMonth(y: int, m: int): (n: int)
    requires 0 <= m < 12
    ensures 28 <= n <= 31
  {
    if m == 1 then (if LeapYear(y) then 29 else 28)
    else if m == 3 || m == 5 || m == 8 || m == 10 then 30
    else 31
  }

  predicate ValidDate(d: JsDate) { 0 <= d.month < 12 && 1 <= d.day <= DaysInMonth(d.year, d.month) }

  /** Months counted from year 0, with the month from 0. */
  function Ordinal(d: JsDate): int { d.year * 12 + d.month }

  /** `d.setMonth(m)` on a copy of `d`: a month outside 0..11 moves the year,
      and a day past the end of the target month runs over into the month
      after it, as the date arithmetic of ECMAScript does. */
  function SetMonth(d: JsDate, m: int): (r: JsDate)
    requires ValidDate(d)
    ensures ValidDate(r)
    ensures var fits := d.day <= DaysInMonth(d.year + m / 12, m % 12);
            && (fits ==> r.day == d.day && Ordinal(r) == d.year * 12 + m)
            && (!fits ==> r.day < d.day && Ordinal(r) == d.year * 12 + m + 1)
  {
    var y, mm := d.year + m / 12, m % 12;
    var days := DaysInMonth(y, mm);
    if d.day <= days then JsDate(y, mm, d.day)
    else if mm == 11 then JsDate(y + 1, 0, d.day - days)
    else JsDate(y, mm + 1, d.day - days)
  }

  /** The `YYYY-MM` text the page builds from a date. */
  function MonthOf(d: JsDate): (ym: MlPrediction.YearMonth)
    requires ValidDate(d)
    ensures MlPrediction.ValidMonth(ym)
    ensures MlPrediction.MonthIndex(ym) == Ordinal(d)
  {
    MlPrediction.YearMonth(d.year, d.month + 1)
  }

  // ---------------------------------------------------------------------------
  // Demo months: as written and corrected
  // ---------------------------------------------------------------------------

  /** The month of `d` after `d.setMonth(d.getMonth() + delta)`; it is
      `delta` months away whenever the day exists in every month. */
  function ShiftedMonth(d: JsDate, delta: int): (ym: MlPrediction.YearMonth)
    requires ValidDate(d)
    ensures MlPrediction.ValidMonth(ym)
    ensures d.day <= 28 ==> MlPrediction.MonthIndex(ym) == Ordinal(d) + delta
  {
    MonthOf(SetMonth(d, d.month + delta))
  }

  /** The six history months of `showDemoData` as written: `setMonth` on a
      copy of today, which keeps today's day of the month. */
  function DemoMonthsAsWritten(today: JsDate): (ms: seq<MlPrediction.YearMonth>)
    requires ValidDate(today)
    ensures |ms| == 6
    ensures forall k :: 0 <= k < 6 ==> ms[k] == ShiftedMonth(today, k - 5)
  {
    seq(6, k requires 0 <= k < 6 => ShiftedMonth(today, k - 5))
  }

  /** The prediction month of `showDemoData` as written. */
  function DemoPredictionMonthAsWritten(today: JsDate): (ym: MlPrediction.YearMonth)
    requires ValidDate(today)
    ensures ym == ShiftedMonth(today, 1)
  {
    ShiftedMonth(today, 1)
  }

  /** On 31 March 2025 the months as written repeat December 2024, skip
      November 2024, repeat March 2025, and the prediction skips April for
      May. */
  lemma DemoMonthsOverflowOnMonthEnd()
    ensures var today := JsDate(2025, 2, 31);
            var ms := DemoMonthsAsWritten(today);
            && ms[1] == MlPrediction.YearMonth(2024, 12)
            && ms[2] == MlPrediction.YearMonth(2024, 12)
            && ms[4] == ms[5]
            && DemoPredictionMonthAsWritten(today) == MlPrediction.YearMonth(2025, 5)
  {
    var today := JsDate(2025, 2, 31);
    assert SetMonth(today, -2) == JsDate(2024, 11, 1);
    assert SetMonth(today, -1) == JsDate(2024, 11, 31);
    assert SetMonth(today, 1) == JsDate(2025, 2, 3);
    assert SetMonth(today, 2) == JsDate(2025, 2, 31);
    assert SetMonth(today, 3) == JsDate(2025, 4, 1);
  }

  /** The six history months with the day set to the first before moving
      the month, so that no month runs over. */
  function DemoMonths(today: JsDate): (ms: seq<MlPrediction.YearMonth>)
    requires ValidDate(today)
    ensures |ms| == 6 && ms[5] == MonthOf(today)
    ensures forall k :: 0 <= k < 6 ==> MlPrediction.ValidMonth(ms[k])
    ensures forall k :: 0 <= k < 6 ==>
              MlPrediction.MonthIndex(ms[k]) == MlPrediction.MonthIndex(MonthOf(today)) - (5 - k)
  {
    var first := today.(day := 1);
    var ms := seq(6, k requires 0 <= k < 6 => ShiftedMonth(first, k - 5));
    assert forall k :: 0 <= k < 6 ==> ms[k] == ShiftedMonth(first, k - 5);
    MlPrediction.MonthIndexInjective(ms[5], MonthOf(today));
    ms
  }

  /** The corrected months are the backend's demo months for the same
      current month. */
  lemma DemoMonthsMatchBackend(today: JsDate)
    requires ValidDate(today)
    ensures DemoMonths(today) == MlPrediction.DemoMonths(MonthOf(today))
  {
    var a, b := DemoMonths(today), MlPrediction.DemoMonths(MonthOf(today));
    forall k | 0 <= k < 6
      ensures a[k] == b[k]
    {
      MlPrediction.MonthIndexInjective(a[k], b[k]);
    }
  }

  /** Before the 29th no month runs over, and the months as written are the
      corrected ones. */
  lemma DemoMonthsAsWrittenEarlyInMonth(today: JsDate)
    requires ValidDate(today) && today.day <= 28
    ensures DemoMonthsAsWritten(today) == DemoMonths(today)
    ensures DemoPredictionMonthAsWritten(today) == DemoPredictionMonth(today)
  {
    var a, b := DemoMonthsAsWritten(today), DemoMonths(today);
    forall k | 0 <= k < 6
      ensures a[k] == b[k]
    {
      MlPrediction.MonthIndexInjective(a[k], b[k]);
    }
    MlPrediction.MonthIndexInjective(DemoPredictionMonthAsWritten(today), DemoPredictionMonth(today));
  }

  /** The prediction month with the day set to the first. */
  function DemoPredictionMonth(today: JsDate): (ym: MlPrediction.YearMonth)
    requires ValidDate(today)
    ensures ym == MlPrediction.NextMonth(MonthOf(today))
  {
    var ym := ShiftedMonth(today.(day := 1), 1);
    MlPrediction.MonthIndexInjective(ym, MlPrediction.NextMonth(MonthOf(today)));
    ym
  }

  // ---------------------------------------------------------------------------
  // Expense records and their category keys
  // ---------------------------------------------------------------------------

  const ExpenseSuffix: string := "_expense"
  const TotalKey: string := "total_expense"

  /** A month's record: its month, whether it is the prediction, and its
      numeric fields in key order (`total_expense` and the
      `<category>_expense` amounts). */
  datatype MonthRecord = MonthRecord(month: MlPrediction.YearMonth, isPrediction: bool, fields: seq<(string, real)>)

  /** `record[key]`: the value of the first field with that key. */
  function Lookup(fields: seq<(string, real)>, key: string): (r: Option<real>)
    ensures r.None? <==> forall i :: 0 <= i < |fields| ==> fields[i].0 != key
    ensures r.Some? ==> exists i :: 0 <= i < |fields| && fields[i] == (key, r.value)
  {
    if |fields| == 0 then None
    else if fields[0].0 == key then Some(fields[0].1)
    else
      var r := Lookup(fields[1..], key);
      assert forall i :: 1 <= i < |fields| ==> fields[i] == fields[1..][i - 1];
      r
  }

  function Total(r: MonthRecord): real { Lookup(r.fields, TotalKey).GetOr(0.0) }

  predicate IsExpenseKey(f: (string, real)) { EndsWith(f.0, ExpenseSuffix) }

  /** A per-category key: ends in `_expense` and is not the total. */
  predicate IsCategoryKey(f: (string, real)) { EndsWith(f.0, ExpenseSuffix) && f.0 != TotalKey }

  /** The category rows as written: every key ending in `_expense`, with the
      first occurrence of `_expense` removed. */
  function CategoryNamesAsWritten(fields: seq<(string, real)>): (names: seq<string>)
    ensures var keys := Filter(fields, IsExpenseKey);
            |names| == |keys|
            && forall i :: 0 <= i < |names| ==> names[i] == ReplaceFirst(keys[i].0, ExpenseSuffix, "")
  {
    var keys := Filter(fields, IsExpenseKey);
    seq(|keys|, i requires 0 <= i < |keys| => ReplaceFirst(keys[i].0, ExpenseSuffix, ""))
  }

  /** The category rows: the per-category keys without their suffix. */
  function CategoryNames(fields: seq<(string, real)>): (names: seq<string>)
    ensures var keys := Filter(fields, IsCategoryKey);
            |names| == |keys|
            && forall i :: 0 <= i < |names| ==> names[i] + ExpenseSuffix == keys[i].0 && keys[i].0 != TotalKey
  {
    var keys := Filter(fields, IsCategoryKey);
    seq(|keys|, i requires 0 <= i < |keys| => StripSuffix(keys[i].0, ExpenseSuffix))
  }

  /** Every category row names a field of the record, and every category
      field has its row. */
  lemma CategoryNamesExact(fields: seq<(string, real)>, name: string)
    ensures name in CategoryNames(fields) <==>
              exists i :: 0 <= i < |fields| && fields[i].0 == name + ExpenseSuffix && fields[i].0 != TotalKey
  {
    var keys := Filter(fields, IsCategoryKey);
    var names := CategoryNames(fields);
    if name in names {
      var k :| 0 <= k < |names| && names[k] == name;
      assert keys[k] in fields;
    }
    if exists i :: 0 <= i < |fields| && fields[i].0 == name + ExpenseSuffix && fields[i].0 != TotalKey {
      var i :| 0 <= i < |fields| && fields[i].0 == name + ExpenseSuffix && fields[i].0 != TotalKey;
      EndsWithAppend(name, ExpenseSuffix);
      assert IsCategoryKey(fields[i]);
      var k :| 0 <= k < |keys| && keys[k] == fields[i];
      assert names[k] + ExpenseSuffix == name + ExpenseSuffix;
      assert names[k] == (names[k] + ExpenseSuffix)[..|names[k]|];
    }
  }

  /** Every record carries `total_expense`, so as written the table has a
      "total" row beside the real categories. */
  lemma TotalListedAsCategory(rest: seq<(string, real)>, total: real)
    ensures CategoryNamesAsWritten([(TotalKey, total)] + rest)[0] == "total"
    ensures "total" !in CategoryNames([(TotalKey, total)] + rest)
  {
    var fields := [(TotalKey, total)] + rest;
    assert TotalKey == "total" + ExpenseSuffix;
    EndsWithAppend("total", ExpenseSuffix);
    assert fields[1..] == rest;
    assert Filter(fields, IsExpenseKey)[0] == fields[0];
    FirstOccurrenceAppended("total", ExpenseSuffix);
    assert ("total" + ExpenseSuffix)[..5] == "total";
    CategoryNamesExact(fields, "total");
  }

  /** A category named "a_expense_b" has the key "a_expense_b_expense"; as
      written its row reads "a_b_expense", which names no field. */
  lemma ReplaceFirstMangles(v: real)
    ensures CategoryNamesAsWritten([("a_expense_b_expense", v)]) == ["a_b_expense"]
    ensures CategoryNames([("a_expense_b_expense", v)]) == ["a_expense_b"]
  {
    var key := "a_expense_b_expense";
    var fields := [(key, v)];
    KeyIsSuffixed("a_expense_b", key);
    assert IsExpenseKey(fields[0]) && IsCategoryKey(fields[0]);
    assert Filter(fields, IsExpenseKey) == fields;
    assert Filter(fields, IsCategoryKey) == fields;
    InnerSuffixFoundFirst();
    assert key[..1] + "" + key[9..] == "a_b_expense";
  }

  lemma KeyIsSuffixed(name: string, key: string)
    requires key == name + ExpenseSuffix
    ensures EndsWith(key, ExpenseSuffix) && StripSuffix(key, ExpenseSuffix) == name
    ensures key != TotalKey <== name != "total"
  {
    EndsWithAppend(name, ExpenseSuffix);
    assert key[..|name|] == name;
    assert TotalKey == "total" + ExpenseSuffix;
    if key == TotalKey {
      assert name == TotalKey[..5];
    }
  }

  lemma InnerSuffixFoundFirst()
    ensures FirstOccurrence("a_expense_b_expense", ExpenseSuffix) == Some(1)
  {
    var key := "a_expense_b_expense";
    assert key[1..9] == ExpenseSuffix;
    assert OccursAt(key, ExpenseSuffix, 1);
    assert !OccursAt(key, ExpenseSuffix, 0) by { assert key[0..8][0] != ExpenseSuffix[0]; }
  }

  // ---------------------------------------------------------------------------
  // Recommendations
  // ---------------------------------------------------------------------------

  /** The comparison of the prediction with the last month: the change in
      percent of the last month, absent when the last month is 0 (the
      division gives no finite number). */
  datatype Trend = Increase(percent: Option<real>) | Decrease(percent: Option<real>)

  function TrendOf(last: real, predicted: real): (t: Trend)
    ensures t.Increase? <==> predicted > last
    ensures t.percent.None? <==> last == 0.0
    ensures t.Increase? && last != 0.0 ==> t.percent.value * last == (predicted - last) * 100.0
    ensures t.Decrease? && last != 0.0 ==> t.percent.value * last == (last - predicted) * 100.0
    ensures predicted == last && last != 0.0 ==> t == Decrease(Some(0.0))
  {
    if predicted > last then
      Increase(if last == 0.0 then None else Some((predicted - last) / last * 100.0))
    else
      Decrease(if last == 0.0 then None else Some((last - predicted) / last * 100.0))
  }

  /** A category considered for the largest increase. */
  datatype Candidate = Candidate(name: string, predicted: real, actual: real)

  function Growth(c: Candidate): real { c.predicted - c.actual }

  /** The candidate a descending stable sort by increase puts first: the
      earliest of those with the largest increase. */
  function TopIncrease(cs: seq<Candidate>): (r: Option<nat>)
    ensures r.None? <==> |cs| == 0
    ensures r.Some? ==> r.value < |cs|
    ensures r.Some? ==> forall i :: 0 <= i < |cs| ==> Growth(cs[i]) <= Growth(cs[r.value])
    ensures r.Some? ==> forall i :: 0 <= i < r.value ==> Growth(cs[i]) < Growth(cs[r.value])
    decreases |cs|
  {
    if |cs| == 0 then None
    else
      var rest := TopIncrease(cs[1..]);
      if rest.None? || Growth(cs[0]) >= Growth(cs[1..][rest.value]) then
        Some(0)
      else
        Some(rest.value + 1)
  }

  /** The candidates read from the prediction's fields with their names
      derived by `name`, against the last month's value or 0. */
  function CandidatesFrom(keys: seq<(string, real)>, names: seq<string>, last: MonthRecord): (cs: seq<Candidate>)
    requires |names| == |keys|
    ensures |cs| == |keys|
    ensures forall i :: 0 <= i < |cs| ==>
              cs[i] == Candidate(names[i], keys[i].1, Lookup(last.fields, keys[i].0).GetOr(0.0))
  {
    seq(|keys|, i requires 0 <= i < |keys| => Candidate(names[i], keys[i].1, Lookup(last.fields, keys[i].0).GetOr(0.0)))
  }

  predicate Grew(c: Candidate) { c.predicted > c.actual }

  /** `r` names the earliest candidate with the largest increase, and is
      absent exactly when there is no candidate. */
  ghost predicate NamesTop(r: Option<string>, cs: seq<Candidate>)
  {
    && (r.None? <==> |cs| == 0)
    && (r.Some? ==>
          exists i :: 0 <= i < |cs| && cs[i].name == r.value
                      && (forall j :: 0 <= j < |cs| ==> Growth(cs[j]) <= Growth(cs[i]))
                      && (forall j :: 0 <= j < i ==> Growth(cs[j]) < Growth(cs[i])))
  }

  /** The categories of the prediction that grew over the last month, in
      field order. */
  function Grown(prediction: MonthRecord, last: MonthRecord): (cs: seq<Candidate>)
    ensures forall c :: c in cs <==>
              c in CandidatesFrom(Filter(prediction.fields, IsCategoryKey), CategoryNames(prediction.fields), last) && Grew(c)
  {
    Filter(CandidatesFrom(Filter(prediction.fields, IsCategoryKey), CategoryNames(prediction.fields), last), Grew)
  }

  /** As written: every `_expense` key is a candidate, total included. */
  function GrownAsWritten(prediction: MonthRecord, last: MonthRecord): (cs: seq<Candidate>)
    ensures forall c :: c in cs <==>
              c in CandidatesFrom(Filter(prediction.fields, IsExpenseKey), CategoryNamesAsWritten(prediction.fields), last) && Grew(c)
  {
    Filter(CandidatesFrom(Filter(prediction.fields, IsExpenseKey), CategoryNamesAsWritten(prediction.fields), last), Grew)
  }

  /** The category named as having the largest increase, as written: the
      candidates come from every `_expense` key, total included. */
  function TopCategoryAsWritten(prediction: MonthRecord, last: MonthRecord): (r: Option<string>)
    ensures NamesTop(r, GrownAsWritten(prediction, last))
  {
    NameOfTop(GrownAsWritten(prediction, last))
  }

  /** The category with the largest increase among those that grew, the
      earliest on a tie; none when no category grew. */
  function TopCategory(prediction: MonthRecord, last: MonthRecord): (r: Option<string>)
    ensures NamesTop(r, Grown(prediction, last))
  {
    NameOfTop(Grown(prediction, last))
  }

  /** The name of the candidate with the largest increase, the earliest on
      a tie; none for no candidates. */
  function NameOfTop(cs: seq<Candidate>): (r: Option<string>)
    ensures NamesTop(r, cs)
  {
    var top := TopIncrease(cs);
    if top.None? then None else Some(cs[top.value].name)
  }

  /** How much a field of the prediction grew over the last month's value
      of the same key, 0 when the last month lacks it. */
  function FieldGrowth(f: (string, real), last: MonthRecord): real
  {
    f.1 - Lookup(last.fields, f.0).GetOr(0.0)
  }

  /** A sorted list whose first element grows at least as much as any other
      is led by that element. */
  lemma TopIncreaseFirst(cs: seq<Candidate>)
    requires |cs| > 0 && forall j :: 0 <= j < |cs| ==> Growth(cs[j]) <= Growth(cs[0])
    ensures TopIncrease(cs) == Some(0)
  {
  }

  lemma CandidatesGrowth(keys: seq<(string, real)>, names: seq<string>, last: MonthRecord, bound: real)
    requires |names| == |keys|
    requires forall i :: 0 <= i < |keys| ==> FieldGrowth(keys[i], last) <= bound
    ensures forall c :: c in CandidatesFrom(keys, names, last) ==> Growth(c) <= bound
  {
    var all := CandidatesFrom(keys, names, last);
    forall c | c in all
      ensures Growth(c) <= bound
    {
      var i :| 0 <= i < |all| && all[i] == c;
      assert Growth(c) == FieldGrowth(keys[i], last);
    }
  }

  /** When the total leads the prediction's fields and grew at least as much
      as any field, as written the "category" with the largest increase is
      "total", whatever the categories did. */
  lemma TotalWinsAsWritten(fields: seq<(string, real)>, last: MonthRecord, month: MlPrediction.YearMonth)
    requires |fields| > 0 && fields[0].0 == TotalKey && FieldGrowth(fields[0], last) > 0.0
    requires forall i :: 0 <= i < |fields| ==> FieldGrowth(fields[i], last) <= FieldGrowth(fields[0], last)
    ensures TopCategoryAsWritten(MonthRecord(month, true, fields), last) == Some("total")
  {
    var bound := FieldGrowth(fields[0], last);
    var keys := Filter(fields, IsExpenseKey);
    var names := CategoryNamesAsWritten(fields);
    TotalLeadsKeys(fields);
    forall i | 0 <= i < |keys|
      ensures FieldGrowth(keys[i], last) <= bound
    {
      assert keys[i] in fields;
    }
    CandidatesGrowth(keys, names, last, bound);
    var all := CandidatesFrom(keys, names, last);
    assert all[0] == Candidate("total", fields[0].1, Lookup(last.fields, TotalKey).GetOr(0.0));
    LeaderWins(all);
  }

  /** A record led by its total lists the total first among the `_expense`
      keys, named "total" as written. */
  lemma TotalLeadsKeys(fields: seq<(string, real)>)
    requires |fields| > 0 && fields[0].0 == TotalKey
    ensures var keys := Filter(fields, IsExpenseKey);
            |keys| > 0 && keys[0] == fields[0] && CategoryNamesAsWritten(fields)[0] == "total"
  {
    KeyIsSuffixed("total", TotalKey);
    assert fields == [fields[0]] + fields[1..];
    TotalListedAsCategory(fields[1..], fields[0].1);
  }

  /** A first candidate that grew, and that no candidate outgrew, is the one
      with the largest increase. */
  lemma LeaderWins(all: seq<Candidate>)
    requires |all| > 0 && Grew(all[0])
    requires forall c :: c in all ==> Growth(c) <= Growth(all[0])
    ensures var cs := Filter(all, Grew);
            |cs| > 0 && cs[0] == all[0] && TopIncrease(cs) == Some(0)
  {
    var cs := Filter(all, Grew);
    assert all == [all[0]] + all[1..];
    assert cs[0] == all[0];
    forall j | 0 <= j < |cs|
      ensures Growth(cs[j]) <= Growth(cs[0])
    {
      assert cs[j] in all;
    }
    TopIncreaseFirst(cs);
  }

  /** A total that went from 100 to 110 and a category "a" that went from 50
      to 55: as written the largest increase is "total", and without the
      total row it is "a". */
  lemma TotalOutgrowsCategory()
    ensures var last := MonthRecord(MlPrediction.YearMonth(2025, 1), false, [(TotalKey, 100.0), ("a_expense", 50.0)]);
            var prediction := [(TotalKey, 110.0), ("a_expense", 55.0)];
            && TopCategoryAsWritten(MonthRecord(MlPrediction.YearMonth(2025, 2), true, prediction), last) == Some("total")
            && TopCategory(MonthRecord(MlPrediction.YearMonth(2025, 2), true, prediction), last) == Some("a")
  {
    var last := MonthRecord(MlPrediction.YearMonth(2025, 1), false, [(TotalKey, 100.0), ("a_expense", 50.0)]);
    var prediction := [(TotalKey, 110.0), ("a_expense", 55.0)];
    KeyIsSuffixed("a", "a_expense");
    KeyIsSuffixed("total", TotalKey);
    assert Lookup(last.fields, TotalKey) == Some(100.0);
    assert Lookup(last.fields, "a_expense") == Some(50.0) by {
      assert last.fields[0].0 != "a_expense" by { assert |last.fields[0].0| != |"a_expense"|; }
    }
    assert FieldGrowth(prediction[1], last) == 5.0;
    TotalWinsAsWritten(prediction, last, MlPrediction.YearMonth(2025, 2));
    OnlyCategoryWins(prediction, last);
  }

  lemma OnlyCategoryWins(prediction: seq<(string, real)>, last: MonthRecord)
    requires prediction == [(TotalKey, 110.0), ("a_expense", 55.0)]
    requires Lookup(last.fields, "a_expense") == Some(50.0)
    ensures TopCategory(MonthRecord(MlPrediction.YearMonth(2025, 2), true, prediction), last) == Some("a")
  {
    KeyIsSuffixed("a", "a_expense");
    var keys := Filter(prediction, IsCategoryKey);
    assert prediction[1..] == [("a_expense", 55.0)];
    assert prediction[1..][1..] == [];
    assert !IsCategoryKey(prediction[0]);
    assert IsCategoryKey(prediction[1]) by { assert |"a"| != |"total"|; }
    assert keys == Filter(prediction[1..], IsCategoryKey);
    assert keys == [("a_expense", 55.0)];
    var all := CandidatesFrom(keys, CategoryNames(prediction), last);
    assert all == [Candidate("a", 55.0, 50.0)];
    assert Filter(all, Grew) == all;
  }

  // ---------------------------------------------------------------------------
  // Bar chart
  // ---------------------------------------------------------------------------

  /** The bar heights in percent: each total over 1.1 times the largest;
      absent when the largest total is 0 (no finite height). */
  function BarHeights(totals: seq<real>): (hs: Option<seq<real>>)
    requires |totals| > 0
    ensures hs.None? <==> MaxOf(totals) == 0.0
    ensures hs.Some? ==> |hs.value| == |totals|
    ensures hs.Some? ==> ScaledBy(hs.value, totals, MaxOf(totals) * 1.1)
    ensures hs.Some? && MaxOf(totals) > 0.0 ==> forall i :: 0 <= i < |totals| ==> hs.value[i] * 1.1 <= 100.0
  {
    var mx := MaxOf(totals);
    if mx == 0.0 then None
    else
      var hs := Heights(totals, mx * 1.1);
      HeightsBounded(totals, mx, hs);
      Some(hs)
  }

  lemma HeightsBounded(totals: seq<real>, mx: real, hs: seq<real>)
    requires mx != 0.0 && ScaledBy(hs, totals, mx * 1.1)
    requires forall i :: 0 <= i < |totals| ==> totals[i] <= mx
    ensures mx > 0.0 ==> forall i :: 0 <= i < |totals| ==> hs[i] * 1.1 <= 100.0
  {
    if mx > 0.0 {
      forall i | 0 <= i < |totals|
        ensures hs[i] * 1.1 <= 100.0
      {
        HeightBound(totals[i], mx, hs[i]);
      }
    }
  }

  /** Each height is its total as a percentage of `m`. */
  predicate ScaledBy(hs: seq<real>, totals: seq<real>, m: real)
  {
    |hs| == |totals| && forall i :: 0 <= i < |totals| ==> hs[i] * m == totals[i] * 100.0
  }

  /** Each total scaled to a percentage of `m`. */
  function Heights(totals: seq<real>, m: real): (hs: seq<real>)
    requires m != 0.0
    ensures ScaledBy(hs, totals, m)
    decreases |totals|
  {
    if |totals| == 0 then []
    else
      var h := totals[0] / m * 100.0;
      DivMul(totals[0], m);
      var rest := Heights(totals[1..], m);
      ScaledCons(h, totals[0], rest, totals[1..], m);
      assert totals == [totals[0]] + totals[1..];
      [h] + rest
  }

  lemma ScaledCons(h: real, t: real, hs: seq<real>, ts: seq<real>, m: real)
    requires h * m == t * 100.0 && ScaledBy(hs, ts, m)
    ensures ScaledBy([h] + hs, [t] + ts, m)
  {
    forall i | 0 < i < |ts| + 1
      ensures ([h] + hs)[i] * m == ([t] + ts)[i] * 100.0
    {
      assert ([h] + hs)[i] == hs[i - 1] && ([t] + ts)[i] == ts[i - 1];
    }
  }

  lemma DivMul(x: real, m: real)
    requires m != 0.0
    ensures x / m * 100.0 * m == x * 100.0
  {
  }

  lemma HeightBound(t: real, mx: real, h: real)
    requires mx > 0.0 && t <= mx && h * (mx * 1.1) == t * 100.0
    ensures h * 1.1 <= 100.0
  {
    assert (h * 1.1) * mx == t * 100.0;
  }

  /** `Math.max(...xs)`. */
  function MaxOf(xs: seq<real>): (m: real)
    requires |xs| > 0
    ensures forall i :: 0 <= i < |xs| ==> xs[i] <= m
    ensures exists i :: 0 <= i < |xs| && xs[i] == m
  {
    if |xs| == 1 then xs[0]
    else
      var r := MaxOf(xs[1..]);
      assert forall i :: 1 <= i < |xs| ==> xs[i] == xs[1..][i - 1];
      if xs[0] >= r then xs[0] else r
  }

  // ---------------------------------------------------------------------------
  // Page state
  // ---------------------------------------------------------------------------

  datatype PageState = PageState(
    history: seq<MonthRecord>, prediction: Option<MonthRecord>, loading: bool,
    error: bool, demo: bool)

  /** The prediction analysis and the chart need both history and a
      prediction. */
  predicate ShowsRecommendations(s: PageState) { |s.history| > 0 && s.prediction.Some? }

  /** What the page shows. */
  datatype View = Loading | ErrorWithDemoButton | Content

  function ViewOf(s: PageState): (v: View)
    ensures v == Loading <==> s.loading
    ensures v == ErrorWithDemoButton <==> !s.loading && s.error && s.prediction.None?
  {
    if s.loading then Loading
    else if s.error && s.prediction.None? then ErrorWithDemoButton
    else Content
  }

  /** The response of `/api/predictions`; None for a failed request. Each
      field is None when absent. */
  datatype Payload = Payload(history: Option<seq<MonthRecord>>, prediction: Option<MonthRecord>, isDemo: bool)

  function Fetched(s: PageState, response: Option<Payload>): (t: PageState)
    ensures !t.loading
    ensures response.None? ==> t == s.(loading := false, error := true)
    ensures response.Some? ==>
              && t.error == s.error
              && t.history == response.value.history.GetOr(s.history)
              && t.prediction == (if response.value.prediction.Some? then response.value.prediction else s.prediction)
              && t.demo == (s.demo || response.value.isDemo)
  {
    match response
    case None => s.(loading := false, error := true)
    case Some(p) =>
      s.(history := p.history.GetOr(s.history),
         prediction := if p.prediction.Some? then p.prediction else s.prediction,
         demo := s.demo || p.isDemo,
         loading := false)
  }

  /** The category keys of a demo month and the share of the total each gets. */
  const DemoShares: seq<(string, real)> := [
    ("Alimentação_expense", 0.3), ("Moradia_expense", 0.25), ("Transporte_expense", 0.15),
    ("Lazer_expense", 0.1), ("Saúde_expense", 0.08), ("Educação_expense", 0.07), ("Outros_expense", 0.05)]

  /** Each key of the table with its share of `total`. */
  function SharesOf(table: seq<(string, real)>, total: real): (fs: seq<(string, real)>)
    ensures |fs| == |table|
    decreases |table|
  {
    if |table| == 0 then [] else [(table[0].0, total * table[0].1)] + SharesOf(table[1..], total)
  }

  /** Entry `i` is the table's key `i` with its share of the total. */
  lemma {:induction false} SharesOfEntries(table: seq<(string, real)>, total: real)
    ensures forall i :: 0 <= i < |table| ==>
              SharesOf(table, total)[i].0 == table[i].0 && SharesOf(table, total)[i].1 == total * table[i].1
    decreases |table|
  {
    if |table| > 0 {
      SharesOfEntries(table[1..], total);
      var out := SharesOf(table, total);
      var rest := SharesOf(table[1..], total);
      forall i | 0 < i < |table|
        ensures out[i].0 == table[i].0 && out[i].1 == total * table[i].1
      {
        assert out[i] == rest[i - 1];
        assert table[i] == table[1..][i - 1];
      }
    }
  }

  /** A demo month's fields: the total followed by the fixed category shares. */
  function DemoFields(total: real): (fs: seq<(string, real)>)
    ensures |fs| == 8 && fs[0] == (TotalKey, total)
  {
    [(TotalKey, total)] + SharesOf(DemoShares, total)
  }

  /** Each category of a demo month gets its fixed share of the total. */
  lemma DemoFieldsShares(total: real)
    ensures forall j :: 0 <= j < 7 ==>
              DemoFields(total)[j + 1].0 == DemoShares[j].0 && DemoFields(total)[j + 1].1 == total * DemoShares[j].1
  {
    var cats := SharesOf(DemoShares, total);
    SharesOfEntries(DemoShares, total);
    forall j | 0 <= j < 7
      ensures DemoFields(total)[j + 1].0 == DemoShares[j].0 && DemoFields(total)[j + 1].1 == total * DemoShares[j].1
    {
      assert DemoFields(total)[j + 1] == cats[j];
    }
  }

  /** `showDemoData` on day `today` with the six draws of `Math.random()`,
      oldest month first, using the corrected months. */
  function ShowDemoData(s: PageState, today: JsDate, draws: seq<real>): (t: PageState)
    requires ValidDate(today) && |draws| == 6
    ensures !t.error && t.demo && t.loading == s.loading
    ensures |t.history| == 6 && t.prediction.Some?
    ensures forall k :: 0 <= k < 6 ==> t.history[k].month == DemoMonths(today)[k] && !t.history[k].isPrediction
    ensures t.prediction.value.month == MlPrediction.NextMonth(MonthOf(today)) && t.prediction.value.isPrediction
    ensures Total(t.history[5]) == 3000.0 + draws[5] * 500.0
    ensures Total(t.prediction.value) == Total(t.history[5]) * 1.05
    ensures ViewOf(t) != ErrorWithDemoButton
  {
    var ms := DemoMonths(today);
    var hist := seq(6, k requires 0 <= k < 6 =>
      MonthRecord(ms[k], false, DemoFields(3000.0 + ((5 - k) as real) * 100.0 + draws[k] * 500.0)));
    var lastTotal := 3000.0 + draws[5] * 500.0;
    assert hist[5] == MonthRecord(ms[5], false, DemoFields(lastTotal));
    DemoTotal(ms[5], false, lastTotal);
    var p := MonthRecord(DemoPredictionMonth(today), true, DemoFields(lastTotal * 1.05));
    DemoTotal(p.month, true, lastTotal * 1.05);
    s.(history := hist, prediction := Some(p), demo := true, error := false)
  }

  /** A demo month's total is the one it was built from. */
  lemma DemoTotal(month: MlPrediction.YearMonth, isPrediction: bool, total: real)
    ensures Total(MonthRecord(month, isPrediction, DemoFields(total))) == total
  {
    var fs := DemoFields(total);
    assert fs[0] == (TotalKey, total);
  }

  /** What the recommendations panel says: the direction of the prediction
      against the last historical month, and the category with the largest
      increase. */
  datatype Advice = Advice(trend: Trend, top: Option<string>)

  /** `renderRecommendations`: nothing without history or prediction;
      otherwise the trend of the prediction's total against the last month's,
      and the top category. */
  function Recommendations(s: PageState): (r: Option<Advice>)
    ensures r.Some? <==> ShowsRecommendations(s)
    ensures r.Some? ==>
              var last := s.history[|s.history| - 1];
              && (r.value.trend.Increase? <==> Total(s.prediction.value) > Total(last))
              && (r.value.trend.percent.None? <==> Total(last) == 0.0)
              && NamesTop(r.value.top, Grown(s.prediction.value, last))
  {
    if !ShowsRecommendations(s) then None
    else
      var last := s.history[|s.history| - 1];
      Some(Advice(TrendOf(Total(last), Total(s.prediction.value)), TopCategory(s.prediction.value, last)))
  }

  /** The totals the bar chart draws: the history's, then the prediction's. */
  function ChartTotals(s: PageState): (ts: seq<real>)
    requires ShowsRecommendations(s)
    ensures |ts| == |s.history| + 1
    ensures forall k :: 0 <= k < |s.history| ==> ts[k] == Total(s.history[k])
    ensures ts[|s.history|] == Total(s.prediction.value)
  {
    seq(|s.history|, k requires 0 <= k < |s.history| => Total(s.history[k])) + [Total(s.prediction.value)]
  }

  /** `renderBarChart`: nothing without history or prediction, and no finite
      heights when every total is 0; otherwise one bar per month and one for
      the prediction, the prediction's last. */
  function BarChart(s: PageState): (r: Option<seq<real>>)
    ensures r.Some? ==> ShowsRecommendations(s) && |r.value| == |s.history| + 1
    ensures r.Some? ==> ScaledBy(r.value, ChartTotals(s), MaxOf(ChartTotals(s)) * 1.1)
    ensures ShowsRecommendations(s) ==> (r.None? <==> MaxOf(ChartTotals(s)) == 0.0)
  {
    if !ShowsRecommendations(s) then None else BarHeights(ChartTotals(s))
  }

  /** The demo data always predicts a rise of 5%, and draws its chart. */
  lemma DemoPredictsIncrease(s: PageState, today: JsDate, draws: seq<real>)
    requires ValidDate(today) && |draws| == 6
    requires forall k :: 0 <= k < 6 ==> 0.0 <= draws[k] < 1.0
    ensures var t := ShowDemoData(s, today, draws);
            && Recommendations(t).Some? && Recommendations(t).value.trend == Increase(Some(5.0))
            && BarChart(t).Some?
  {
    var t := ShowDemoData(s, today, draws);
    var last := Total(t.history[5]);
    assert last > 0.0;
    RisingState(t, last);
  }

  /** A prediction 5% above a positive last month reads as a 5% increase,
      and its chart has finite heights. */
  lemma RisingState(t: PageState, last: real)
    requires ShowsRecommendations(t) && |t.history| == 6
    requires last > 0.0 && Total(t.history[5]) == last && Total(t.prediction.value) == last * 1.05
    ensures Recommendations(t).Some? && Recommendations(t).value.trend == Increase(Some(5.0))
    ensures BarChart(t).Some?
  {
    RisingTrend(t, last);
    RisingChart(t, last);
  }

  lemma RisingTrend(t: PageState, last: real)
    requires ShowsRecommendations(t) && |t.history| == 6
    requires last > 0.0 && Total(t.history[5]) == last && Total(t.prediction.value) == last * 1.05
    ensures Recommendations(t).Some? && Recommendations(t).value.trend == Increase(Some(5.0))
  {
    RecommendedTrend(t);
    RiseOfFivePercent(last);
  }

  /** The advice's trend compares the prediction's total with the last month's. */
  lemma RecommendedTrend(s: PageState)
    requires ShowsRecommendations(s)
    ensures Recommendations(s).Some?
    ensures Recommendations(s).value.trend == TrendOf(Total(s.history[|s.history| - 1]), Total(s.prediction.value))
  {
  }

  lemma RisingChart(t: PageState, last: real)
    requires ShowsRecommendations(t) && |t.history| == 6
    requires last > 0.0 && Total(t.history[5]) == last
    ensures BarChart(t).Some?
  {
    assert ChartTotals(t)[5] == last;
  }

  lemma RiseOfFivePercent(last: real)
    requires last > 0.0
    ensures TrendOf(last, last * 1.05) == Increase(Some(5.0))
  {
    var tr := TrendOf(last, last * 1.05);
    assert tr.percent.value * last == 5.0 * last;
  }
}

=== FILE: reports.dfy ===
/** The read-only endpoints of backend/app.py that aggregate transactions:
    the summary, the report (totals for an optional date range, totals per
    category and the monthly evolution), the analysis (category shares and
    the situation from the rule tables), the suggested savings goal and the
    investment listing. Row order that SQL leaves unspecified (groups before
    ORDER BY, ties) is fixed here as order of first occurrence. */
module Reports {
  import opened Common
  import opened Db

  /** Income, expense and their difference. */
  datatype Totals = Totals(income: real, expense: real, balance: real)

  /** The three figures over the given transactions: the amounts of the
      income rows summed, the amounts of the expense rows summed (each 0 when
      there is no such row) and their difference. */
  function TotalsOf(ts: seq<Transaction>): (t: Totals)
    ensures t.income == SumBy(RowsOn(IncomeSide, ts), AmountOf)
    ensures t.expense == SumBy(RowsOn(ExpenseSide, ts), AmountOf)
    ensures t.balance == t.income - t.expense
    ensures (forall x :: x in ts ==> x.kind != IncomeType) ==> t.income == 0.0
    ensures (forall x :: x in ts ==> x.kind != ExpenseType) ==> t.expense == 0.0
  {
    assert (forall x :: x in ts ==> x.kind != IncomeType) ==> TotalIncome(ts) == 0.0 by {
      if forall x :: x in ts ==> x.kind != IncomeType {
        SumByZero(ts, IncomePart);
      }
    }
    assert (forall x :: x in ts ==> x.kind != ExpenseType) ==> TotalExpense(ts) == 0.0 by {
      if forall x :: x in ts ==> x.kind != ExpenseType {
        SumByZero(ts, ExpensePart);
      }
    }
    SideTotalIsAmountSum(IncomeSide, ts);
    SideTotalIsAmountSum(ExpenseSide, ts);
    var income := TotalIncome(ts);
    var expense := TotalExpense(ts);
    Totals(income, expense, income - expense)
  }

  function AmountOf(t: Transaction): real { t.amount }

  /** A side's total is the sum of the amounts of that side's rows. */
  lemma SideTotalIsAmountSum(side: Side, ts: seq<Transaction>)
    ensures TotalOn(side, ts) == SumBy(RowsOn(side, ts), AmountOf)
  {
    var rows := RowsOn(side, ts);
    var part := PartOn(side);
    forall x | x in rows
      ensures part(x) == AmountOf(x)
    {
      OnSidePart(side, x);
    }
    SumByAgree(rows, AmountOf, part);
    RowsOnKeepTotal(side, ts);
  }

  lemma OnSidePart(side: Side, x: Transaction)
    requires x.kind == KindOf(side)
    ensures PartOn(side)(x) == x.amount
  {
    match side
    case IncomeSide =>
    case ExpenseSide => assert ExpenseType != IncomeType;
  }

  /** `GET /api/summary`: the figures over every stored transaction. */
  function Summary(s: Store): (t: Totals)
    ensures t.income == SumBy(RowsOn(IncomeSide, s.transactions), AmountOf)
    ensures t.expense == SumBy(RowsOn(ExpenseSide, s.transactions), AmountOf)
    ensures t.balance == t.income - t.expense
  {
    TotalsOf(s.transactions)
  }

  // ---------------------------------------------------------------------------
  // The date range
  // ---------------------------------------------------------------------------

  /** `date BETWEEN start AND end`, a text comparison. */
  predicate InRange(t: Transaction, start: string, end: string)
  {
    LexLe(start, t.date) && LexLe(t.date, end)
  }

  /** The range applies only when both bounds are given and non-empty. */
  function Selected(ts: seq<Transaction>, start: Option<string>, end: Option<string>): (r: seq<Transaction>)
    ensures !(NamesBound(start) && NamesBound(end)) ==> r == ts
    ensures NamesBound(start) && NamesBound(end) ==>
              forall x :: x in r <==> x in ts && InRange(x, start.value, end.value)
  {
    if NamesBound(start) && NamesBound(end) then Filter(ts, (x: Transaction) => InRange(x, start.value, end.value))
    else ts
  }

  predicate NamesBound(b: Option<string>) { b.Some? && b.value != "" }

  // ---------------------------------------------------------------------------
  // Totals per category
  // ---------------------------------------------------------------------------

  /** The two sides of the ledger; each has its own rows and totals. */
  datatype Side = IncomeSide | ExpenseSide

  function KindOf(side: Side): string
  {
    match side
    case IncomeSide => IncomeType
    case ExpenseSide => ExpenseType
  }

  predicate IsIncome(t: Transaction) { t.kind == IncomeType }
  predicate IsExpense(t: Transaction) { t.kind == ExpenseType }

  function IsOn(side: Side): Transaction -> bool
  {
    match side
    case IncomeSide => IsIncome
    case ExpenseSide => IsExpense
  }

  function PartOn(side: Side): Transaction -> real
  {
    match side
    case IncomeSide => IncomePart
    case ExpenseSide => ExpensePart
  }

  function TotalOn(side: Side, ts: seq<Transaction>): real
  {
    match side
    case IncomeSide => TotalIncome(ts)
    case ExpenseSide => TotalExpense(ts)
  }

  /** The transactions of one side (`WHERE t.type = ...`). */
  function RowsOn(side: Side, ts: seq<Transaction>): (r: seq<Transaction>)
    ensures forall x :: x in r <==> x in ts && x.kind == KindOf(side)
  {
    Filter(ts, IsOn(side))
  }

  /** Keeping only one side's rows keeps that side's total. */
  lemma RowsOnKeepTotal(side: Side, ts: seq<Transaction>)
    ensures SumBy(RowsOn(side, ts), PartOn(side)) == TotalOn(side, ts)
  {
    SumByFilter(ts, IsOn(side), PartOn(side));
    SumByZero(Reject(ts, IsOn(side)), PartOn(side));
  }

  function CategoryKey(t: Transaction): Option<nat> { t.categoryId }

  /** A category group: the name of its category (None when the transactions
      have no category or it does not exist) and its total. */
  datatype GroupRow = GroupRow(name: Option<string>, total: real)

  function GroupTotal(g: GroupRow): real { g.total }

  /** The name a LEFT JOIN gives to a group's key. */
  function GroupName(cs: seq<Category>, key: Option<nat>): (r: Option<string>)
    ensures r.Some? ==> key.Some? && exists c :: c in cs && c.id == key.value && c.name == r.value
    ensures key.Some? && (exists c :: c in cs && c.id == key.value) ==> r.Some?
  {
    match key
    case None => None
    case Some(id) =>
      match CategoryById(cs, id)
      case None => None
      case Some(c) => Some(c.name)
  }

  /** One row per key, in key order. */
  function GroupRows(ts: seq<Transaction>, cs: seq<Category>, f: Transaction -> real, ks: seq<Option<nat>>): (rows: seq<GroupRow>)
    ensures |rows| == |ks|
    ensures forall i :: 0 <= i < |ks| ==> rows[i] == GroupRow(GroupName(cs, ks[i]), SumWhere(ts, CategoryKey, ks[i], f))
    decreases |ks|
  {
    if |ks| == 0 then []
    else GroupRows(ts, cs, f, ks[..|ks| - 1]) + [GroupRow(GroupName(cs, ks[|ks| - 1]), SumWhere(ts, CategoryKey, ks[|ks| - 1], f))]
  }

  lemma {:induction false} GroupRowsTotal(ts: seq<Transaction>, cs: seq<Category>, f: Transaction -> real, ks: seq<Option<nat>>)
    ensures SumBy(GroupRows(ts, cs, f, ks), GroupTotal) == GroupTotals(ts, CategoryKey, f, ks)
    decreases |ks|
  {
    if |ks| > 0 {
      var rows := GroupRows(ts, cs, f, ks);
      assert rows[..|rows| - 1] == GroupRows(ts, cs, f, ks[..|ks| - 1]);
      GroupRowsTotal(ts, cs, f, ks[..|ks| - 1]);
    }
  }

  /** A group the report shows: its name is neither NULL nor empty. */
  predicate Named(g: GroupRow) { g.name.Some? && g.name.value != "" }

  /** The groups of one side before the named filter. */
  function SideGroups(side: Side, ts: seq<Transaction>, cs: seq<Category>): seq<GroupRow>
  {
    var rows := RowsOn(side, ts);
    GroupRows(rows, cs, PartOn(side), Keys(rows, CategoryKey))
  }

  /** The named groups, largest total first (`ORDER BY total DESC` and the
      `if row['name']` filter). */
  function NamedByTotal(groups: seq<GroupRow>): (r: seq<GroupRow>)
    ensures forall g :: g in r <==> g in groups && Named(g)
    ensures SortedDesc(r, GroupTotal)
    ensures multiset(r) == multiset(Filter(groups, Named))
  {
    var kept := Filter(groups, Named);
    var r := SortDesc(kept, GroupTotal);
    assert forall g :: g in r <==> g in multiset(kept);
    r
  }

  /** The per-category rows of one side: exactly the named groups of that
      side's rows, each with its category's name and its total, largest
      total first. */
  function ByCategory(side: Side, ts: seq<Transaction>, cs: seq<Category>): (r: seq<GroupRow>)
    ensures SortedDesc(r, GroupTotal)
    ensures forall g :: g in r <==> g in SideGroups(side, ts, cs) && Named(g)
    ensures forall g :: g in r ==>
              exists k :: k in Keys(RowsOn(side, ts), CategoryKey)
                           && g == GroupRow(GroupName(cs, k), SumWhere(RowsOn(side, ts), CategoryKey, k, PartOn(side)))
  {
    var rows := RowsOn(side, ts);
    var ks := Keys(rows, CategoryKey);
    forall g | g in SideGroups(side, ts, cs)
      ensures exists k :: k in ks && g == GroupRow(GroupName(cs, k), SumWhere(rows, CategoryKey, k, PartOn(side)))
    {
      var i :| 0 <= i < |ks| && SideGroups(side, ts, cs)[i] == g;
      assert ks[i] in ks;
    }
    NamedByTotal(SideGroups(side, ts, cs))
  }

  /** The shown category totals plus the totals of the groups dropped for a
      missing name make up the side's total: nothing is counted twice and
      nothing is lost. */
  lemma ByCategoryAddsUp(side: Side, ts: seq<Transaction>, cs: seq<Category>)
    ensures SumBy(ByCategory(side, ts, cs), GroupTotal)
            + SumBy(Reject(SideGroups(side, ts, cs), Named), GroupTotal)
            == TotalOn(side, ts)
  {
    var rows := RowsOn(side, ts);
    var groups := SideGroups(side, ts, cs);
    SumByPermutation(ByCategory(side, ts, cs), Filter(groups, Named), GroupTotal);
    SumByFilter(groups, Named, GroupTotal);
    GroupRowsTotal(rows, cs, PartOn(side), Keys(rows, CategoryKey));
    GroupTotalsPartition(rows, CategoryKey, PartOn(side));
    RowsOnKeepTotal(side, ts);
  }

  /** When every transaction of the side has a category with a non-empty
      name, the category totals add up to the side's total. */
  lemma ByCategoryCoversNamed(side: Side, ts: seq<Transaction>, cs: seq<Category>)
    requires forall t :: t in ts && t.kind == KindOf(side) ==>
               t.categoryId.Some? && exists c :: c in cs && c.id == t.categoryId.value && c.name != ""
    requires Distinct(CategoryIds(cs))
    ensures SumBy(ByCategory(side, ts, cs), GroupTotal) == TotalOn(side, ts)
  {
    var rows := RowsOn(side, ts);
    var ks := Keys(rows, CategoryKey);
    var groups := SideGroups(side, ts, cs);
    forall i | 0 <= i < |groups|
      ensures Named(groups[i])
    {
      assert ks[i] in ks;
      var t :| t in rows && CategoryKey(t) == ks[i];
      var c :| c in cs && c.id == t.categoryId.value && c.name != "";
      NamedById(cs, c);
    }
    SumByZero(Reject(groups, Named), GroupTotal);
    ByCategoryAddsUp(side, ts, cs);
  }

  lemma NamedById(cs: seq<Category>, c: Category)
    requires c in cs && Distinct(CategoryIds(cs))
    ensures CategoryById(cs, c.id) == Some(c)
  {
    var r := CategoryById(cs, c.id);
    var i :| 0 <= i < |cs| && cs[i] == c;
    var j :| 0 <= j < |cs| && cs[j] == r.value;
    assert CategoryIds(cs)[i] == c.id && CategoryIds(cs)[j] == c.id;
  }

  // ---------------------------------------------------------------------------
  // Monthly evolution
  // ---------------------------------------------------------------------------

  /** `strftime('%Y-%m', date)`, for dates written as YYYY-MM-DD. */
  function MonthKey(t: Transaction): string { MonthPrefix(t.date) }

  datatype MonthRow = MonthRow(month: string, income: real, expense: real, balance: real)

  function RowMonth(m: MonthRow): string { m.month }
  function RowIncome(m: MonthRow): real { m.income }
  function RowExpense(m: MonthRow): real { m.expense }
  function RowBalance(m: MonthRow): real { m.balance }

  /** One row per month key, in key order, each with its balance. */
  function MonthRows(ts: seq<Transaction>, ks: seq<string>): (rows: seq<MonthRow>)
    ensures |rows| == |ks|
    ensures forall i :: 0 <= i < |ks| ==>
              && rows[i].month == ks[i]
              && rows[i].income == SumWhere(ts, MonthKey, ks[i], IncomePart)
              && rows[i].expense == SumWhere(ts, MonthKey, ks[i], ExpensePart)
              && rows[i].balance == rows[i].income - rows[i].expense
    decreases |ks|
  {
    if |ks| == 0 then []
    else
      var m := ks[|ks| - 1];
      var income := SumWhere(ts, MonthKey, m, IncomePart);
      var expense := SumWhere(ts, MonthKey, m, ExpensePart);
      MonthRows(ts, ks[..|ks| - 1]) + [MonthRow(m, income, expense, income - expense)]
  }

  lemma {:induction false} MonthRowsTotals(ts: seq<Transaction>, ks: seq<string>)
    ensures SumBy(MonthRows(ts, ks), RowIncome) == GroupTotals(ts, MonthKey, IncomePart, ks)
    ensures SumBy(MonthRows(ts, ks), RowExpense) == GroupTotals(ts, MonthKey, ExpensePart, ks)
    decreases |ks|
  {
    if |ks| > 0 {
      var rows := MonthRows(ts, ks);
      assert rows[..|rows| - 1] == MonthRows(ts, ks[..|ks| - 1]);
      MonthRowsTotals(ts, ks[..|ks| - 1]);
    }
  }

  /** Months of distinct rows in ascending order (`ORDER BY month`). */
  function ByMonth(rows: seq<MonthRow>): (r: seq<MonthRow>)
    requires forall i, j :: 0 <= i < j < |rows| ==> rows[i].month != rows[j].month
    ensures SortedByText(r, RowMonth)
    ensures multiset(r) == multiset(rows)
    ensures forall i, j :: 0 <= i < j < |r| ==> r[i].month != r[j].month
  {
    var r := SortByText(rows, RowMonth);
    forall i, j | 0 <= i < j < |r|
      ensures r[i].month != r[j].month
    {
      DistinctPositions(r, rows, i, j);
    }
    r
  }

  /** The monthly evolution over every transaction (the date range does not
      apply to it): one row per month, in ascending month order. */
  function MonthlyEvolution(ts: seq<Transaction>): (r: seq<MonthRow>)
    ensures SortedByText(r, RowMonth)
    ensures forall i, j :: 0 <= i < j < |r| ==> r[i].month != r[j].month
    ensures multiset(r) == multiset(MonthRows(ts, Keys(ts, MonthKey)))
    ensures forall m :: m in r ==> m.balance == m.income - m.expense
  {
    var rows := MonthRows(ts, Keys(ts, MonthKey));
    var r := ByMonth(rows);
    assert forall m :: m in r ==> m in multiset(rows);
    r
  }

  /** Two positions of a permutation of rows with distinct months hold rows
      of different months. */
  lemma DistinctPositions(r: seq<MonthRow>, rows: seq<MonthRow>, i: nat, j: nat)
    requires multiset(r) == multiset(rows)
    requires forall a, b :: 0 <= a < b < |rows| ==> rows[a].month != rows[b].month
    requires i < j < |r|
    ensures r[i].month != r[j].month
  {
    assert r[i] in multiset(rows) && r[j] in multiset(rows);
    var a :| 0 <= a < |rows| && rows[a] == r[i];
    var b :| 0 <= b < |rows| && rows[b] == r[j];
    if a == b {
      var x := r[i];
      assert multiset(r)[x] >= 2 by {
        assert r == r[..i] + [x] + r[i + 1..j] + [r[j]] + r[j + 1..];
      }
      assert Distinct(rows);
      DistinctCountOne(rows, x);
    }
  }

  lemma {:induction false} DistinctCountOne<T>(s: seq<T>, x: T)
    requires Distinct(s)
    ensures multiset(s)[x] <= 1
    decreases |s|
  {
    if |s| > 0 {
      assert s == s[..|s| - 1] + [s[|s| - 1]];
      DistinctCountOne(s[..|s| - 1], x);
      if s[|s| - 1] == x {
        assert x !in s[..|s| - 1];
      }
    }
  }

  /** The monthly balances add up to the balance over all transactions. */
  lemma MonthlyBalancesAddUp(ts: seq<Transaction>)
    ensures SumBy(MonthlyEvolution(ts), RowBalance) == TotalIncome(ts) - TotalExpense(ts)
  {
    var ks := Keys(ts, MonthKey);
    var rows := MonthRows(ts, ks);
    var r := MonthlyEvolution(ts);
    SumByPermutation(r, rows, RowBalance);
    SumByDiff(rows, RowIncome, RowExpense, RowBalance);
    MonthRowsTotals(ts, ks);
    GroupTotalsPartition(ts, MonthKey, IncomePart);
    GroupTotalsPartition(ts, MonthKey, ExpensePart);
  }

  // ---------------------------------------------------------------------------
  // The report
  // ---------------------------------------------------------------------------

  datatype Report = Report(
    summary: Totals, expenseByCategory: seq<GroupRow>, incomeByCategory: seq<GroupRow>, monthly: seq<MonthRow>)

  /** `GET /api/relatorio`: totals and category rows over the selected
      transactions, the monthly evolution over all of them. */
  function GetReport(s: Store, start: Option<string>, end: Option<string>): (r: Report)
    ensures var sel := Selected(s.transactions, start, end);
            && r.summary == TotalsOf(sel)
            && r.expenseByCategory == ByCategory(ExpenseSide, sel, s.categories)
            && r.incomeByCategory == ByCategory(IncomeSide, sel, s.categories)
            && r.monthly == MonthlyEvolution(s.transactions)
  {
    var sel := Selected(s.transactions, start, end);
    Report(TotalsOf(sel), ByCategory(ExpenseSide, sel, s.categories), ByCategory(IncomeSide, sel, s.categories),
           MonthlyEvolution(s.transactions))
  }

  /** Without a full date range, the report's balance and the summary's agree
      with the sum of the monthly balances. */
  lemma ReportBalanceIsMonthlySum(s: Store, start: Option<string>, end: Option<string>)
    requires !(NamesBound(start) && NamesBound(end))
    ensures GetReport(s, start, end).summary == Summary(s)
    ensures SumBy(GetReport(s, start, end).monthly, RowBalance) == Summary(s).balance
  {
    MonthlyBalancesAddUp(s.transactions);
  }

  // ---------------------------------------------------------------------------
  // The analysis
  // ---------------------------------------------------------------------------

  /** A category's share of the expenses. */
  datatype CategoryShare = CategoryShare(category: string, total: real, percentage: real)

  function ShareTotal(c: CategoryShare): real { c.total }
  function SharePercentage(c: CategoryShare): real { c.percentage }

  /** The divisor of the shares: the expense total when positive, else 1. */
  function ShareDivisor(totalExpense: real): (d: real)
    ensures d > 0.0
    ensures totalExpense > 0.0 ==> d == totalExpense
  {
    if totalExpense > 0.0 then totalExpense else 1.0
  }

  /** The expense transactions whose category exists (an inner JOIN). */
  function Joined(ts: seq<Transaction>, cs: seq<Category>): (r: seq<Transaction>)
    ensures forall t :: t in r <==>
              t in ts && t.kind == ExpenseType && t.categoryId.Some? && exists c :: c in cs && c.id == t.categoryId.value
  {
    Filter(RowsOn(ExpenseSide, ts), InCategoryOf(cs))
  }

  /** The join condition: the transaction's category exists. */
  function InCategoryOf(cs: seq<Category>): Transaction -> bool
  {
    (t: Transaction) => t.categoryId.Some? && CategoryById(cs, t.categoryId.value).Some?
  }

  /** When every expense has an existing category, the join keeps all of
      them and so their total. */
  lemma JoinedKeepsTotal(ts: seq<Transaction>, cs: seq<Category>)
    requires forall t :: t in ts && t.kind == ExpenseType ==>
               t.categoryId.Some? && exists c :: c in cs && c.id == t.categoryId.value
    ensures SumBy(Joined(ts, cs), ExpensePart) == TotalExpense(ts)
  {
    var expenses := RowsOn(ExpenseSide, ts);
    SumByFilter(expenses, InCategoryOf(cs), ExpensePart);
    SumByZero(Reject(expenses, InCategoryOf(cs)), ExpensePart);
    RowsOnKeepTotal(ExpenseSide, ts);
  }

  /** `SUM(t.amount) / d * 100`. */
  function Percentage(total: real, d: real): (p: real)
    requires d > 0.0
    ensures p * d == total * 100.0
    ensures p == total * (100.0 / d)
  {
    assert total / d * 100.0 * d == total * 100.0;
    total / d * 100.0
  }

  function Shares(rows: seq<GroupRow>, d: real): (r: seq<CategoryShare>)
    requires d > 0.0
    requires forall g :: g in rows ==> g.name.Some?
    ensures |r| == |rows|
    ensures forall i :: 0 <= i < |rows| ==>
              r[i] == CategoryShare(rows[i].name.value, rows[i].total, Percentage(rows[i].total, d))
  {
    seq(|rows|, i requires 0 <= i < |rows| => CategoryShare(rows[i].name.value, rows[i].total, Percentage(rows[i].total, d)))
  }

  /** The groups of the joined expenses, one per category key in order of
      first appearance, each with its category's name and the sum of its
      expenses. */
  function JoinedGroups(ts: seq<Transaction>, cs: seq<Category>): (groups: seq<GroupRow>)
    ensures |groups| == |Keys(Joined(ts, cs), CategoryKey)|
    ensures forall i :: 0 <= i < |groups| ==>
              var k := Keys(Joined(ts, cs), CategoryKey)[i];
              groups[i] == GroupRow(GroupName(cs, k), SumWhere(Joined(ts, cs), CategoryKey, k, ExpensePart))
    ensures forall g :: g in groups ==> g.name.Some?
    ensures SumBy(groups, GroupTotal) == SumBy(Joined(ts, cs), ExpensePart)
  {
    var joined := Joined(ts, cs);
    var ks := Keys(joined, CategoryKey);
    var groups := GroupRows(joined, cs, ExpensePart, ks);
    forall i | 0 <= i < |groups|
      ensures groups[i].name.Some?
    {
      assert ks[i] in ks;
      var t :| t in joined && CategoryKey(t) == ks[i];
    }
    GroupRowsTotal(joined, cs, ExpensePart, ks);
    GroupTotalsPartition(joined, CategoryKey, ExpensePart);
    groups
  }

  /** Shares of groups with names, largest total first: a sorted
      permutation of the groups' shares. */
  function SharesByTotal(groups: seq<GroupRow>, d: real): (r: seq<CategoryShare>)
    requires d > 0.0
    requires forall g :: g in groups ==> g.name.Some?
    ensures multiset(r) == multiset(Shares(groups, d))
    ensures forall i :: 0 <= i < |r| ==> r[i].percentage == Percentage(r[i].total, d)
    ensures forall i, j :: 0 <= i < j < |r| ==> r[i].total >= r[j].total
    ensures SumBy(r, ShareTotal) == SumBy(groups, GroupTotal)
  {
    var shares := Shares(groups, d);
    var r := SortDesc(shares, ShareTotal);
    forall i | 0 <= i < |r|
      ensures r[i].percentage == Percentage(r[i].total, d)
    {
      assert r[i] in multiset(shares);
      var j :| 0 <= j < |shares| && shares[j] == r[i];
    }
    SharesTotal(groups, d);
    SumByPermutation(r, shares, ShareTotal);
    r
  }

  lemma {:induction false} SharesTotal(rows: seq<GroupRow>, d: real)
    requires d > 0.0
    requires forall g :: g in rows ==> g.name.Some?
    ensures SumBy(Shares(rows, d), ShareTotal) == SumBy(rows, GroupTotal)
    decreases |rows|
  {
    if |rows| > 0 {
      var init := rows[..|rows| - 1];
      assert forall g :: g in init ==> g in rows;
      assert Shares(rows, d)[..|rows| - 1] == Shares(init, d);
      SharesTotal(init, d);
    }
  }

  /** `x` is the share row of category key `k` over the joined rows: the
      category's name and the sum of its expenses. */
  predicate ShareOfKey(cs: seq<Category>, joined: seq<Transaction>, k: Option<nat>, x: CategoryShare)
  {
    GroupName(cs, k) == Some(x.category) && x.total == SumWhere(joined, CategoryKey, k, ExpensePart)
  }

  /** One share per category key of the joined expenses, in order of first
      appearance: the category's name, the sum of its expenses (`GROUP BY
      t.category_id` over the JOIN) and its percentage of the divisor. The
      keys are distinct, so no category has two shares. */
  function KeyedShares(ts: seq<Transaction>, cs: seq<Category>): (r: seq<CategoryShare>)
    ensures |r| == |Keys(Joined(ts, cs), CategoryKey)|
    ensures forall i :: 0 <= i < |r| ==>
              && ShareOfKey(cs, Joined(ts, cs), Keys(Joined(ts, cs), CategoryKey)[i], r[i])
              && r[i].percentage == Percentage(r[i].total, ShareDivisor(TotalExpense(ts)))
  {
    var joined := Joined(ts, cs);
    var ks := Keys(joined, CategoryKey);
    var d := ShareDivisor(TotalExpense(ts));
    var groups := JoinedGroups(ts, cs);
    var r := Shares(groups, d);
    forall i | 0 <= i < |r|
      ensures ShareOfKey(cs, joined, ks[i], r[i]) && r[i].percentage == Percentage(r[i].total, d)
    {
      assert groups[i] == GroupRow(GroupName(cs, ks[i]), SumWhere(joined, CategoryKey, ks[i], ExpensePart));
      assert r[i] == CategoryShare(groups[i].name.value, groups[i].total, Percentage(groups[i].total, d));
    }
    r
  }

  /** The category rows of the analysis: the per-category shares of the
      joined expenses, largest total first, each with its percentage of the
      divisor. */
  function CategoryShares(ts: seq<Transaction>, cs: seq<Category>): (r: seq<CategoryShare>)
    ensures multiset(r) == multiset(KeyedShares(ts, cs))
    ensures forall x :: x in r <==> x in KeyedShares(ts, cs)
    ensures forall i :: 0 <= i < |r| ==> r[i].percentage == Percentage(r[i].total, ShareDivisor(TotalExpense(ts)))
    ensures forall i, j :: 0 <= i < j < |r| ==> r[i].total >= r[j].total
    ensures SumBy(r, ShareTotal) == SumBy(Joined(ts, cs), ExpensePart)
  {
    var r := SharesByTotal(JoinedGroups(ts, cs), ShareDivisor(TotalExpense(ts)));
    assert forall x :: x in r <==> x in multiset(KeyedShares(ts, cs));
    r
  }

  /** Every category with joined expenses has a share carrying its name and
      the sum of its expenses, every share is such a row, and there are as
      many shares as categories. */
  lemma CategorySharesPerKey(ts: seq<Transaction>, cs: seq<Category>)
    ensures var ks := Keys(Joined(ts, cs), CategoryKey);
            && |CategoryShares(ts, cs)| == |ks|
            && (forall k :: k in ks ==> exists x :: x in CategoryShares(ts, cs) && ShareOfKey(cs, Joined(ts, cs), k, x))
            && (forall x :: x in CategoryShares(ts, cs) ==> exists k :: k in ks && ShareOfKey(cs, Joined(ts, cs), k, x))
  {
    var joined := Joined(ts, cs);
    var ks := Keys(joined, CategoryKey);
    var keyed := KeyedShares(ts, cs);
    var r := CategoryShares(ts, cs);
    PerKeyFromKeyed(cs, joined, ks, keyed, r);
  }

  /** The per-key facts carry over from the keyed list to any permutation
      of it. */
  lemma PerKeyFromKeyed(cs: seq<Category>, joined: seq<Transaction>, ks: seq<Option<nat>>,
                        keyed: seq<CategoryShare>, r: seq<CategoryShare>)
    requires |keyed| == |ks|
    requires forall i :: 0 <= i < |keyed| ==> ShareOfKey(cs, joined, ks[i], keyed[i])
    requires multiset(r) == multiset(keyed)
    ensures |r| == |ks|
    ensures forall k :: k in ks ==> exists x :: x in r && ShareOfKey(cs, joined, k, x)
    ensures forall x :: x in r ==> exists k :: k in ks && ShareOfKey(cs, joined, k, x)
  {
    assert |r| == |multiset(r)| == |multiset(keyed)| == |keyed|;
    forall k | k in ks
      ensures exists x :: x in r && ShareOfKey(cs, joined, k, x)
    {
      var i :| 0 <= i < |ks| && ks[i] == k;
      assert keyed[i] in multiset(r);
    }
    forall x | x in r
      ensures exists k :: k in ks && ShareOfKey(cs, joined, k, x)
    {
      assert x in multiset(keyed);
      var i :| 0 <= i < |keyed| && keyed[i] == x;
      assert ks[i] in ks;
    }
  }

  /** With a positive expense total and every expense in an existing
      category, the shares add up to 100%. */
  lemma SharesAddUpToHundred(ts: seq<Transaction>, cs: seq<Category>)
    requires TotalExpense(ts) > 0.0
    requires forall t :: t in ts && t.kind == ExpenseType ==>
               t.categoryId.Some? && exists c :: c in cs && c.id == t.categoryId.value
    ensures SumBy(CategoryShares(ts, cs), SharePercentage) == 100.0
  {
    JoinedKeepsTotal(ts, cs);
    PercentagesAddUp(CategoryShares(ts, cs), TotalExpense(ts));
  }

  /** Percentages computed against one divisor sum to a hundredth of the divisor's share. */
  lemma {:induction false} PercentagesScale(r: seq<CategoryShare>, d: real)
    requires d > 0.0
    requires forall i :: 0 <= i < |r| ==> r[i].percentage == Percentage(r[i].total, d)
    ensures SumBy(r, SharePercentage) * d == SumBy(r, ShareTotal) * 100.0
    decreases |r|
  {
    if |r| > 0 {
      var init, last := r[..|r| - 1], r[|r| - 1];
      PercentagesScale(init, d);
      var p, t := SumBy(init, SharePercentage), SumBy(init, ShareTotal);
      assert last.percentage * d == last.total * 100.0;
      assert (p + last.percentage) * d == p * d + last.percentage * d;
      assert (t + last.total) * 100.0 == t * 100.0 + last.total * 100.0;
    }
  }

  lemma PercentagesAddUp(r: seq<CategoryShare>, d: real)
    requires d > 0.0
    requires forall i :: 0 <= i < |r| ==> r[i].percentage == Percentage(r[i].total, d)
    requires SumBy(r, ShareTotal) == d
    ensures SumBy(r, SharePercentage) == 100.0
  {
    PercentagesScale(r, d);
    var p := SumBy(r, SharePercentage);
    assert p * d == 100.0 * d;
    assert (p - 100.0) * d == 0.0;
  }

  datatype Analysis = Analysis(summary: Totals, categories: seq<CategoryShare>, situation: SituationAnalysis)

  /** `GET /api/analisar`. */
  function Analyze(s: Store): (a: Analysis)
    ensures a.summary == Summary(s)
    ensures a.categories == CategoryShares(s.transactions, s.categories)
    ensures a.situation == AnalyzeSituation(a.summary.income, a.summary.expense, a.summary.balance)
  {
    var t := Summary(s);
    Analysis(t, CategoryShares(s.transactions, s.categories), AnalyzeSituation(t.income, t.expense, t.balance))
  }

  // ---------------------------------------------------------------------------
  // Goals and investments
  // ---------------------------------------------------------------------------

  /** The goal listing's suggestion: the goal amount and its percentage. */
  datatype SuggestedGoal = SuggestedGoal(amount: real, percentage: nat)

  /** `GET /api/metas`: the goals as stored and a fifth of the income. */
  function GoalsListing(s: Store): (r: (seq<SavingsGoal>, SuggestedGoal))
    ensures r.0 == s.goals
    ensures r.1.amount * 5.0 == TotalIncome(s.transactions) && r.1.percentage == 20
  {
    (s.goals, SuggestedGoal(SavingsGoalFor(TotalIncome(s.transactions)), 20))
  }

  /** `GET /api/investimentos`: the balance and the investments it affords,
      each once per stored row, in `ORDER BY risk_level` order. */
  function InvestmentListing(s: Store): (r: (real, seq<Investment>))
    ensures r.0 == Summary(s).balance
    ensures r.1 == InvestmentSuggestions(s.investments, r.0)
    ensures multiset(r.1) == multiset(Filter(s.investments, x => Affordable(r.0, x)))
    ensures SortedByText(r.1, RiskOf)
    ensures forall x :: x in r.1 <==> x in s.investments && x.minInvestment <= r.0
  {
    var balance := Summary(s).balance;
    (balance, InvestmentSuggestions(s.investments, balance))
  }
}

=== FILE: savings_goals_view.dfy ===
/** The state logic of frontend/src/components/SavingsGoals.js: the goals
    split into active and completed, the progress of a goal, the new-goal
    form and its amount parsing, the suggested goal, and the goal picked for
    an update. The requests are not modelled; `parseFloat` is a parameter. */
module SavingsGoalsView {
  import opened Common
  import Db

  // ---------------------------------------------------------------------------
  // Goal lists
  // ---------------------------------------------------------------------------

  predicate IsCompleted(g: Db.SavingsGoal) { g.completed }
  predicate IsActive(g: Db.SavingsGoal) { !g.completed }

  function ActiveGoals(goals: seq<Db.SavingsGoal>): seq<Db.SavingsGoal> { Filter(goals, IsActive) }
  function CompletedGoals(goals: seq<Db.SavingsGoal>): seq<Db.SavingsGoal> { Filter(goals, IsCompleted) }

  /** The two lists split the goals: together they hold every goal once,
      the active ones not completed and the completed ones completed. */
  lemma {:induction false} GoalsPartitioned(goals: seq<Db.SavingsGoal>)
    ensures multiset(ActiveGoals(goals)) + multiset(CompletedGoals(goals)) == multiset(goals)
    ensures forall g :: g in ActiveGoals(goals) ==> !g.completed
    ensures forall g :: g in CompletedGoals(goals) ==> g.completed
    decreases |goals|
  {
    if |goals| > 0 {
      GoalsPartitioned(goals[1..]);
      assert goals == [goals[0]] + goals[1..];
    }
  }

  // ---------------------------------------------------------------------------
  // Progress
  // ---------------------------------------------------------------------------

  /** `calculateProgress`: the current amount as a percentage of the target,
      not clamped; no finite number for a zero target. */
  function Progress(current: real, target: real): (p: Option<real>)
    ensures p.None? <==> target == 0.0
    ensures p.Some? ==> p.value * target == current * 100.0
  {
    if target == 0.0 then None else Some(current / target * 100.0)
  }

  /** A goal saved past its target shows more than 100%, and one at its
      target exactly 100%. */
  lemma ProgressUnclamped(current: real, target: real)
    requires target > 0.0
    ensures current > target ==> Progress(current, target).value > 100.0
    ensures current == target ==> Progress(current, target).value == 100.0
    ensures 0.0 <= current <= target ==> 0.0 <= Progress(current, target).value <= 100.0
  {
    var p := Progress(current, target).value;
    ScaledPercent(p, current, target);
  }

  /** A percentage `p` of `t` equal to `c`, compared with 0 and 100. */
  lemma ScaledPercent(p: real, c: real, t: real)
    requires t > 0.0 && p * t == c * 100.0
    ensures c > t ==> p > 100.0
    ensures c == t ==> p == 100.0
    ensures c <= t ==> p <= 100.0
    ensures c >= 0.0 ==> p >= 0.0
  {
    if c >= t {
      assert 100.0 * t <= p * t;
      if c > t {
        assert 100.0 * t < p * t;
      }
      CompareScaled(100.0, p, t);
    }
    if c <= t {
      assert p * t <= 100.0 * t;
      CompareScaled(p, 100.0, t);
    }
    if c >= 0.0 {
      assert 0.0 * t <= p * t;
      CompareScaled(0.0, p, t);
    }
  }

  /** Comparing two numbers scaled by the same positive factor. */
  lemma CompareScaled(a: real, b: real, t: real)
    requires t > 0.0
    ensures a * t < b * t ==> a < b
    ensures a * t <= b * t ==> a <= b
  {
    if a > b {
      assert (a - b) * t > 0.0;
      assert a * t - b * t == (a - b) * t;
    }
    if a == b {
      assert a * t == b * t;
    }
  }

  // ---------------------------------------------------------------------------
  // Form fields
  // ---------------------------------------------------------------------------

  /** A form value: text, or the number an amount field was parsed to. */
  datatype Value = Text(text: string) | Number(number: real)

  /** The amount fields store `parseFloat(value) || ''`: a number that
      parses to something other than 0, else the empty text. `parsed` is the
      parse result, None for NaN. */
  function AmountValue(parsed: Option<real>): (v: Value)
    ensures v.Number? <==> parsed.Some? && parsed.value != 0.0
    ensures v.Number? ==> v.number == parsed.value
    ensures v.Text? ==> v.text == ""
  {
    if parsed.Some? && parsed.value != 0.0 then Number(parsed.value) else Text("")
  }

  /** "0" and an unparsable text land on the same empty field, and these
      are the only inputs that do. */
  lemma ZeroAndGarbageAlike(parsed: Option<real>)
    ensures AmountValue(parsed) == Text("") <==> parsed.None? || parsed.value == 0.0
    ensures AmountValue(parsed) == AmountValue(None) <==> AmountValue(parsed) == AmountValue(Some(0.0))
  {
  }

  datatype Field = NameField | TargetField | CurrentField | DeadlineField

  function FieldName(f: Field): string
  {
    match f
    case NameField => "name"
    case TargetField => "target_amount"
    case CurrentField => "current_amount"
    case DeadlineField => "deadline"
  }

  /** The handler treats a field as an amount when its name contains
      "amount". */
  predicate IsAmountField(f: Field) { Contains(FieldName(f), "amount") }

  lemma AmountFields(f: Field)
    ensures IsAmountField(f) <==> f == TargetField || f == CurrentField
  {
    match f
    case TargetField => assert OccursAt("target_amount", "amount", 7);
    case CurrentField => assert OccursAt("current_amount", "amount", 8);
    case NameField => Lacks("name", "amount", 2);
    case DeadlineField => Lacks("deadline", "amount", 2);
  }

  datatype NewGoal = NewGoal(name: Value, target: Value, current: Value, deadline: Value)

  const EmptyGoal := NewGoal(Text(""), Text(""), Text(""), Text(""))

  function Get(g: NewGoal, f: Field): Value
  {
    match f
    case NameField => g.name
    case TargetField => g.target
    case CurrentField => g.current
    case DeadlineField => g.deadline
  }

  /** `handleNewGoalChange` for the text `text` typed into field `f`, whose
      `parseFloat` is `parsed`: that field alone changes, to the parsed amount
      for an amount field and to the text otherwise. */
  function ChangeField(g: NewGoal, f: Field, text: string, parsed: Option<real>): (r: NewGoal)
    ensures forall h :: h != f ==> Get(r, h) == Get(g, h)
    ensures Get(r, f) == if IsAmountField(f) then AmountValue(parsed) else Text(text)
  {
    AmountFields(f);
    var v := if f == TargetField || f == CurrentField then AmountValue(parsed) else Text(text);
    match f
    case NameField => g.(name := v)
    case TargetField => g.(target := v)
    case CurrentField => g.(current := v)
    case DeadlineField => g.(deadline := v)
  }

  /** The suggestion the backend computed. */
  datatype SuggestedGoal = SuggestedGoal(amount: real, percentage: real)

  const SuggestedName := "Meta de economia mensal"

  /** `handleUseSuggestedGoal`: the name and the target come from the
      suggestion; the current amount and the deadline stay as typed. */
  function UseSuggestedGoal(g: NewGoal, s: SuggestedGoal): (r: NewGoal)
    ensures Get(r, NameField) == Text(SuggestedName) && Get(r, TargetField) == Number(s.amount)
    ensures Get(r, CurrentField) == Get(g, CurrentField) && Get(r, DeadlineField) == Get(g, DeadlineField)
  {
    g.(name := Text(SuggestedName), target := Number(s.amount))
  }

  // ---------------------------------------------------------------------------
  // Updating a goal
  // ---------------------------------------------------------------------------

  datatype UpdatePanel = UpdatePanel(selected: Option<Db.SavingsGoal>, amount: Value)

  /** `selectGoalForUpdate`: the goal is selected and the amount starts at
      what it has saved. */
  function SelectGoal(p: UpdatePanel, goal: Db.SavingsGoal): (r: UpdatePanel)
    ensures r.selected == Some(goal)
    ensures r.amount == Number(goal.currentAmount)
  {
    UpdatePanel(Some(goal), Number(goal.currentAmount))
  }

  /** `handleUpdateAmountChange`: the same parsing as the amount fields. */
  function ChangeUpdateAmount(p: UpdatePanel, parsed: Option<real>): (r: UpdatePanel)
    ensures r.selected == p.selected && r.amount == AmountValue(parsed)
  {
    p.(amount := AmountValue(parsed))
  }

  /** The update is sent only with a goal selected; once it succeeds the
      panel is cleared. None when nothing is sent. */
  function UpdateSucceeded(p: UpdatePanel): (r: Option<UpdatePanel>)
    ensures r.None? <==> p.selected.None?
    ensures r.Some? ==> r.value == UpdatePanel(None, Text(""))
  {
    if p.selected.None? then None else Some(UpdatePanel(None, Text("")))
  }
}

=== FILE: transactions_view.dfy ===
/** The state logic of frontend/src/components/Transactions.js: the
    category the form offers for each transaction type, the default picked
    when the categories arrive, when the type changes and after a successful
    submission, and how a transaction without category is listed. */
module TransactionsView {
  import opened Common
  import Db

  /** The form's fields; the amount is still text. */
  datatype Form = Form(date: string, description: string, amountText: string, kind: string, category: string)

  datatype Page = Page(categories: seq<Db.Category>, form: Form, refreshKey: nat, error: bool)

  /** A category of the given type. */
  predicate OfKind(kind: string, c: Db.Category)
  {
    c.kind == kind
  }

  /** The names offered by the category select for a type: the categories of
      that type, one option each, in the order received. */
  function Options(cats: seq<Db.Category>, kind: string): (names: seq<string>)
    ensures |names| == |Filter(cats, c => OfKind(kind, c))|
    ensures forall i :: 0 <= i < |names| ==> names[i] == Filter(cats, c => OfKind(kind, c))[i].name
    ensures forall n :: n in names <==> exists c :: c in cats && c.kind == kind && c.name == n
    decreases |cats|
  {
    if |cats| == 0 then []
    else
      var rest := Options(cats[1..], kind);
      assert forall c :: c in cats[1..] ==> c in cats;
      assert forall c :: c in cats ==> c == cats[0] || c in cats[1..];
      if OfKind(kind, cats[0]) then [cats[0].name] + rest else rest
  }

  /** The name of the first category of the type, "" when there is none. */
  function DefaultCategory(cats: seq<Db.Category>, kind: string): (name: string)
    ensures |Options(cats, kind)| > 0 ==> name == Options(cats, kind)[0]
    ensures |Options(cats, kind)| == 0 ==> name == ""
  {
    var opts := Options(cats, kind);
    if |opts| > 0 then opts[0] else ""
  }

  /** The form's category is one the select offers for its type, or none. */
  predicate CategoryFits(f: Form, cats: seq<Db.Category>)
  {
    f.category == "" || f.category in Options(cats, f.kind)
  }

  /** Without a category of the form's type (in particular before any
      category has arrived), only an empty category fits. */
  lemma NothingFitsWithoutCategories(f: Form, cats: seq<Db.Category>)
    requires forall c :: c in cats ==> c.kind != f.kind
    ensures CategoryFits(f, cats) <==> f.category == ""
  {
  }

  /** `handleTypeChange`: the type changes and the category becomes the
      first one of the new type, or none. */
  function ChangeType(f: Form, cats: seq<Db.Category>, kind: string): (r: Form)
    ensures r == f.(kind := kind, category := DefaultCategory(cats, kind))
    ensures CategoryFits(r, cats)
  {
    f.(kind := kind, category := DefaultCategory(cats, kind))
  }

  /** The categories arriving as written: with an expense category, the
      form's category becomes the first expense category, whatever type the
      form has by then. */
  function CategoriesLoadedAsWritten(p: Page, cats: seq<Db.Category>): (r: Page)
    ensures r.categories == cats && r.refreshKey == p.refreshKey
    ensures |Options(cats, "expense")| > 0 ==> r.form == p.form.(category := Options(cats, "expense")[0])
    ensures |Options(cats, "expense")| == 0 ==> r.form == p.form
  {
    var expense := Options(cats, "expense");
    p.(categories := cats, form := if |expense| > 0 then p.form.(category := expense[0]) else p.form)
  }

  /** If the type was switched to income before the categories arrived, the
      form as written ends up with an expense category under the income
      type, one its select does not offer. */
  lemma IncomeFormGetsExpenseCategory()
    ensures var cats := [Db.Category(1, "Mercado", "expense"), Db.Category(2, "Salário", "income")];
            var p := Page([], Form("2025-04-20", "", "", "income", ""), 0, false);
            var r := CategoriesLoadedAsWritten(p, cats);
            r.form.kind == "income" && r.form.category == "Mercado" && !CategoryFits(r.form, cats)
  {
    var cats := [Db.Category(1, "Mercado", "expense"), Db.Category(2, "Salário", "income")];
    assert Options(cats, "expense") == ["Mercado"];
    assert Options(cats, "income") == ["Salário"];
    assert "Mercado" != "Salário";
  }

  /** The categories arriving: the first category of the form's current type
      becomes its category when there is one. */
  function CategoriesLoaded(p: Page, cats: seq<Db.Category>): (r: Page)
    ensures r.categories == cats && r.refreshKey == p.refreshKey
    ensures p.form.kind == "expense" ==> r == CategoriesLoadedAsWritten(p, cats)
    ensures CategoryFits(p.form, []) ==> CategoryFits(r.form, cats)
  {
    var opts := Options(cats, p.form.kind);
    p.(categories := cats, form := if |opts| > 0 then p.form.(category := opts[0]) else p.form)
  }

  /** The form after a successful submission: an expense dated today, with
      the first expense category or none. */
  function ResetForm(cats: seq<Db.Category>, today: string): (f: Form)
    ensures f.kind == "expense" && f.description == "" && f.amountText == "" && f.date == today
    ensures CategoryFits(f, cats)
  {
    Form(today, "", "", "expense", DefaultCategory(cats, "expense"))
  }

  /** A submission's outcome: success resets the form and asks for the list
      again by moving the refresh key; failure records the error and keeps
      what was typed. */
  function Submitted(p: Page, ok: bool, today: string): (r: Page)
    ensures ok ==> r == p.(form := ResetForm(p.categories, today), refreshKey := p.refreshKey + 1)
    ensures !ok ==> r == p.(error := true)
    ensures r.categories == p.categories
  {
    if ok then p.(form := ResetForm(p.categories, today), refreshKey := p.refreshKey + 1)
    else p.(error := true)
  }

  /** Every change the page makes after the categories arrived keeps the
      form's category among the offered ones. */
  lemma FitsPreserved(p: Page, kind: string, ok: bool, today: string)
    requires CategoryFits(p.form, p.categories)
    ensures CategoryFits(p.(form := ChangeType(p.form, p.categories, kind)).form, p.categories)
    ensures CategoryFits(Submitted(p, ok, today).form, p.categories)
  {
  }

  /** The category cell of the list: the name, or "Não categorizado" for a
      transaction without one. */
  function CategoryLabel(category: Option<string>): (shown: string)
    ensures category.Some? && category.value != "" ==> shown == category.value
    ensures category.None? || category.value == "" ==> shown == "Não categorizado"
  {
    if category.Some? && category.value != "" then category.value else "Não categorizado"
  }
}
